=== FILE: README.md ===
# Harmonia validation-test runner, modelled in Dafny

Harmonia runs a tree of validation tests against a Node.js application. Each
test prepares, runs and records *issues* (notice, warning, error, blocker).
The test ends with a status: NotStarted, Success, PartialSuccess, Failed,
Aborted or Skipped. A blocker or a `skip` stops the test by throwing. A
suite runs its children in order and stops at the first child that ends
Aborted. The orchestrator (`Harmonia`) owns a list of registered tests and a
shared option store. It runs the tests in order, stopping at the first
abort, and summarises the results by status.

This project models that core as pure functions:

- `Issues`, `Stores`, `Results`: the issue builder, the key/value option
  store, and a test's result with its type getters and classification.
- `TestTree`: a generic tree of tests (a leaf test or a suite of children).
  It carries the suite getters that collect the leaves' issues, the
  one-level `results()`, `addTest`, `setOptions`, `save`/`get` and the
  JSON form.
- `Engine`: a test's `prepare` and `run` bodies are given as scripts of
  actions (`notice`, `warning`, `error`, `blocker`, `skip`, a thrown issue, a
  thrown non-issue exception). `Step` and `RunScript` interpret them.
  `ExecuteLeaf` is `Test.execute`. `ExecuteTree` is `TestSuite.execute`.
  `ExecuteInOrder` is the sequential loop shared by suites and the
  orchestrator. Emitted events are a trace. `EngineLemmas` holds the
  properties of these functions.
- `Legacy`: the earlier engine (src/lib/test.ts, src/lib/testsuite.ts). Its
  helpers take no payload, there is no `skip`, no events and no cleanUp, and
  every thrown issue, a notice included, aborts the test. It is proved to agree with the current engine
  on every tree without a Skipped leaf. The earlier result class and suite
  getters behave like the current ones, so both engines share `Results` and
  `TestTree`.
- `Orchestrator`: `Harmonia`'s UID, bootstrap, registration, run loop,
  result flattening, counting by status, summary and issue concatenation.
- `Analytics`: `snakeCase`, the event and property name rules and the
  sanitisation of base parameters.
- `Base64`: `isBase64`, with an independent block-shaped characterisation
  of its regular expression and a reference encoder.
- `DisallowedFiles`, `Health`, `DockerHealthcheck`, `NpmChecks`: the
  concrete tests built on the engine. Their shell calls, HTTP requests and
  the parsed package.json are inputs.

Integers are unbounded. Durations are whole milliseconds. Strings are
`seq<char>`.

## Model

| member | source |  states |
|---|---|---|
| Issues.Build | src/lib/issue.ts:14-22 | A freshly built issue is a notice with empty message and documentation and no data. |
| Issues.SetType | src/lib/issue.ts:24-27 | Setting the type changes the type and leaves every other field as it was. |
| Issues.SetMessage | src/lib/issue.ts:29-32 | Setting the message changes the message and leaves every other field as it was. |
| Issues.SetDocumentation | src/lib/issue.ts:34-37 | Setting the documentation changes only the documentation. |
| Issues.SetData | src/lib/tests/test.ts:187-189 | Attaching a data payload changes only the data. |
| Issues.SettersIndependent | src/lib/issue.ts:24-37 | The setters commute with one another, and a later `setType` overrides an earlier one. |
| Issues.BuilderChain | src/lib/issue.ts:20-32 | `build().setMessage(m).setType(t)` is exactly the issue of kind t with message m. |
| Stores.Empty | src/lib/stores/store.ts:7-9 | A new store has no keys. |
| Stores.Set | src/lib/stores/store.ts:50-52 | After `set`, the key exists with the new value; every other key keeps its presence and value. |
| Stores.Exists | src/lib/stores/store.ts:15-17 | A key exists only in a store whose length is positive: an empty store has no key. |
| Stores.Add | src/lib/stores/store.ts:24-30 | `add` fails with KeyAlreadyExists exactly when the key exists; otherwise it behaves as `set`. |
| Stores.Get | src/lib/stores/store.ts:36-42 | `get` succeeds exactly when the key exists, returning its value; otherwise it fails with KeyDontExist. |
| Stores.Merge | src/lib/stores/store.ts:58-60 | The merged keys are the union of both key sets; the merged object's values win, and the store's values are kept elsewhere. |
| Stores.Length | src/lib/stores/store.ts:62-64 | The length is the number of keys. |
| Stores.AddThenGet | src/lib/stores/store.ts:24-42 | Adding a new key succeeds, `get` then returns the value, and the length grows by one. |
| Stores.AddTwiceFails | src/lib/stores/store.ts:24-27 | Adding the same key a second time fails with KeyAlreadyExists. |
| Stores.SetOverwrites | src/lib/stores/store.ts:50-52 | A second `set` of a key replaces the first, and the length grows only for a new key. |
| Stores.MergeCounts | src/lib/stores/store.ts:58-64 | Merging disjoint key sets adds the lengths, and merging into an empty store gives the merged object. |
| Stores.MergeScenario | __tests__/stores/store.test.ts:50-64 | Adding `hello` and then merging two more keys gives length 3, and `OTHER_KEY` reads back its merged value. |
| Results.StatusLabelRoundTrip | src/lib/results/testresult.ts:39-41 | A status's label parses back to that same status. |
| Results.NewResult | src/lib/results/testresult.ts:17-21 | A new result is NotStarted and has no issues. |
| Results.AddIssue | src/lib/results/testresult.ts:27-29 | Adding an issue appends it at the end, keeps the earlier issues in place and keeps the status. |
| Results.SetResult | src/lib/results/testresult.ts:43-45 | Setting the status changes only the status. |
| Results.OfTypeCounts | src/lib/results/testresult.ts:47-61 | A type getter keeps every issue of its kind as often as it occurs, and drops every other issue. |
| Results.OfTypeAppend | src/lib/results/testresult.ts:47-61 | Filtering distributes over concatenation, so each getter keeps the recording order. |
| Results.FiltersPartition | src/lib/results/testresult.ts:47-61 | The four getters' lengths add up to the number of issues. |
| Results.AddIssueFilters | src/lib/results/testresult.ts:27-29 | After adding an issue, the getter of its kind gains exactly that issue at the end, and the other getters are unchanged. |
| Results.Classify | src/lib/tests/test.ts:118-135 | The result is Failed iff there is an error, PartialSuccess iff no error but some warning, and Success iff neither. |
| Results.ToJson | src/lib/results/testresult.ts:67-73 | The JSON carries the test's name and description, the status label, which parses back to the status, and the issues. |
| Results.JsonRoundTrip | src/lib/results/testresult.ts:67-73 | Reading a result's JSON back gives the same result. |
| TestTree.NewTest | src/lib/tests/test.ts:14-21 | A new test is a leaf with the given name and description, NotStarted and without issues. |
| TestTree.NewSuite | src/lib/tests/testsuite.ts:11-15 | A new suite has no children, has the given name and description, and is NotStarted without issues. |
| TestTree.TypeFilterIsLeafFilter | src/lib/results/testsuiteresult.ts:14-44 | A suite's getter of kind k is the k-filter of all its leaves' issues, in tree order. |
| TestTree.ForestFilterIsLeafFilter | src/lib/results/testsuiteresult.ts:14-44 | For a list of children, the getter is the k-filter of the concatenated leaf issues. |
| TestTree.SuiteGettersIgnoreOwnResult | src/lib/results/testsuiteresult.ts:14-44 | A suite's getters do not depend on the suite's own result. |
| TestTree.QuietChildrenGiveEmptyGetters | src/lib/results/testsuiteresult.ts:14-44 | Children whose leaves hold no issue give empty getters. |
| TestTree.ForestFilterAppend | src/lib/results/testsuiteresult.ts:14-44 | The getters distribute over concatenating lists of children. |
| TestTree.SuiteResults | src/lib/results/testsuiteresult.ts:46-53 | `results()` is no longer than the children, and every test in it has started. |
| TestTree.SuiteResultsMembers | src/lib/results/testsuiteresult.ts:46-53 | A test is in `results()` iff it is a child that has started. |
| TestTree.SuiteResultsAppend | src/lib/results/testsuiteresult.ts:46-53 | `results()` distributes over concatenating lists of children, so it keeps their order. |
| TestTree.AddTest | src/lib/tests/testsuite.ts:56-61 | `addTest` appends the child and leaves the suite's name, description, result and options alone. |
| TestTree.AddTestIsLive | src/lib/results/testsuiteresult.ts:9-12 | After `addTest`, the suite's getters and `results()` include the new child at the end, because the result object reads the live suite. |
| TestTree.SetOptions | src/lib/tests/testsuite.ts:63-68 | `setOptions` gives every node of the tree the same store and leaves names, results and bodies alone. |
| TestTree.SetOptionsAll | src/lib/tests/testsuite.ts:63-68 | Over a list of children, `setOptions` is applied to each child in place. |
| TestTree.SetOptionsKeepsIssues | src/lib/tests/testsuite.ts:63-68 | `setOptions` does not change any getter, and a second `setOptions` overrides the first. |
| TestTree.Save | src/lib/tests/test.ts:74-80 | `save` refuses exactly the reserved keys `site` and `env`, leaving the store alone; otherwise only that key changes. |
| TestTree.Load | src/lib/tests/test.ts:82-88 | `get` yields the value when the key exists, and `false` (None) when it does not. |
| TestTree.SaveThenLoad | src/lib/tests/test.ts:74-88 | A saved key reads back its value, and saving under `site` never changes what `site` reads. |
| TestTree.ToJsonTree | src/lib/results/testsuiteresult.ts:55-60 | A leaf's JSON is its result's JSON; a suite's JSON has its name, description and status label, and one entry per started child. |
| TestTree.ResultsJson | src/lib/results/testsuiteresult.ts:55-60 | The suite's `tests` field has one entry per started child. |
| TestTree.ResultsJsonEach | src/lib/results/testsuiteresult.ts:55-60 | Entry i of a suite's `tests` field is the JSON of the i-th started child. |
| Engine.Step | src/lib/tests/test.ts:137-176 | One call records its issue and marks Failed only for `error`; `blocker` and `skip` record and then throw (skip sets Skipped); a thrown value records nothing. |
| Engine.RunScriptAppend | src/lib/tests/test.ts:28-35 | Running `prepare` then `run` is running the first script and, unless it threw, the second from where it left off. |
| Engine.ExecuteLeaf | src/lib/tests/test.ts:27-64 | `execute` keeps the test's identity and bodies; its event trace starts with `beforeTest` and ends with `testCleanUp`. |
| Engine.ExecuteTree | src/lib/tests/testsuite.ts:19-43 | Executing a tree keeps its shape; every node that returns normally is no longer NotStarted. |
| Engine.ExecuteInOrder | src/lib/tests/testsuite.ts:27-35 | The loop returns one test per child, runs at most all of them, and an abort is a normal return. |
| Engine.InOrderRunsPrefix | src/lib/tests/testsuite.ts:27-35 | The children the loop ran are replaced by their executions; the rest are untouched. |
| Engine.InOrderStops | src/lib/tests/testsuite.ts:27-35 | The loop stops right after the first Aborted child or the first rethrown exception, and runs every child otherwise. |
| EngineLemmas.RunQuiet | src/lib/tests/test.ts:153-176 | A script of notices, warnings and errors never throws; it records one issue per call, and the status becomes Failed iff it calls `error`. |
| EngineLemmas.RunUntilUnwind | src/lib/tests/test.ts:137-151 | A script stops at its first throwing action: the result is the quiet prefix followed by that action. |
| EngineLemmas.RecordedKinds | src/lib/tests/test.ts:153-176 | A quiet script records an error (a warning) iff it calls `error` (`warning`). |
| EngineLemmas.NewTestNotStarted | src/lib/tests/test.ts:14-21 | A new test is NotStarted and has no issues. |
| EngineLemmas.LeafCompletes | src/lib/tests/test.ts:27-40 | A test whose bodies never throw returns normally, keeps its earlier issues followed by the recorded ones, and gets the status `processResult` computes from them. |
| EngineLemmas.FreshLeafClassification | src/lib/tests/test.ts:118-135 | For a fresh test with quiet bodies: Failed iff some `error` call, PartialSuccess iff some `warning` and no `error`, Success otherwise. |
| EngineLemmas.LeafUnwinds | src/lib/tests/test.ts:41-57 | When the k-th action throws: a blocker aborts; a skip ends Skipped; a thrown notice after `skip` stays Skipped and any other thrown issue aborts; any other exception is rethrown with the issues so far. |
| EngineLemmas.LeafUnwindFrame | src/lib/tests/test.ts:137-151 | The bodies' result and thrown value are those of the quiet prefix followed by the throwing step. |
| EngineLemmas.LeafCleanUpOnce | src/lib/tests/test.ts:58-61 | `testCleanUp` is emitted exactly once, as the last event, whatever the bodies do. |
| EngineLemmas.ScriptEventsAreIssues | src/lib/tests/test.ts:145-176 | The only events the bodies emit are `issue` events. |
| EngineLemmas.WarningThenError | src/lib/tests/test.ts:153-169 | A warning followed by an error ends Failed with both issues, in order. |
| EngineLemmas.SuiteExecution | src/lib/tests/testsuite.ts:19-50 | A suite whose `prepare` throws rethrows it without running children. Otherwise an exception from a child is rethrown, an Aborted child aborts the suite, and else the suite is Aborted if its prepare aborted it or classified from its leaves' errors and warnings. |
| EngineLemmas.SuiteShortCircuit | src/lib/tests/testsuite.ts:27-34 | When a child aborts, the suite is Aborted; the children before it ran without aborting, and those after it were not run. |
| EngineLemmas.SuiteRunsAllUnlessAborted | src/lib/tests/testsuite.ts:27-35 | With no abort and no exception, every child ran and none ended Aborted. |
| EngineLemmas.SuiteScenario | src/lib/tests/testsuite.ts:27-38 | With children (empty, lone blocker, not started), the suite is Aborted; the first child succeeds, the second aborts, and the third stays NotStarted. |
| EngineLemmas.EmptyLeafSucceeds | src/lib/tests/test.ts:118-135 | A fresh test with empty bodies returns Success. |
| EngineLemmas.LoneBlockerAborts | src/lib/tests/test.ts:145-151 | A fresh test whose only action is a blocker returns Aborted. |
| EngineLemmas.SuiteOwnErrorIsReclassified | src/lib/tests/testsuite.ts:45-50 | A suite's own `error` in `prepare` is recorded, but the suite ends Success, because classification reads only its leaves. |
| EngineLemmas.SuitePrepareBlockerEscapes | src/lib/tests/testsuite.ts:19-25 | A blocker in a suite's `prepare` escapes as the thrown issue, with no child run and no `afterTestSuite` or `testCleanUp` event. |
| Legacy.Step | src/lib/test.ts:74-110 | In the earlier engine every helper call appends exactly one issue: its own kind, message and documentation, with no data. `error` also marks the result Failed, and any other call keeps the status. `blocker` throws the issue it recorded; a thrown issue or exception is thrown as given and records nothing. |
| Legacy.Run | src/lib/test.ts:20-29 | Running a script only appends issues, and only `error` can move the status, to Failed. |
| Legacy.ExecuteLeaf | src/lib/test.ts:20-43 | The earlier `execute` keeps the test's identity and bodies. |
| Legacy.ExecuteTree | src/lib/testsuite.ts:77-108 | The earlier suite execution keeps the tree's shape. |
| Legacy.ExecuteInOrder | src/lib/testsuite.ts:85-93 | The earlier loop returns one test per child and runs at most all of them. |
| Legacy.RunAgrees | src/lib/test.ts:74-110 | On any script the earlier interpreter gives the same result and thrown value as the current one. |
| Legacy.FilterLift | src/lib/testsuite.ts:14-44 | The earlier suite getters agree with the current ones on the same tree. |
| Legacy.ForestFilterLift | src/lib/testsuite.ts:14-44 | The earlier getters agree with the current ones on a list of children. |
| Legacy.LeafAgrees | src/lib/test.ts:20-43 | On a test that is not already Skipped, both engines' `execute` give the same test and outcome. |
| Legacy.TreeAgrees | src/lib/testsuite.ts:77-108 | On a tree without a Skipped leaf, both engines' suite execution give the same tree and outcome. |
| Legacy.InOrderAgrees | src/lib/testsuite.ts:85-93 | Both loops run the same children, abort alike and end alike. |
| Legacy.ThrownNoticeAborts | src/lib/test.ts:30-40 | In the earlier engine a thrown notice aborts the test and records nothing. |
| Legacy.BlockerScenario | __tests__/tests/test.test.ts:44-65 | Warning, blocker, warning ends Aborted with one blocker and one warning: the warning after the blocker never runs. |
| Legacy.NameAndDescription | __tests__/tests/test.test.ts:19-24 | Executing a test keeps its name and description. |
| Orchestrator.NewHarmonia | src/harmonia.ts:42-52 | A new instance has no UID, no options and no tests. |
| Orchestrator.GenerateUid | src/harmonia.ts:199-210 | Generating a UID fails iff one is already set; otherwise it sets the digest. |
| Orchestrator.Uid | src/harmonia.ts:212-217 | The UID getter returns a non-empty UID: the existing one if set, else a newly generated one; nothing else changes. |
| Orchestrator.UidIsStable | src/harmonia.ts:199-217 | Once read, the UID never changes, and generating another one then fails. |
| Orchestrator.Bootstrap | src/harmonia.ts:54-72 | With `add` returning the store, bootstrap succeeds iff neither `site` nor `env` is stored and no UID is set; it adds both and sets the UID. A key already present fails as KeyAlreadyExists. |
| Orchestrator.BootstrapAsWritten | src/harmonia.ts:61-63 | As written, bootstrap never succeeds: an existing `site` fails as KeyAlreadyExists; otherwise `site` is stored and the chained `add` on nothing throws, with `env` and the UID never set. |
| Orchestrator.BootstrapCounterexample | src/harmonia.ts:61-63 | On a fresh orchestrator the corrected bootstrap succeeds, and the one as written leaves only `site` stored and fails. |
| Orchestrator.RegisterTest | src/harmonia.ts:192-197 | Registering appends the test, which now uses the shared store throughout, and changes nothing else. |
| Orchestrator.RegisterKeepsResults | src/harmonia.ts:192-197 | Registering a NotStarted test leaves the results list unchanged. |
| Orchestrator.ResultsOf | src/harmonia.ts:102-120 | Every result the orchestrator reports belongs to a started test. |
| Orchestrator.ResultsAppend | src/harmonia.ts:102-120 | Results distribute over concatenating test lists, so they keep registration order. |
| Orchestrator.ResultsOfOne | src/harmonia.ts:108-118 | A NotStarted test contributes nothing, and a started leaf contributes itself. A started suite contributes its started children, preceded by itself when suites are included. |
| Orchestrator.IncludeSuitesOnlyAddsSuites | src/harmonia.ts:108-115 | Including suites adds exactly one entry per started suite. |
| Orchestrator.NotStartedContributeNothing | src/harmonia.ts:103-106 | A list of NotStarted tests reports no results. |
| Orchestrator.StatusKeyInjective | src/harmonia.ts:122-132 | Distinct statuses get distinct count keys, in both the label and the numeric form. |
| Orchestrator.TallyCounts | src/harmonia.ts:122-132 | The tally has a key iff the key occurs, and maps it to its number of occurrences. |
| Orchestrator.CountResultsCorrect | src/harmonia.ts:122-132 | A status's key is in the counts iff some result has that status, and then it maps to that number; the counts add up to the number of results. |
| Orchestrator.KeyOccurrences | src/harmonia.ts:122-132 | A status's key occurs in the key list as often as results have that status. |
| Orchestrator.CountsPartition | src/harmonia.ts:122-132 | The per-status counts add up to the number of results. |
| Orchestrator.GetResultsSummary | src/harmonia.ts:141-157 | The summary's total is the number of results, and it counts no suites iff every result is a leaf. |
| Orchestrator.SuiteCount | src/harmonia.ts:150 | The suite count is at most the number of results, and zero iff every result is a leaf. |
| Orchestrator.SummaryCounts | src/harmonia.ts:141-157 | The summary maps each status label present to the number of results with that status, and these add up to the total. |
| Orchestrator.ConcatIssuesAppend | src/harmonia.ts:134-139 | Concatenated issues distribute over concatenating test lists. |
| Orchestrator.ConcatIssuesMembers | src/harmonia.ts:134-139 | An issue is in the concatenation iff some test recorded it. |
| Orchestrator.ConcatIssuesLength | src/harmonia.ts:134-139 | The concatenation's length is the sum of the tests' issue counts. |
| Orchestrator.Run | src/harmonia.ts:74-100 | A run keeps the number of tests and the instance's settings. If it returns, it reports the results of the executed tests; if a test rethrows, it reports none. |
| Orchestrator.RunStopsAtFirstAbort | src/harmonia.ts:78-87 | The run executes tests in order, up to and including the first Aborted one or a rethrown exception, and leaves the rest untouched. |
| Orchestrator.UnreachedTestsNotReported | src/harmonia.ts:78-87 | Tests after the stopping point contribute nothing to the results. |
| Analytics.Collapse | src/utils/analytics.ts:161 | Collapsing leaves only lower-case letters, digits and `_`, and never starts with `_` inside a run. |
| Analytics.CollapseClean | src/utils/analytics.ts:161 | Collapsing yields a string with no doubled `_`. |
| Analytics.CollapseAppend | src/utils/analytics.ts:161 | Collapsing a concatenation is collapsing each part, the second aware of whether the first ended in a run. |
| Analytics.SnakeCase | src/utils/analytics.ts:160-162 | `snakeCase` always yields a clean name: lower-case letters, digits and single underscores. |
| Analytics.SnakeCaseOfClean | src/utils/analytics.ts:160-162 | A clean name is its own `snakeCase`. |
| Analytics.SnakeCaseIdempotent | src/utils/analytics.ts:160-162 | Applying `snakeCase` twice is applying it once. |
| Analytics.SnakeCaseTwoWords | src/utils/analytics.ts:160-162 | Two letter words separated by spaces, dashes or dots, with surrounding blanks, become the lower-cased words joined by one `_`. |
| Analytics.SnakeCaseExamples | __tests__/utils/analytics.test.ts:5-17 | Each example of the unit test becomes `snake_case`. |
| Analytics.SnakeCaseValid | src/utils/analytics.ts:6 | A `snakeCase` result is a valid name iff it is non-empty and does not start with a digit. |
| Analytics.SnakeCaseKeepsPrefix | src/utils/analytics.ts:66-75 | `snakeCase` of a clean prefix ending in `_`, followed by anything, still starts with that prefix. |
| Analytics.EventName | src/utils/analytics.ts:65-75 | An event name always comes out valid and prefixed; an already valid prefixed name is kept. |
| Analytics.PropName | src/utils/analytics.ts:79-92 | A property name is kept if valid, else replaced by its `snakeCase` if that is valid, else dropped. |
| Analytics.ApplyPropsSpec | src/utils/analytics.ts:78-92 | A name is in the resulting properties iff it was a base property or an event property mapped to it, and the last such event property wins. |
| Analytics.ApplyPropsNewNamesValid | src/utils/analytics.ts:79-92 | Every name the event properties add is valid. |
| Analytics.TrackEvent | src/utils/analytics.ts:65-99 | The computed event name is valid and every base property key is kept. The event sent holds `_en` and every property, each property with its value; `_en` holds the computed name unless a property of that name overrides it. |
| Analytics.TrackEventNameOverridden | src/utils/analytics.ts:79-99 | An event property named `_en` is sent in place of the event name. |
| Analytics.RenamedIsSettled | src/utils/analytics.ts:44-49 | A renamed key would not be renamed again. |
| Analytics.SanitizeKey | src/utils/analytics.ts:39-50 | After sanitising a key, if it remains, its value is primitive and it needs no renaming; other keys except its rename are untouched. |
| Analytics.SanitizeKeyRenames | src/utils/analytics.ts:44-49 | A renameable primitive key moves its value to its `snakeCase` name. |
| Analytics.SanitizeAllSettles | src/utils/analytics.ts:39-50 | After sanitising every key, no key is left non-primitive or renameable. |
| Analytics.SetBaseParams | src/utils/analytics.ts:38-52 | The sanitised parameters are all primitive under settled names. Each of them, whether new or overriding a base key, is in the result with its sanitised value; base parameters not overridden are kept. |
| Base64.IsBase64 | src/utils/base64.ts:4-13 | Only non-empty strings are accepted. |
| Base64.MatchesShaped | src/utils/base64.ts:10-12 | The regular expression matches exactly the strings made of full four-character blocks, the last of which may end in one or two `=`. |
| Base64.IsBase64Shaped | src/utils/base64.ts:4-13 | `isBase64` accepts exactly the non-empty block-shaped strings. |
| Base64.AcceptedLength | src/utils/base64.ts:10-12 | An accepted string has a length that is a positive multiple of four. |
| Base64.EncodeLength | __tests__/utils/base64.test.ts:6-9 | Encoding n bytes gives 4·⌈n/3⌉ characters. |
| Base64.EncodeMatches | __tests__/utils/base64.test.ts:6-9 | Every encoding matches the regular expression. |
| Base64.EncodeAccepted | __tests__/utils/base64.test.ts:6-9 | Every encoding of a non-empty byte string is accepted. |
| Base64.TruncatedRefused | __tests__/utils/base64.test.ts:13-19 | Dropping the last two characters of an accepted string makes it refused. |
| Base64.UnitTestCases | __tests__/utils/base64.test.ts:3-23 | The unit test's cases: the encoded sentence is accepted and its truncation refused; the raw sentence, `""` and `hello` are refused. |
| DisallowedFiles.NodeModulesRuleMeaning | src/tests/git/disallowed-files.ts:14-15 | A path breaks the node_modules rule iff it has a `node_modules/` directory component, at the start or after a `/`. |
| DisallowedFiles.Find | src/tests/git/disallowed-files.ts:44 | `find` returns the first path that breaks the rule, or none iff no path breaks it. |
| DisallowedFiles.BrokenRulesEmpty | src/tests/git/disallowed-files.ts:43-50 | The reduce yields the empty string iff no rule is broken. |
| DisallowedFiles.BrokenRulesLast | src/tests/git/disallowed-files.ts:43-50 | When several rules are broken, only the last broken rule's report survives, naming its first offending path. |
| DisallowedFiles.EvaluatePaths | src/tests/git/disallowed-files.ts:42-55 | Evaluating the paths makes at most one call. |
| DisallowedFiles.EvaluatePathsMeaning | src/tests/git/disallowed-files.ts:42-55 | A blocker is raised iff some path has a `node_modules/` directory, and it reports the first such path. |
| DisallowedFiles.SplitLines | src/tests/git/disallowed-files.ts:27 | Splitting yields at least one element, no element contains a line break, and only the first and last can be empty. |
| DisallowedFiles.SplitLinesKeepsText | src/tests/git/disallowed-files.ts:27 | Concatenating the elements gives back the input without its line breaks. |
| DisallowedFiles.SplitLinesSingle | src/tests/git/disallowed-files.ts:27 | Output without a line break splits into itself. |
| DisallowedFiles.RunScriptOf | src/tests/git/disallowed-files.ts:24-62 | The test first notices that it examines the files, then raises one blocker iff the listing failed or lists a node_modules directory. |
| DisallowedFiles.DisallowedFilesOutcome | src/tests/git/disallowed-files.ts:57-62 | The test ends Aborted iff the listing failed or shows node_modules, Success otherwise, and its first issue is the notice. |
| DisallowedFiles.UnitTestTopLevel | __tests__/tests/git/disallowed-files.test.ts:4-13 | A top-level `node_modules/` path raises a blocker. |
| DisallowedFiles.UnitTestNested | __tests__/tests/git/disallowed-files.test.ts:15-24 | A nested `lib/node_modules/` path raises a blocker. |
| DisallowedFiles.UnitTestSimilar | __tests__/tests/git/disallowed-files.test.ts:26-35 | Similar names (`modules`, `nodemodules`, `node_module`) raise nothing. |
| Health.Verdict | src/tests/health/base.test.ts:64-81 | A response is an error iff it is not 200 (and not a tolerated 404) or slower than 2000 ms. It is a warning iff it is a tolerated 404 or a 200 within 1000-2000 ms, and a notice iff it is a 200 within 1000 ms. It is never a blocker. |
| Health.HandleRequest | src/tests/health/home-urls.test.ts:51-57 | Each response makes exactly one call, of the verdict's kind; error calls carry the container logs. |
| Health.RunVisitsCalm | src/tests/health/base.test.ts:37-52 | When no request fails to fetch, the loop never throws, records one issue per response, and calls `error` (`warning`) iff some response has that verdict. |
| Health.RunVisitsBreak | src/tests/health/base.test.ts:40-49 | The first failed fetch ends the loop: the earlier requests are handled, then the blocker (or the escaping log failure). |
| Health.HealthRunCalm | src/tests/health/base.test.ts:37-82 | A health test that nothing breaks returns normally with one issue per response. It is Failed iff some response is an error, PartialSuccess iff none is but some is a warning, and Success otherwise. |
| Health.HealthRunBreaks | src/tests/health/base.test.ts:40-49 | A fetch failure ends the test Aborted with the blocker last; a failed log read in the catch block escapes as an exception. |
| Health.HomePaths | src/tests/health/home-urls.test.ts:26-42 | The home page yields at most ten paths: the first ten links of a 200 or 3xx answer, and none otherwise. |
| Health.HomeSkips | src/tests/health/home-urls.test.ts:15-24 | A bad home status, or a good page with no links, makes the test Skipped. The bad status is recorded as a warning before the skip notice. |
| Health.HomeFetchFailureAborts | src/tests/health/home-urls.test.ts:43-48 | A failed home-page fetch aborts the test with exactly one blocker. |
| Health.HomeRequestsLinks | src/tests/health/home-urls.test.ts:15-42 | A good home page with links requests at most ten of them and is classified from their responses. |
| Health.KeepSiteLinks | src/tests/health/random-urls.test.ts:43 | Every kept link starts with the public or the local URL, and no more links come out than went in. |
| Health.KeepSiteLinksMembers | src/tests/health/random-urls.test.ts:43 | The filter keeps exactly the links that start with the public or the local URL. |
| Health.KeepSiteLinksAppend | src/tests/health/random-urls.test.ts:43 | The filter preserves order: filtering a concatenation gives the filtered first part followed by the filtered second part. |
| Health.KeepSiteLinksSingle | src/tests/health/random-urls.test.ts:43 | A single link is kept exactly when it starts with the public or the local URL. |
| Health.Rewrite | src/tests/health/random-urls.test.ts:45-51 | Every rewritten link is a path starting with `/`. |
| Health.RewriteKeepsPath | src/tests/health/random-urls.test.ts:45-51 | A link written as either site URL followed by a path is requested at that same path. |
| Health.RewriteAgreesOnPublic | src/tests/health/random-urls.test.ts:45-51 | On links that start with the public URL, the code's rewrite and the corrected one agree. |
| Health.RewriteCounterexample | src/tests/health/random-urls.test.ts:45-51 | For a link on the local URL, the code requests `/` followed by the whole link, and the corrected rewrite requests its path. |
| Health.RandomPaths | src/tests/health/random-urls.test.ts:41-52 | The random-URL check requests at most ten paths, each starting with `/`. |
| Health.RandomPathsAsWritten | src/tests/health/random-urls.test.ts:41-52 | With the code's rewrite, too, at most ten paths are requested, each starting with `/`. |
| Health.RandomPathsAgree | src/tests/health/random-urls.test.ts:41-52 | When every site link on the page starts with the public URL, the code's paths and the corrected paths are the same. |
| Health.RandomOutcome | src/tests/health/random-urls.test.ts:27-57 | A failed page request escapes. Otherwise the check is classified from its responses like any health test, and with no links it succeeds rather than skipping. |
| DockerHealthcheck.CacheVerdict | src/tests/docker/healthcheck.test.ts:60-81 | After the logs are read: a non-200 status gives a blocker pointing at the documentation and carrying the logs. Otherwise over 200 ms gives an error, 100-200 ms a warning, and nothing within 100 ms. |
| DockerHealthcheck.CacheScript | src/tests/docker/healthcheck.test.ts:47-82 | `run()` always notices the request first. A failed request then escapes; otherwise it notices the response, and a failed log read escapes, else the verdict follows. |
| DockerHealthcheck.HealthcheckBlocked | src/tests/docker/healthcheck.test.ts:60-67 | A non-200 response ends Aborted with the two notices and the blocker, which carries the logs. |
| DockerHealthcheck.HealthcheckHealthy | src/tests/docker/healthcheck.test.ts:77-82 | A 200 within 100 ms ends Success with only the two notices. |
| DockerHealthcheck.HealthcheckTooSlow | src/tests/docker/healthcheck.test.ts:69-75 | A 200 slower than 200 ms ends Failed with the two notices and an error carrying the logs. |
| DockerHealthcheck.HealthcheckSlow | src/tests/docker/healthcheck.test.ts:77-80 | A 200 within 100-200 ms ends PartialSuccess with the two notices and a warning. |
| DockerHealthcheck.HealthcheckPrepareFault | src/tests/docker/healthcheck.test.ts:32-45 | A failed shell call in `prepare()` escapes before anything is recorded. |
| DockerHealthcheck.HealthcheckUnreachable | src/tests/docker/healthcheck.test.ts:49-51 | A failed request escapes with only the first notice recorded and the test NotStarted. |
| DockerHealthcheck.HealthcheckLogsFailed | src/tests/docker/healthcheck.test.ts:54-58 | A failed log read escapes with both notices recorded and the test NotStarted. |
| NpmChecks.NpmScriptsRun | src/tests/npm-scripts.test.ts:18-38 | The npm-scripts check makes at most one call, because its blocker throws. |
| NpmChecks.NpmScriptsOutcome | src/tests/npm-scripts.test.ts:18-38 | Never Failed. It is Aborted iff `start` or `build` is missing, with the one blocker naming `start` first; PartialSuccess iff both are present and `serve` is too; Success with no issue otherwise. |
| NpmChecks.NpmScriptsWithoutScripts | src/tests/npm-scripts.test.ts:13-20 | Without a `scripts` field the first read throws and the test stays NotStarted. |
| NpmChecks.MissingFrom | src/tests/package-validation.test.ts:38-48 | A package is reported missing iff it is listed and not among the dependencies. |
| NpmChecks.MissingCalls | src/tests/package-validation.test.ts:38-48 | One call per missing package, in order, each with the "Missing … package" message and the `TBD` documentation. |
| NpmChecks.FindingsRecorded | src/tests/package-validation.test.ts:38-48 | A script of only errors and warnings never throws and records one issue per call, in order, each of the call's kind with its message and documentation. |
| NpmChecks.ValidationIssues | src/tests/package-validation.test.ts:38-48 | The issues recorded are first one per missing required package, in order, then one warning per missing recommended package, each with its "Missing … package" message and `TBD` documentation. |
| NpmChecks.ValidationCalls | src/tests/package-validation.test.ts:35-49 | The checks call `error` iff the required package is missing and required packages count as errors. They call `warning` iff `jest` is missing or the required package is missing and counts only as a warning. |
| NpmChecks.PackageValidationOutcome | src/tests/package-validation.test.ts:35-49 | Failed iff `@automattic/vip-go` is not a dependency; otherwise PartialSuccess iff `jest` is not; otherwise Success. The recorded issues are those of the two loops, one per missing package. |
| NpmChecks.NpmPackageValidationOutcome | src/tests/npm/package-validation.test.ts:37-51 | Counting both dependency lists, it is never Failed or Aborted. It is PartialSuccess iff either package is missing, else Success. The recorded issues are those of the two loops. |
| NpmChecks.PackageValidationWithoutDependencies | src/tests/package-validation.test.ts:30-36 | Without the dependency list, both package-validation checks throw from `run()`, and the test stays NotStarted. |

## Left out

- Console output, chalk colouring, `stripAnsi` and debug logging are not modelled. Messages are plain strings without ANSI codes.
- Shell calls, HTTP requests, clocks, file reads and environment variables become inputs. These are the `ShellOutput`, `Probe`, `CacheProbe`, `HomeFetch`, `PageFetch` and `PackageJson` values.
- The UID is derived from a hash of the site and time. That digest is a parameter of `Orchestrator.GenerateUid`.
- Events carry only the event name and the test's name, not the emitted objects. Event listeners are not modelled.
- The analytics client (sending, its singleton, `setUser`) is left out. Only the naming and sanitisation rules that decide what would be sent are modelled.
- Analytics.SnakeCase: lower-casing covers ASCII only. JavaScript's `toLowerCase` also maps other letters, such as the Kelvin sign to `k`.
- Config validation (`runValidation`, `all`) and the configuration classes are left out. The site and env options are opaque store values.
- `resultsJSON` and the orchestrator's JSON output are left out. Only a test's and a suite's `toJSON` are modelled.
- TestTree.ToJsonTree: the suite case describes JSON the code never returns. src/lib/results/testsuiteresult.ts:62 calls `getLastIssue` unconditionally, and no result class defines it, so as written every suite's `toJSON` throws a TypeError. The model returns the JSON without the `issue` field, the reading that the rest of `toJSON` evidently intends.
- TestTree.ResultsJson: is the `tests` field of that same suite JSON, so as written it is never produced either.
- TestTree.ResultsJsonEach: relates the entries of that field to the children's JSON under the same reading.
- Orchestrator.ResultsOf: calls the suite result's `results()` for a started suite. As written, src/harmonia.ts:113 calls `results()` on the suite itself, which src/lib/tests/testsuite.ts does not define, so it throws a TypeError as soon as a started suite is among the tests. Then `run()` rejects at src/harmonia.ts:88 after every test has run, and `countResults` and `allIssues` throw too. Orchestrator.ResultsOfOne, Orchestrator.IncludeSuitesOnlyAddsSuites and Orchestrator.Run rest on the same reading.
- The earlier suite result's `toJSON` is not modelled, because the earlier result class lacks `test()` and `getTypeString`.
- Legacy.TreeAgrees: agreement is proved only for trees without a Skipped leaf. On a Skipped leaf the earlier engine aborts a thrown notice where the current engine keeps Skipped; Legacy.ThrownNoticeAborts shows this. It also assumes, like Legacy.ExecuteTree below, that the earlier `Test` has `emit` and `log`.
- Legacy.ExecuteTree: models the earlier suite's loop as if the earlier `Test` defined `emit` and `log`. It defines neither, so the earlier suite's `execute` throws a TypeError at src/lib/testsuite.ts:78, before `prepare` and before any child runs. The earlier suite's `addTest` (line 115) and `setOptions` (line 122) throw the same way.
- Legacy.ExecuteInOrder: assumes the same `log`, which src/lib/testsuite.ts:90 calls when a child aborts.
- Legacy.InOrderAgrees: compares the loops under the same assumption, so it is about a loop the earlier suite never reaches.
- A TypeError from reading a property of an absent value is modelled as a thrown non-issue exception.
- Orchestrator.StatusKeyInjective: treats Skipped as a sixth status with key `5` in the numeric form and `Skipped` in the string form. As written, `TestResultType` has no `Skipped` member (src/lib/results/testresult.ts:4-10), so `TestResultType.Skipped` is `undefined`. A skipped test is then counted under the key `undefined` in both forms, and its JSON `result` (lines 40 and 70) is `undefined`. Results.StatusLabelRoundTrip and Results.ToJson use the same reading.
- Issues.SetData: the model lets an issue carry a data payload. As written, `Issue` has no `setData` (src/lib/issue.ts:8-38), and `createIssue` calls it before `addIssue` (src/lib/tests/test.ts:187-192). So every helper call that passes data throws a TypeError and records nothing. In the health checks, `error(…, { all: logs })` (src/tests/health/base.test.ts:65-73) is swallowed by the catch at lines 42-49, so a bad response never makes the test Failed. The blockers with data at base.test.ts:48, src/tests/git/disallowed-files.ts:29-33 and src/tests/docker/healthcheck.test.ts:63-73 escape as TypeErrors rather than aborting. Health.HandleRequest, Health.HealthRunBreaks, Health.RunVisitsCalm, Health.RunVisitsBreak, Health.HealthRunCalm, Health.RandomOutcome, DisallowedFiles.DisallowedFilesOutcome, DockerHealthcheck.HealthcheckBlocked and DockerHealthcheck.HealthcheckTooSlow are stated under the payload reading. As written, a health visit's error records nothing, so a health run is never Failed; a visit's fetch-failure blocker escapes `run()` as a TypeError; and the too-slow cache error at src/tests/docker/healthcheck.test.ts:70-74 throws out of `run()`, so that test is rethrown NotStarted with its two notices recorded.
- Health.RunVisitsCalm: states one recorded issue per response, with `error` called iff some response is an error. As written, that error carries the logs, so `createIssue` throws a TypeError before recording it. The catch at src/tests/health/base.test.ts:42-49 swallows the TypeError, because it is not a fetch error, so an error response records nothing and the loop goes on.
- Health.RunVisitsBreak: states that the first failed fetch ends the loop with a recorded blocker. As written, the blocker at src/tests/health/base.test.ts:48 carries the logs, so it throws a TypeError instead. The TypeError escapes `run()` as a non-issue exception before any blocker is recorded.
- Health.HealthRunCalm: states one issue per response and Failed iff some response is an error. As written, error responses record nothing (see Health.RunVisitsCalm), so such a run is never Failed. It ends PartialSuccess or Success from the warnings and notices alone.
- DockerHealthcheck.HealthcheckTooSlow: states Failed with the two notices and an error carrying the logs. As written, the error at src/tests/docker/healthcheck.test.ts:70-74 carries the logs, so it throws a TypeError out of `run()`. The test is then rethrown NotStarted with only the two notices recorded.
- `getOption` is called by the npm-scripts and first package-validation checks but defined by neither class. The parsed package.json is an input instead.
- The configuration reads are modelled as returning the intended values. As written, they do not. The site configuration defines neither `getLocalURL` nor `getPublicURL` (src/lib/configs/site.config.ts:3-10, src/lib/configs/config.ts:3-21), so every health test's `prepare` throws a TypeError at src/tests/health/base.test.ts:31, and the random-URL test's at src/tests/health/random-urls.test.ts:30. `BaseConfig.get` (src/lib/configs/config.ts) returns nothing, so `getEnvVar( 'PORT' )` (base.test.ts:30, src/tests/docker/healthcheck.test.ts:34) is `undefined` and the cache URL becomes `http://localhost:undefined/cache-healthcheck?`. `getSiteOption( 'packageJSON' )` is likewise `undefined`, so the npm package-validation `prepare` throws reading `.dependencies`. Health.HomeFetchFailureAborts, Health.HealthRunCalm, Health.RandomOutcome, DockerHealthcheck.CacheScript and its lemmas DockerHealthcheck.HealthcheckBlocked, HealthcheckHealthy, HealthcheckTooSlow, HealthcheckSlow, HealthcheckPrepareFault, HealthcheckUnreachable and HealthcheckLogsFailed, and NpmChecks.NpmPackageValidationOutcome describe runs under the intended reads.
- Orchestrator.RegisterTest: assumes the test has `setHarmoniaInstance`. Neither src/lib/tests/test.ts nor src/lib/tests/testsuite.ts defines it, so as written `registerTest` throws a TypeError after `setOptions` and before the test is appended.
- Health.HomePaths: assumes the test has `filterPaths`. Neither the home-page test nor its base classes (src/tests/health/base.test.ts, src/lib/tests/test.ts) define it, so as written every 200 or 3xx home page throws a TypeError from src/tests/health/home-urls.test.ts:41, and `getHomepagePaths` rethrows it.
- Health.HomeSkips: neither half runs as written. On a good status the missing `filterPaths` throws before the skip is reached, and, like every health test, the home-page test throws in `prepare` before `getHomepagePaths` is reached (see the configuration line below).
- Health.HomeRequestsLinks: describes requests that, as written, are never made, because the missing `filterPaths` throws first.
- Health.RandomPaths: rewrites links with the corrected `Health.Rewrite` (see Findings), not the code's. `Health.RandomPathsAsWritten` is the code's version, and `Health.RandomPathsAgree` shows the two agree when every site link uses the public URL.
- Health.RandomOutcome: is about the test built on the corrected paths. Its statement does not depend on which paths are requested.
- Stores.Exists: keys are assumed not to be names of `Object.prototype` properties. The source tests `key in` a plain object, so `constructor`, `toString` and the like exist even in an empty store, whose `length()` is 0.
- Stores.Get: for such a key, the source returns the inherited property where the model fails with KeyDontExist.
- Stores.Add: for such a key, the source throws KeyAlreadyExists where the model adds it. `set` of `__proto__` stores no own key.
- The npm-engines check (semver ranges) is left out.
- URL extraction (`get-urls`, `extractUrls`) is left out. The extracted link lists are inputs.
- The static-requests and top-requests health checks, and the docker build and run tests, are not part of this model.
- `cleanUp` bodies are assumed not to throw. The `testCleanUp` event marks where they run.

Behaviour of the code that the model keeps and that a reader might not expect:

- DisallowedFiles.BrokenRulesLast: the reduce replaces its accumulator, so only the last broken rule is reported.
- EngineLemmas.SuiteOwnErrorIsReclassified: a suite's own `error` is recorded, then overridden by classification from its leaves.
- Stores.Merge: merging is right-biased.
- Results.OfTypeCounts: `issues()` includes notices.

## Findings

| source | as written | input that shows it | evidently intended | confidence | as-written member | corrected member |
|---|---|---|---|---|---|---|
| src/tests/health/random-urls.test.ts:45-51 | A kept link is rewritten by removing the first occurrence of the public URL and prefixing `/`. A link kept because it starts with the local URL has nothing removed, so `/` is prefixed to the whole URL. | public URL `https://example.com`, local URL `http://localhost:8080`, link `http://localhost:8080/about`: requested as `http://localhost:8080/http://localhost:8080/about` | strip whichever site URL the link starts with, requesting `/about` | not executed | Health.RewriteCounterexample | Health.RewriteKeepsPath |
| src/harmonia.ts:62-63 | `add` returns nothing (src/lib/stores/store.ts:24-30), so the chained `.add( 'env', … )` calls a method of `undefined`. It throws a TypeError after `site` is stored, and the UID is never generated. | a fresh orchestrator and a configuration that defines `runValidation` (src/harmonia.ts:58 throws earlier otherwise): `site` is stored, then bootstrap throws | store both `site` and `env`, then generate the UID (for example, `add` returning the store) | not executed | Orchestrator.BootstrapCounterexample | Orchestrator.Bootstrap |

=== FILE: analytics.dfy ===
/** The pure parts of the analytics client (src/utils/analytics.ts):
    `snakeCase`, the event-name rule of `trackEvent`, the sanitising of
    event props into the shared base parameters, and `setBaseParams`.
    Sending, the singleton and the user properties are not modelled. */
module Analytics {
  import opened Common

  /** The prefix every event name gets. */
  const EventPrefix: string := "vip_harmonia_"

  // ---------------------------------------------------------------------------
  // snakeCase = trim, then toLowerCase, then replace runs of [^a-z0-9] by '_'
  // ---------------------------------------------------------------------------

  /** The characters `String.prototype.trim` removes: white space and line terminators. */
  predicate IsJsSpace(c: char) {
    c == ' ' || c == '\t' || c == '\n' || c == '\r' || c == '\U{000B}' || c == '\U{000C}'
    || c == '\U{00A0}' || c == '\U{1680}' || ('\U{2000}' <= c <= '\U{200A}')
    || c == '\U{2028}' || c == '\U{2029}' || c == '\U{202F}' || c == '\U{205F}'
    || c == '\U{3000}' || c == '\U{FEFF}'
  }

  function TrimStart(s: string): (r: string)
    ensures r == [] || !IsJsSpace(r[0])
    ensures |r| <= |s| && r == s[|s| - |r|..]
  {
    if s != [] && IsJsSpace(s[0]) then TrimStart(s[1..]) else s
  }

  function TrimEnd(s: string): (r: string)
    ensures r == [] || !IsJsSpace(r[|r| - 1])
    ensures |r| <= |s| && r == s[..|r|]
  {
    if s != [] && IsJsSpace(s[|s| - 1]) then TrimEnd(s[..|s| - 1]) else s
  }

  function Trim(s: string): string {
    TrimEnd(TrimStart(s))
  }

  /** ASCII case mapping of `toLowerCase`. */
  function LowerChar(c: char): (d: char)
    ensures !('A' <= d <= 'Z')
    ensures !('A' <= c <= 'Z') ==> d == c
  {
    if 'A' <= c <= 'Z' then (c as int - 'A' as int + 'a' as int) as char else c
  }

  function Lower(s: string): (r: string)
    ensures |r| == |s| && forall i :: 0 <= i < |s| ==> r[i] == LowerChar(s[i])
  {
    seq(|s|, i requires 0 <= i < |s| => LowerChar(s[i]))
  }

  /** `[a-z0-9]` */
  predicate IsWordChar(c: char) {
    'a' <= c <= 'z' || '0' <= c <= '9'
  }

  predicate IsSnakeChar(c: char) {
    IsWordChar(c) || c == '_'
  }

  /** Two `_` in a row at position `i`. */
  predicate DoubleAt(s: string, i: int)
    requires 0 <= i < |s| - 1
  {
    s[i] == '_' && s[i + 1] == '_'
  }

  /** Only `[a-z0-9_]` and never two `_` in a row. */
  predicate Clean(s: string) {
    && (forall i :: 0 <= i < |s| ==> IsSnakeChar(s[i]))
    && (forall i :: 0 <= i < |s| - 1 ==> !DoubleAt(s, i))
  }

  /** `replace(/[^a-z0-9]+/g, '_')`: every maximal run of other characters
      becomes one `_`. `inRun` says the previous character was in such a run. */
  function Collapse(s: string, inRun: bool): (r: string)
    ensures forall i :: 0 <= i < |r| ==> IsSnakeChar(r[i])
    ensures inRun && r != [] ==> r[0] != '_'
    decreases |s|
  {
    if s == [] then []
    else if IsWordChar(s[0]) then [s[0]] + Collapse(s[1..], false)
    else if inRun then Collapse(s[1..], true)
    else ['_'] + Collapse(s[1..], true)
  }

  lemma ConsClean(c: char, rest: string)
    requires Clean(rest) && IsSnakeChar(c) && (c == '_' && rest != [] ==> rest[0] != '_')
    ensures Clean([c] + rest)
  {
    var r := [c] + rest;
    forall i | 0 <= i < |r| - 1 ensures !DoubleAt(r, i) {
      if i > 0 {
        assert !DoubleAt(rest, i - 1);
      }
    }
  }

  /** A collapsed string is clean: the run rule never emits `__`. */
  lemma {:induction false} CollapseClean(s: string, inRun: bool)
    ensures Clean(Collapse(s, inRun))
    decreases |s|
  {
    if s != [] {
      CollapseClean(s[1..], !IsWordChar(s[0]));
      if IsWordChar(s[0]) {
        ConsClean(s[0], Collapse(s[1..], false));
      } else if !inRun {
        ConsClean('_', Collapse(s[1..], true));
      }
    }
  }

  /** The output alphabet is `[a-z0-9_]` and `__` never occurs. */
  function SnakeCase(s: string): (r: string)
    ensures Clean(r)
  {
    CollapseClean(Lower(Trim(s)), false);
    Collapse(Lower(Trim(s)), false)
  }

  /** Whether a string ends inside a run, given the state before it. */
  function EndsInRun(x: string, inRun: bool): bool {
    if x == [] then inRun else !IsWordChar(x[|x| - 1])
  }

  lemma {:induction false} CollapseAppend(x: string, y: string, inRun: bool)
    ensures Collapse(x + y, inRun) == Collapse(x, inRun) + Collapse(y, EndsInRun(x, inRun))
    decreases |x|
  {
    if x == [] {
      assert x + y == y;
    } else {
      assert (x + y)[0] == x[0] && (x + y)[1..] == x[1..] + y;
      CollapseAppend(x[1..], y, !IsWordChar(x[0]));
      if |x| > 1 {
        assert x[1..][|x[1..]| - 1] == x[|x| - 1];
      }
    }
  }

  /** A clean string passes through unchanged (when it does not start with a
      `_` that would merge into a preceding run). */
  lemma {:induction false} CollapseKeepsClean(c: string, inRun: bool)
    requires Clean(c) && (inRun && c != [] ==> c[0] != '_')
    ensures Collapse(c, inRun) == c
    decreases |c|
  {
    if c != [] {
      if |c| > 1 {
        assert !DoubleAt(c, 0);
      }
      assert Clean(c[1..]) by {
        forall i | 0 <= i < |c[1..]| - 1 ensures !DoubleAt(c[1..], i) {
          assert !DoubleAt(c, i + 1);
        }
      }
      CollapseKeepsClean(c[1..], !IsWordChar(c[0]));
    }
  }

  lemma {:induction false} TrimStartNoSpace(s: string)
    requires forall i :: 0 <= i < |s| ==> !IsJsSpace(s[i])
    ensures TrimStart(s) == s
  {
  }

  lemma {:induction false} TrimEndNoSpace(s: string)
    requires forall i :: 0 <= i < |s| ==> !IsJsSpace(s[i])
    ensures TrimEnd(s) == s
  {
  }

  lemma CleanTrim(c: string)
    requires Clean(c)
    ensures Trim(c) == c
  {
    assert forall i :: 0 <= i < |c| ==> !IsJsSpace(c[i]) by {
      forall i | 0 <= i < |c| ensures !IsJsSpace(c[i]) {
        assert IsSnakeChar(c[i]);
      }
    }
    TrimStartNoSpace(c);
    TrimEndNoSpace(c);
  }

  lemma CleanLower(c: string)
    requires Clean(c)
    ensures Lower(c) == c
  {
    forall i | 0 <= i < |c| ensures Lower(c)[i] == c[i] {
      assert IsSnakeChar(c[i]);
    }
  }

  /** `snakeCase` leaves a clean string unchanged. */
  lemma SnakeCaseOfClean(c: string)
    requires Clean(c)
    ensures SnakeCase(c) == c
  {
    CleanTrim(c);
    CleanLower(c);
    CollapseKeepsClean(c, false);
  }

  /** `snakeCase` is idempotent. */
  lemma SnakeCaseIdempotent(s: string)
    ensures SnakeCase(SnakeCase(s)) == SnakeCase(s)
  {
    SnakeCaseOfClean(SnakeCase(s));
  }

  predicate AllSpace(s: string) {
    forall i :: 0 <= i < |s| ==> IsJsSpace(s[i])
  }

  predicate IsAsciiLetter(c: char) {
    'a' <= c <= 'z' || 'A' <= c <= 'Z'
  }

  /** A word of ASCII letters in either case. */
  predicate LetterWord(s: string) {
    s != [] && forall i :: 0 <= i < |s| ==> IsAsciiLetter(s[i])
  }

  /** A separator: characters that are neither `[a-z0-9]` nor upper-case ASCII. */
  predicate Separator(s: string) {
    s != [] && forall i :: 0 <= i < |s| ==> !IsWordChar(s[i]) && !('A' <= s[i] <= 'Z')
  }

  lemma {:induction false} TrimStartSpaces(pre: string, rest: string)
    requires AllSpace(pre) && rest != [] && !IsJsSpace(rest[0])
    ensures TrimStart(pre + rest) == rest
    decreases |pre|
  {
    var x := pre + rest;
    if pre == [] {
      assert x == rest;
    } else {
      assert x[0] == pre[0] && IsJsSpace(x[0]);
      assert x[1..] == pre[1..] + rest;
      TrimStartSpaces(pre[1..], rest);
      assert TrimStart(x) == TrimStart(x[1..]);
    }
  }

  lemma {:induction false} TrimEndSpaces(post: string)
    requires AllSpace(post)
    ensures TrimEnd(post) == []
    decreases |post|
  {
    if post != [] {
      TrimEndSpaces(post[..|post| - 1]);
    }
  }

  lemma LowerAppend(x: string, y: string)
    ensures Lower(x + y) == Lower(x) + Lower(y)
  {
  }

  lemma {:induction false} CollapseSeparator(sep: string, inRun: bool)
    requires Separator(sep)
    ensures Collapse(sep, inRun) == if inRun then [] else "_"
    decreases |sep|
  {
    if |sep| > 1 {
      CollapseSeparator(sep[1..], true);
    }
  }

  /** Only `[a-z0-9]`. */
  predicate AllWord(s: string) {
    forall i :: 0 <= i < |s| ==> IsWordChar(s[i])
  }

  lemma LowerLetterWord(a: string)
    requires LetterWord(a)
    ensures AllWord(Lower(a)) && Lower(a) != []
  {
    forall i | 0 <= i < |a| ensures IsWordChar(Lower(a)[i]) {
      assert IsAsciiLetter(a[i]);
    }
  }

  lemma {:induction false} CollapseWord(w: string, inRun: bool)
    requires AllWord(w)
    ensures Collapse(w, inRun) == w
    decreases |w|
  {
    if w != [] {
      CollapseWord(w[1..], false);
    }
  }

  lemma TrimTwoWords(pre: string, body: string, post: string)
    requires AllSpace(pre) && AllSpace(post) && body != []
    requires !IsJsSpace(body[0]) && !IsJsSpace(body[|body| - 1])
    ensures Trim(pre + body + post) == body
  {
    assert pre + body + post == pre + (body + post);
    assert (body + post)[0] == body[0];
    TrimStartSpaces(pre, body + post);
    TrimEndAppend(body, post);
    TrimEndSpaces(post);
  }

  lemma LowerSeparator(sep: string)
    requires Separator(sep)
    ensures Lower(sep) == sep
  {
  }

  lemma LowerTwoWords(a: string, sep: string, b: string)
    requires Separator(sep)
    ensures Lower(a + sep + b) == Lower(a) + (sep + Lower(b))
  {
    assert a + sep + b == a + (sep + b);
    LowerAppend(a, sep + b);
    LowerAppend(sep, b);
    LowerSeparator(sep);
  }

  lemma CollapseTwoWords(la: string, sep: string, lb: string)
    requires AllWord(la) && la != [] && AllWord(lb) && Separator(sep)
    ensures Collapse(la + (sep + lb), false) == la + "_" + lb
  {
    CollapseAppend(la, sep + lb, false);
    CollapseWord(la, false);
    CollapseAppend(sep, lb, false);
    CollapseSeparator(sep, false);
    CollapseWord(lb, true);
    assert la + ("_" + lb) == la + "_" + lb;
  }

  lemma Associative(x: string, y: string, z: string)
    ensures x + y + z == x + (y + z)
  {
  }

  /** Two words separated by anything that is not a word character, with
      white space around, become the lower-cased words joined by one `_`. */
  lemma SnakeCaseTwoWords(pre: string, a: string, sep: string, b: string, post: string)
    requires AllSpace(pre) && AllSpace(post) && LetterWord(a) && LetterWord(b) && Separator(sep)
    ensures SnakeCase(pre + a + sep + b + post) == Lower(a) + "_" + Lower(b)
  {
    var body := a + sep + b;
    assert body[0] == a[0] && body[|body| - 1] == b[|b| - 1];
    TrimTwoWords(pre, body, post);
    Associative(pre, a, sep);
    Associative(pre, a + sep, b);
    LowerTwoWords(a, sep, b);
    LowerLetterWord(a);
    LowerLetterWord(b);
    CollapseTwoWords(Lower(a), sep, Lower(b));
  }

  /** One input of the unit test, split into its parts. */
  lemma SnakeCaseVector(s: string, pre: string, a: string, sep: string, b: string, post: string)
    requires s == pre + a + sep + b + post
    requires AllSpace(pre) && AllSpace(post) && LetterWord(a) && LetterWord(b) && Separator(sep)
    requires Lower(a) == "snake" && Lower(b) == "case"
    ensures SnakeCase(s) == "snake_case"
  {
    SnakeCaseTwoWords(pre, a, sep, b, post);
    SnakeJoin(Lower(a), Lower(b));
  }

  lemma SnakeJoin(x: string, y: string)
    requires x == "snake" && y == "case"
    ensures x + "_" + y == "snake_case"
  {
  }

  lemma SnakeCaseSpace(s: string)
    requires s == "Snake Case"
    ensures SnakeCase(s) == "snake_case"
  {
    SnakeCaseVector(s, "", "Snake", " ", "Case", "");
  }

  lemma SnakeCaseDash(s: string)
    requires s == "Snake-Case"
    ensures SnakeCase(s) == "snake_case"
  {
    SnakeCaseVector(s, "", "Snake", "-", "Case", "");
  }

  lemma SnakeCaseDashes(s: string)
    requires s == "Snake---Case"
    ensures SnakeCase(s) == "snake_case"
  {
    SnakeCaseVector(s, "", "Snake", "---", "Case", "");
  }

  lemma SnakeCasePadded(s: string)
    requires s == " sNAKE  cASE \n "
    ensures SnakeCase(s) == "snake_case"
  {
    SnakeCaseVector(s, " ", "sNAKE", "  ", "cASE", " \n ");
  }

  lemma SnakeCaseDots(s: string)
    requires s == " snAke .... cAse"
    ensures SnakeCase(s) == "snake_case"
  {
    SnakeCaseVector(s, " ", "snAke", " .... ", "cAse", "");
  }

  /** Each of the five inputs of the unit test converts to `snake_case`. */
  lemma SnakeCaseExamples(s: string)
    requires s == "Snake Case" || s == "Snake-Case" || s == "Snake---Case" || s == " sNAKE  cASE \n " || s == " snAke .... cAse"
    ensures SnakeCase(s) == "snake_case"
  {
    if s == "Snake Case" {
      SnakeCaseSpace(s);
    } else if s == "Snake-Case" {
      SnakeCaseDash(s);
    } else if s == "Snake---Case" {
      SnakeCaseDashes(s);
    } else if s == " sNAKE  cASE \n " {
      SnakeCasePadded(s);
    } else {
      SnakeCaseDots(s);
    }
  }

  // ---------------------------------------------------------------------------
  // names
  // ---------------------------------------------------------------------------

  /** `/^[a-z_][a-z0-9_]*$/` */
  predicate ValidName(s: string) {
    |s| > 0 && ('a' <= s[0] <= 'z' || s[0] == '_') && forall i :: 0 <= i < |s| ==> IsSnakeChar(s[i])
  }

  /** A `snakeCase` result is a valid name exactly when it is non-empty and
      does not start with a digit. */
  lemma SnakeCaseValid(s: string)
    ensures ValidName(SnakeCase(s)) <==> SnakeCase(s) != [] && !('0' <= SnakeCase(s)[0] <= '9')
  {
  }

  lemma {:induction false} TrimEndAppend(x: string, y: string)
    requires x != [] && !IsJsSpace(x[|x| - 1])
    ensures TrimEnd(x + y) == x + TrimEnd(y)
    decreases |y|
  {
    if y == [] {
      assert x + y == x;
    } else if IsJsSpace(y[|y| - 1]) {
      assert (x + y)[..|x + y| - 1] == x + y[..|y| - 1];
      TrimEndAppend(x, y[..|y| - 1]);
    } else {
      assert TrimEnd(y) == y;
    }
  }

  /** `snakeCase` of a clean prefix that starts with a letter and ends with
      `_`, followed by anything, keeps the prefix. */
  lemma SnakeCaseKeepsPrefix(p: string, rest: string)
    requires Clean(p) && |p| > 1 && 'a' <= p[0] <= 'z' && p[|p| - 1] == '_'
    ensures StartsWith(SnakeCase(p + rest), p)
  {
    assert TrimStart(p + rest) == p + rest;
    TrimEndAppend(p, rest);
    var t := TrimEnd(rest);
    LowerAppend(p, t);
    CleanLower(p);
    CollapseAppend(p, Lower(t), false);
    CollapseKeepsClean(p, false);
  }

  /** The event name `trackEvent` computes: the prefix is added when
      missing; a name that is still not valid is replaced by its `snakeCase`
      form. The result always carries the prefix and is always valid, so the
      second validity test of the source never fails. It is what the event
      sends under `_en` unless a prop of that name overrides it (see
      `TrackEvent`). */
  function EventName(name: string): (r: string)
    ensures ValidName(r) && StartsWith(r, EventPrefix)
    ensures StartsWith(name, EventPrefix) && ValidName(name) ==> r == name
  {
    var prefixed := if StartsWith(name, EventPrefix) then name else EventPrefix + name;
    assert prefixed == EventPrefix + prefixed[|EventPrefix|..];
    if ValidName(prefixed) then prefixed
    else
      assert Clean(EventPrefix) by {
        assert forall i :: 0 <= i < |EventPrefix| ==> IsSnakeChar(EventPrefix[i]);
      }
      SnakeCaseKeepsPrefix(EventPrefix, prefixed[|EventPrefix|..]);
      SnakeCase(prefixed)
  }

  /** The name a prop is recorded under: itself if valid, else its
      `snakeCase` form if that is valid, else none (the prop is dropped). */
  function PropName(k: string): (r: Option<string>)
    ensures r.Some? ==> ValidName(r.value)
    ensures r.None? <==> !ValidName(k) && !ValidName(SnakeCase(k))
    ensures ValidName(k) ==> r == Some(k)
  {
    if ValidName(k) then Some(k)
    else if ValidName(SnakeCase(k)) then Some(SnakeCase(k))
    else None
  }

  // ---------------------------------------------------------------------------
  // event props
  // ---------------------------------------------------------------------------

  /** Write each event prop, in key order, into the props object. */
  function ApplyProps<V>(props: map<string, V>, eventProps: seq<(string, V)>): map<string, V>
    decreases |eventProps|
  {
    if eventProps == [] then props
    else
      var (k, v) := eventProps[0];
      var next := match PropName(k) case Some(n) => props[n := v] case None => props;
      ApplyProps(next, eventProps[1..])
  }

  /** Reference definition: the value of the last event prop recorded under `n`. */
  function LastFor<V>(eventProps: seq<(string, V)>, n: string): Option<V>
    decreases |eventProps|
  {
    if eventProps == [] then None
    else match LastFor(eventProps[1..], n)
      case Some(v) => Some(v)
      case None => if PropName(eventProps[0].0) == Some(n) then Some(eventProps[0].1) else None
  }

  /** After the props are written, a name is present iff it was already there
      or some prop is recorded under it, and its value is the last such prop's
      (or the earlier value if none). */
  lemma {:induction false} ApplyPropsSpec<V>(props: map<string, V>, eventProps: seq<(string, V)>, n: string)
    ensures n in ApplyProps(props, eventProps) <==> n in props || LastFor(eventProps, n).Some?
    ensures n in ApplyProps(props, eventProps) ==>
      ApplyProps(props, eventProps)[n] == match LastFor(eventProps, n) case Some(v) => v case None => props[n]
    decreases |eventProps|
  {
    if eventProps != [] {
      var (k, v) := eventProps[0];
      var next := match PropName(k) case Some(m) => props[m := v] case None => props;
      ApplyPropsSpec(next, eventProps[1..], n);
    }
  }

  /** Every name the props object gains is a valid one. */
  lemma {:induction false} ApplyPropsNewNamesValid<V>(props: map<string, V>, eventProps: seq<(string, V)>)
    ensures forall n :: n in ApplyProps(props, eventProps) && n !in props ==> ValidName(n)
    decreases |eventProps|
  {
    if eventProps != [] {
      var (k, v) := eventProps[0];
      var next := match PropName(k) case Some(m) => props[m := v] case None => props;
      ApplyPropsNewNamesValid(next, eventProps[1..]);
    }
  }

  /** A field of the event object sent: the computed event name under
      `_en`, or a prop's value. */
  datatype Field<V> = NameField(name: string) | PropField(value: V)

  /** What `trackEvent` builds: the event name, the props, the base
      parameters afterwards, and the event object sent, which is `_en`
      followed by a spread of the props. The props object is the base
      parameters object itself, so the props and the base afterwards are the
      same map: every prop persists into later events. */
  datatype Tracked<V> = Tracked(name: string, props: map<string, V>, base: map<string, V>, sent: map<string, Field<V>>)

  const EventNameKey := "_en"

  /** A prop or base parameter named `_en` comes later in the spread, so it
      replaces the event name in the object sent. */
  function TrackEvent<V>(base: map<string, V>, name: string, eventProps: seq<(string, V)>): (t: Tracked<V>)
    ensures t.name == EventName(name) && ValidName(t.name)
    ensures t.base == t.props
    ensures base.Keys <= t.props.Keys
    ensures t.sent.Keys == t.props.Keys + {EventNameKey}
    ensures forall k :: k in t.props ==> t.sent[k] == PropField(t.props[k])
    ensures EventNameKey !in t.props ==> t.sent[EventNameKey] == NameField(t.name)
  {
    var props := ApplyProps(base, eventProps);
    forall n | n in base ensures n in props { ApplyPropsSpec(base, eventProps, n); }
    var en := EventName(name);
    Tracked(en, props, props, map[EventNameKey := NameField(en)] + map k | k in props :: PropField(props[k]))
  }

  /** An event prop named `_en` is sent in place of the event name. */
  lemma TrackEventNameOverridden<V>(base: map<string, V>, name: string, v: V)
    ensures TrackEvent(base, name, [(EventNameKey, v)]).sent[EventNameKey] == PropField(v)
  {
    assert ValidName(EventNameKey) by {
      assert forall i :: 0 <= i < |EventNameKey| ==> IsSnakeChar(EventNameKey[i]);
    }
    ApplyPropsSpec(base, [(EventNameKey, v)], EventNameKey);
  }

  // ---------------------------------------------------------------------------
  // setBaseParams
  // ---------------------------------------------------------------------------

  /** The JavaScript values `typeof` sorts: number, boolean, string, or anything else. */
  datatype JsValue = JsNumber(n: int) | JsBool(b: bool) | JsString(s: string) | JsOther

  predicate Primitive(v: JsValue) { !v.JsOther? }

  /** A key `setBaseParams` would rename: its `snakeCase` form is valid and different. */
  predicate Renameable(k: string) {
    ValidName(SnakeCase(k)) && SnakeCase(k) != k
  }

  /** A renamed key is never renameable again. */
  lemma RenamedIsSettled(k: string)
    ensures !Renameable(SnakeCase(k))
  {
    SnakeCaseIdempotent(k);
  }

  /** One iteration of the `forEach` over the snapshot of keys: a key already
      deleted reads as `undefined` and is deleted again (no change); a
      non-primitive value is deleted; a renameable key moves to its
      `snakeCase` form, overwriting what was there. */
  function SanitizeKey(params: map<string, JsValue>, k: string): (r: map<string, JsValue>)
    ensures k in r ==> Primitive(r[k]) && !Renameable(k)
    ensures forall j :: j in r && j != k && j != SnakeCase(k) ==> j in params && r[j] == params[j]
  {
    if k !in params then params
    else if !Primitive(params[k]) then params - {k}
    else if Renameable(k) then params[SnakeCase(k) := params[k]] - {k}
    else params
  }

  /** A renameable key with a primitive value moves to its `snakeCase` form;
      whatever sits under that form afterwards is either untouched or settled. */
  lemma SanitizeKeyRenames(params: map<string, JsValue>, k: string)
    ensures k in params && Renameable(k) && Primitive(params[k]) ==>
      SnakeCase(k) in SanitizeKey(params, k) && SanitizeKey(params, k)[SnakeCase(k)] == params[k]
    ensures SnakeCase(k) in SanitizeKey(params, k) && SnakeCase(k) != k ==>
      || (SnakeCase(k) in params && SanitizeKey(params, k)[SnakeCase(k)] == params[SnakeCase(k)])
      || (Primitive(SanitizeKey(params, k)[SnakeCase(k)]) && !Renameable(SnakeCase(k)))
  {
    RenamedIsSettled(k);
  }

  function SanitizeAll(params: map<string, JsValue>, keys: seq<string>): map<string, JsValue>
    decreases |keys|
  {
    if keys == [] then params else SanitizeAll(SanitizeKey(params, keys[0]), keys[1..])
  }

  /** Every key outside `pending` holds a primitive value under a settled name. */
  predicate SettledExcept(params: map<string, JsValue>, pending: set<string>) {
    forall j :: j in params && j !in pending ==> Primitive(params[j]) && !Renameable(j)
  }

  lemma {:induction false} SanitizeAllSettles(params: map<string, JsValue>, keys: seq<string>)
    requires SettledExcept(params, set i | 0 <= i < |keys| :: keys[i])
    ensures SettledExcept(SanitizeAll(params, keys), {})
    decreases |keys|
  {
    if keys != [] {
      var k := keys[0];
      var next := SanitizeKey(params, k);
      var pending := set i | 0 <= i < |keys| :: keys[i];
      var pending' := set i | 0 <= i < |keys[1..]| :: keys[1..][i];
      assert pending <= {k} + pending' by {
        forall j | j in pending ensures j in {k} + pending' {
          var i :| 0 <= i < |keys| && keys[i] == j;
          if i != 0 { assert keys[1..][i - 1] == j; }
        }
      }
      SanitizeKeyRenames(params, k);
      forall j | j in next && j !in pending'
        ensures Primitive(next[j]) && !Renameable(j)
      {
        assert j == k || j !in pending;
      }
      SanitizeAllSettles(next, keys[1..]);
    }
  }

  /** `setBaseParams(params)`: sanitise `params` over its own keys in order,
      then merge it over the base parameters. Afterwards every parameter
      taken from `params` is a number, boolean or string, and no key is left
      that would still be renamed. */
  function SetBaseParams(base: map<string, JsValue>, params: map<string, JsValue>, order: seq<string>): (r: map<string, JsValue>)
    requires forall k :: k in params ==> k in order
    ensures SettledExcept(SanitizeAll(params, order), {})
    ensures forall k :: k in r && (k !in base || k in SanitizeAll(params, order)) ==> Primitive(r[k]) && !Renameable(k)
    ensures forall k :: k in SanitizeAll(params, order) ==> k in r && r[k] == SanitizeAll(params, order)[k]
    ensures forall k :: k in base && k !in SanitizeAll(params, order) ==> k in r && r[k] == base[k]
  {
    assert SettledExcept(params, set i | 0 <= i < |order| :: order[i]) by {
      forall j | j in params ensures j in set i | 0 <= i < |order| :: order[i] {
        var i :| 0 <= i < |order| && order[i] == j;
      }
    }
    SanitizeAllSettles(params, order);
    base + SanitizeAll(params, order)
  }
}

=== FILE: base64.dfy ===
/** `isBase64` (src/utils/base64.ts): the anchored pattern
    `^(?:[A-Za-z0-9+/]{4})*(?:[A-Za-z0-9+/]{2}==|[A-Za-z0-9+/]{3}=)?$`,
    with the empty string refused up front. The standard padded encoder
    the unit test uses to build its input is modelled alongside. */
module Base64 {

  /** `[A-Za-z0-9+/]` */
  predicate InAlphabet(c: char) {
    'A' <= c <= 'Z' || 'a' <= c <= 'z' || '0' <= c <= '9' || c == '+' || c == '/'
  }

  /** `[A-Za-z0-9+/]{4}` */
  predicate Block(q: string) {
    |q| == 4 && InAlphabet(q[0]) && InAlphabet(q[1]) && InAlphabet(q[2]) && InAlphabet(q[3])
  }

  /** `[A-Za-z0-9+/]{2}==|[A-Za-z0-9+/]{3}=` */
  predicate Tail(q: string) {
    && |q| == 4 && InAlphabet(q[0]) && InAlphabet(q[1]) && q[3] == '='
    && (q[2] == '=' || InAlphabet(q[2]))
  }

  /** The anchored pattern: zero or more blocks, then at most one tail. A
      block never contains `=` and a tail always does, so the split is
      determined and no backtracking is needed. */
  predicate Matches(s: string)
    decreases |s|
  {
    s == [] || Tail(s) || (|s| >= 4 && Block(s[..4]) && Matches(s[4..]))
  }

  /** `isBase64`: false for the empty string, else whether the pattern matches. */
  function IsBase64(s: string): (r: bool)
    ensures r ==> |s| > 0
  {
    s != [] && Matches(s)
  }

  // ---------------------------------------------------------------------------
  // characterisation
  // ---------------------------------------------------------------------------

  /** The number of trailing `=`. */
  function Padding(s: string): (p: nat)
    ensures p <= |s|
    ensures forall i :: |s| - p <= i < |s| ==> s[i] == '='
    ensures p < |s| ==> s[|s| - p - 1] != '='
  {
    if s != [] && s[|s| - 1] == '=' then 1 + Padding(s[..|s| - 1]) else 0
  }

  lemma PaddingUnique(s: string, p: nat)
    requires p <= |s|
    requires forall i :: |s| - p <= i < |s| ==> s[i] == '='
    requires p < |s| ==> s[|s| - p - 1] != '='
    ensures Padding(s) == p
  {
  }

  /** Padding is the same after dropping a prefix, unless the rest is all padding. */
  lemma {:induction false} PaddingSuffix(s: string, k: nat)
    requires k <= |s| && Padding(s[k..]) < |s| - k
    ensures Padding(s) == Padding(s[k..])
    decreases |s|
  {
    var t := s[k..];
    assert s[|s| - 1] == t[|t| - 1];
    if s[|s| - 1] == '=' {
      assert s[..|s| - 1][k..] == t[..|t| - 1];
      PaddingSuffix(s[..|s| - 1], k);
    }
  }

  /** Length a multiple of four, at most two `=`, all at the end, and every
      other character in the alphabet. */
  predicate Shaped(s: string) {
    && |s| % 4 == 0
    && Padding(s) <= 2
    && forall i :: 0 <= i < |s| - Padding(s) ==> InAlphabet(s[i])
  }

  lemma ShapedFour(s: string)
    requires |s| == 4
    ensures Shaped(s) <==> Block(s) || Tail(s)
  {
    if s[3] != '=' {
      PaddingUnique(s, 0);
    } else if s[2] != '=' {
      PaddingUnique(s, 1);
    } else if s[1] != '=' {
      PaddingUnique(s, 2);
    } else {
      assert Padding(s) >= 3 by {
        if s[0] != '=' { PaddingUnique(s, 3); } else { PaddingUnique(s, 4); }
      }
    }
  }

  /** Past the first block, shape is decided by the first block and the rest. */
  lemma ShapedCons(s: string)
    requires |s| > 4 && Padding(s[4..]) < |s| - 4
    ensures Shaped(s) <==> Block(s[..4]) && Shaped(s[4..])
  {
    var t := s[4..];
    PaddingSuffix(s, 4);
    if Shaped(s) {
      forall i | 0 <= i < |t| - Padding(t) ensures InAlphabet(t[i]) {
        assert s[i + 4] == t[i];
      }
    }
    if Block(s[..4]) && Shaped(t) {
      forall i | 0 <= i < |s| - Padding(s) ensures InAlphabet(s[i]) {
        if i < 4 {
          assert s[i] == s[..4][i];
        } else {
          assert s[i] == t[i - 4];
        }
      }
    }
  }

  /** A string whose part after the first four characters is all `=` is not shaped. */
  lemma ShapedPaddedRest(s: string)
    requires |s| > 4 && Padding(s[4..]) == |s| - 4
    ensures !Shaped(s)
  {
    var t := s[4..];
    assert s[4] == t[0] == '=';
  }

  /** The pattern (allowing the empty string) matches exactly the shaped strings. */
  lemma {:induction false} MatchesShaped(s: string)
    ensures Matches(s) <==> Shaped(s)
    decreases |s|
  {
    if s == [] {
    } else if |s| < 4 {
      assert !Shaped(s);
    } else if |s| == 4 {
      ShapedFour(s);
      assert s[4..] == [];
    } else {
      MatchesShaped(s[4..]);
      assert !Tail(s);
      if Padding(s[4..]) < |s| - 4 {
        ShapedCons(s);
      } else {
        ShapedPaddedRest(s);
      }
    }
  }

  /** `isBase64` holds exactly for the non-empty shaped strings. */
  lemma IsBase64Shaped(s: string)
    ensures IsBase64(s) <==> s != [] && Shaped(s)
  {
    MatchesShaped(s);
  }

  /** Only lengths that are multiples of four are accepted. */
  lemma AcceptedLength(s: string)
    requires IsBase64(s)
    ensures |s| % 4 == 0 && |s| >= 4
  {
    MatchesShaped(s);
  }

  // ---------------------------------------------------------------------------
  // the standard padded encoder
  // ---------------------------------------------------------------------------

  newtype byte = x: int | 0 <= x < 256

  /** The alphabet in index order: `A-Z`, `a-z`, `0-9`, `+`, `/`. */
  function Digit(i: int): (c: char)
    requires 0 <= i < 64
    ensures InAlphabet(c)
  {
    if i < 26 then ('A' as int + i) as char
    else if i < 52 then ('a' as int + i - 26) as char
    else if i < 62 then ('0' as int + i - 52) as char
    else if i == 62 then '+'
    else '/'
  }

  /** Each three bytes become four digits; a final one or two bytes become a
      tail padded with `==` or `=`. */
  function Encode(b: seq<byte>): (r: string)
    decreases |b|
  {
    if |b| >= 3 then
      var x, y, z := b[0] as int, b[1] as int, b[2] as int;
      [Digit(x / 4), Digit(x % 4 * 16 + y / 16), Digit(y % 16 * 4 + z / 64), Digit(z % 64)] + Encode(b[3..])
    else if |b| == 2 then
      var x, y := b[0] as int, b[1] as int;
      [Digit(x / 4), Digit(x % 4 * 16 + y / 16), Digit(y % 16 * 4), '=']
    else if |b| == 1 then
      var x := b[0] as int;
      [Digit(x / 4), Digit(x % 4 * 16), '=', '=']
    else []
  }

  lemma {:induction false} EncodeLength(b: seq<byte>)
    ensures |Encode(b)| == 4 * ((|b| + 2) / 3)
    decreases |b|
  {
    var n := |b|;
    if n >= 3 {
      EncodeLength(b[3..]);
      assert (n + 2) / 3 == (n - 3 + 2) / 3 + 1;
      assert |Encode(b)| == 4 + |Encode(b[3..])|;
    } else if n > 0 {
      assert (n + 2) / 3 == 1;
    }
  }

  /** The pattern accepts every encoding (including the empty one). */
  lemma {:induction false} EncodeMatches(b: seq<byte>)
    ensures Matches(Encode(b))
    decreases |b|
  {
    if |b| >= 3 {
      var e := Encode(b);
      EncodeMatches(b[3..]);
      assert e[4..] == Encode(b[3..]);
      assert Block(e[..4]);
    }
  }

  /** `isBase64` accepts the encoding of every non-empty byte sequence. */
  lemma EncodeAccepted(b: seq<byte>)
    requires b != []
    ensures IsBase64(Encode(b))
  {
    EncodeMatches(b);
    EncodeLength(b);
  }

  /** The bytes of an ASCII string. */
  function AsciiBytes(s: string): (b: seq<byte>)
    requires forall i :: 0 <= i < |s| ==> s[i] as int < 128
    ensures |b| == |s|
  {
    seq(|s|, i requires 0 <= i < |s| => s[i] as int as byte)
  }

  /** Removing the last two characters of an accepted string always makes
      it refused: its length is no longer a multiple of four. */
  lemma TruncatedRefused(e: string)
    requires IsBase64(e)
    ensures !IsBase64(e[..|e| - 2])
  {
    AcceptedLength(e);
    if IsBase64(e[..|e| - 2]) {
      AcceptedLength(e[..|e| - 2]);
    }
  }

  /** The unit test's cases: the encoding of its sample sentence is accepted,
      and that encoding with its last two characters removed, the sentence
      itself, the empty string and `hello` are all refused. */
  lemma UnitTestCases(sentence: string, hello: string)
    requires sentence == "This is an example!" && hello == "hello"
    ensures IsBase64(Encode(AsciiBytes(sentence)))
    ensures !IsBase64(Encode(AsciiBytes(sentence))[..|Encode(AsciiBytes(sentence))| - 2])
    ensures !IsBase64(sentence)
    ensures !IsBase64("")
    ensures !IsBase64(hello)
  {
    var b := AsciiBytes(sentence);
    EncodeAccepted(b);
    TruncatedRefused(Encode(b));
    assert |sentence| == 19 && |hello| == 5;
    if IsBase64(sentence) {
      AcceptedLength(sentence);
    }
    if IsBase64(hello) {
      AcceptedLength(hello);
    }
  }
}

=== FILE: common.dfy ===
/** Small shared vocabulary: optional values, results with an error, and the
    string helpers (prefix test, substring search) the checks are written with. */
module Common {

  datatype Option<+T> = None | Some(value: T)

  datatype Result<+T, +E> = Ok(value: T) | Err(error: E) {
    predicate IsFailure() { Err? }
  }

  /** `s.startsWith(p)` */
  predicate StartsWith(s: string, p: string) {
    |p| <= |s| && s[..|p|] == p
  }

  /** `p` occurs in `s` at position `i`. */
  predicate OccursAt(s: string, p: string, i: int) {
    0 <= i && i + |p| <= |s| && s[i..i + |p|] == p
  }

  /** `s.includes(p)` */
  predicate Contains(s: string, p: string) {
    exists i | 0 <= i <= |s| :: OccursAt(s, p, i)
  }

  /** Index of the first occurrence of `p` in `s` at or after `from`, as `String.indexOf`. */
  function IndexFrom(s: string, p: string, from: nat): (r: Option<nat>)
    requires from <= |s|
    ensures r.Some? ==> from <= r.value && OccursAt(s, p, r.value)
    ensures r.Some? ==> forall j :: from <= j < r.value ==> !OccursAt(s, p, j)
    ensures r.None? ==> forall j :: from <= j ==> !OccursAt(s, p, j)
    decreases |s| - from
  {
    if OccursAt(s, p, from) then Some(from)
    else if from == |s| then None
    else IndexFrom(s, p, from + 1)
  }

  function IndexOf(s: string, p: string): (r: Option<nat>)
    ensures r.Some? <==> Contains(s, p)
    ensures r.Some? ==> OccursAt(s, p, r.value) && forall j :: 0 <= j < r.value ==> !OccursAt(s, p, j)
  {
    IndexFrom(s, p, 0)
  }

  /** The first `n` elements, as `Array.prototype.slice(0, n)`. */
  function Take<T>(xs: seq<T>, n: nat): (r: seq<T>)
    ensures |r| <= n && |r| <= |xs|
    ensures |xs| <= n ==> r == xs
    ensures r == xs[..|r|]
  {
    if |xs| <= n then xs else xs[..n]
  }

  /** A sequence is its prefix followed by the rest. */
  lemma SplitAt<T>(xs: seq<T>, k: nat)
    requires k <= |xs|
    ensures xs[..k] + xs[k..] == xs
  {
  }
}

=== FILE: disallowed_files.dfy ===
/** The "Git disallowed files" check (src/tests/git/disallowed-files.ts):
    list the tracked paths, find the first path that breaks each rule, and
    raise one blocker naming what was found. The shell call is an input. */
module DisallowedFiles {
  import opened Common
  import opened Issues
  import opened Results
  import opened TestTree
  import opened Engine
  import opened EngineLemmas

  // ---------------------------------------------------------------------------
  // rules
  // ---------------------------------------------------------------------------

  /** The two regular-expression shapes the rules use: a literal anchored at
      the start (`/^lit/`) or a literal anywhere (`/lit/`). */
  datatype Pattern = AtStart(literal: string) | Anywhere(literal: string)

  predicate PatternTest(p: Pattern, path: string) {
    match p
    case AtStart(l) => StartsWith(path, l)
    case Anywhere(l) => Contains(path, l)
  }

  datatype PathRule = PathRule(explanation: string, patterns: seq<Pattern>)

  const NodeModulesDir: string := "node_modules/"
  const NodeModulesExplanation: string := "node_modules should not be committed to source control"
  const DisallowedLead: string := "The source tree contains disallowed files:"

  /** The one rule: `node_modules` must not be committed. */
  const NodeModules: PathRule :=
    PathRule(NodeModulesExplanation,
             [AtStart(NodeModulesDir), Anywhere("/" + NodeModulesDir)])

  const Rules: seq<PathRule> := [NodeModules]

  /** `evaluatePath`: some pattern of the rule matches the path. */
  predicate EvaluatePath(path: string, rule: PathRule) {
    exists i :: 0 <= i < |rule.patterns| && PatternTest(rule.patterns[i], path)
  }

  /** Reference: the path has a directory component named `node_modules`,
      at the top or below some other directory. */
  predicate HasNodeModulesDir(path: string) {
    exists i :: 0 <= i <= |path| && OccursAt(path, NodeModulesDir, i) && (i == 0 || path[i - 1] == '/')
  }

  lemma SlashOccurrence(path: string, j: int)
    requires 0 <= j
    ensures OccursAt(path, "/" + NodeModulesDir, j) <==> OccursAt(path, NodeModulesDir, j + 1) && path[j] == '/'
  {
    var l := "/" + NodeModulesDir;
    var n := |NodeModulesDir|;
    if OccursAt(path, l, j) {
      assert path[j + 1..j + 1 + n] == path[j..j + |l|][1..];
      assert path[j] == path[j..j + |l|][0];
    }
    if OccursAt(path, NodeModulesDir, j + 1) && path[j] == '/' {
      assert path[j..j + |l|] == [path[j]] + path[j + 1..j + 1 + n];
      assert [path[j]] == "/";
    }
  }

  /** The rule's two patterns together match exactly the paths with a
      `node_modules` directory component. */
  lemma NodeModulesRuleMeaning(path: string)
    ensures EvaluatePath(path, NodeModules) <==> HasNodeModulesDir(path)
  {
    var ps := NodeModules.patterns;
    if HasNodeModulesDir(path) {
      var i :| 0 <= i <= |path| && OccursAt(path, NodeModulesDir, i) && (i == 0 || path[i - 1] == '/');
      if i == 0 {
        assert PatternTest(ps[0], path);
      } else {
        SlashOccurrence(path, i - 1);
        assert PatternTest(ps[1], path);
      }
    }
    if EvaluatePath(path, NodeModules) {
      var k :| 0 <= k < |ps| && PatternTest(ps[k], path);
      if k == 0 {
        assert OccursAt(path, NodeModulesDir, 0);
      } else {
        var j :| 0 <= j <= |path| && OccursAt(path, "/" + NodeModulesDir, j);
        SlashOccurrence(path, j);
        assert OccursAt(path, NodeModulesDir, j + 1) && path[j] == '/';
      }
    }
  }

  /** `paths.find(...)`: the first path that breaks the rule. */
  function Find(paths: seq<string>, rule: PathRule): (r: Option<nat>)
    ensures r.Some? ==> r.value < |paths| && EvaluatePath(paths[r.value], rule)
    ensures r.Some? ==> forall j :: 0 <= j < r.value ==> !EvaluatePath(paths[j], rule)
    ensures r.None? <==> forall j :: 0 <= j < |paths| ==> !EvaluatePath(paths[j], rule)
  {
    if paths == [] then None
    else if EvaluatePath(paths[0], rule) then Some(0)
    else match Find(paths[1..], rule)
      case None =>
        assert forall j :: 1 <= j < |paths| ==> paths[j] == paths[1..][j - 1];
        None
      case Some(k) =>
        assert forall j :: 1 <= j <= k ==> paths[j] == paths[1..][j - 1];
        Some(k + 1)
  }

  /** The line for one broken rule. */
  function Report(bad: string, rule: PathRule): string {
    "\n" + bad + ": " + rule.explanation
  }

  /** `rules.reduce(...)` as written: a rule whose first bad path is truthy
      (non-empty) REPLACES the accumulated text, so only the last broken rule
      is reported. */
  function BrokenRules(paths: seq<string>, rules: seq<PathRule>): string
    decreases |rules|
  {
    if rules == [] then ""
    else
      var acc := BrokenRules(paths, rules[..|rules| - 1]);
      var rule := rules[|rules| - 1];
      match Find(paths, rule)
      case Some(k) => if paths[k] != "" then Report(paths[k], rule) else acc
      case None => acc
  }

  /** Whether a rule is broken by a path the reducer reports. */
  predicate Broken(paths: seq<string>, rule: PathRule) {
    var f := Find(paths, rule);
    f.Some? && paths[f.value] != ""
  }

  /** The accumulated text is the report of the last broken rule, or empty
      when no rule is broken. */
  lemma {:induction false} BrokenRulesEmpty(paths: seq<string>, rules: seq<PathRule>)
    ensures BrokenRules(paths, rules) == "" <==> forall i :: 0 <= i < |rules| ==> !Broken(paths, rules[i])
    decreases |rules|
  {
    if rules != [] {
      var front := rules[..|rules| - 1];
      BrokenRulesEmpty(paths, front);
      assert forall i :: 0 <= i < |front| ==> front[i] == rules[i];
      var rule := rules[|rules| - 1];
      if Broken(paths, rule) {
        assert |Report(paths[Find(paths, rule).value], rule)| > 0;
      }
    }
  }

  lemma {:induction false} BrokenRulesLast(paths: seq<string>, rules: seq<PathRule>, i: nat)
    requires i < |rules| && Broken(paths, rules[i])
    requires forall j :: i < j < |rules| ==> !Broken(paths, rules[j])
    ensures BrokenRules(paths, rules) == Report(paths[Find(paths, rules[i]).value], rules[i])
    decreases |rules|
  {
    if i < |rules| - 1 {
      var front := rules[..|rules| - 1];
      assert !Broken(paths, rules[|rules| - 1]);
      assert BrokenRules(paths, rules) == BrokenRules(paths, front);
      assert front[i] == rules[i];
      assert forall j :: i < j < |front| ==> front[j] == rules[j];
      BrokenRulesLast(paths, front, i);
    }
  }

  /** `evaluatePaths`: a blocker listing the broken rules, if there is one. */
  function EvaluatePaths(paths: seq<string>): (script: seq<Action>)
    ensures |script| <= 1
  {
    var broken := BrokenRules(paths, Rules);
    if |broken| > 0 then [BlockerCall(DisallowedLead + broken, "", None)] else []
  }

  /** With the one rule, the check throws exactly when some path has a
      `node_modules` directory component, and names the first such path. */
  lemma EvaluatePathsMeaning(paths: seq<string>)
    ensures |EvaluatePaths(paths)| == 1 <==> exists j :: 0 <= j < |paths| && HasNodeModulesDir(paths[j])
    ensures |EvaluatePaths(paths)| == 1 ==>
      Find(paths, NodeModules).Some? &&
      var k := Find(paths, NodeModules).value;
      EvaluatePaths(paths)[0] == BlockerCall(DisallowedLead + Report(paths[k], NodeModules), "", None)
  {
    BrokenRulesEmpty(paths, Rules);
    if Broken(paths, NodeModules) {
      BrokenRulesLast(paths, Rules, 0);
    }
    forall j | 0 <= j < |paths| ensures EvaluatePath(paths[j], NodeModules) <==> HasNodeModulesDir(paths[j]) {
      NodeModulesRuleMeaning(paths[j]);
    }
    var f := Find(paths, NodeModules);
    if f.Some? {
      assert paths[f.value] != "" by {
        NodeModulesRuleMeaning(paths[f.value]);
        var i :| 0 <= i <= |paths[f.value]| && OccursAt(paths[f.value], NodeModulesDir, i) && (i == 0 || paths[f.value][i - 1] == '/');
      }
    }
    assert BrokenRules(paths, Rules) != "" <==> Broken(paths, NodeModules);
  }

  // ---------------------------------------------------------------------------
  // listing the paths
  // ---------------------------------------------------------------------------

  predicate IsBreak(c: char) { c == '\r' || c == '\n' }

  /** `stdout.split(/[\r\n]+/)`: each run of line-break characters separates
      two elements; a leading or trailing run leaves an empty element. */
  function SplitLines(s: string): (r: seq<string>)
    ensures |r| >= 1
    ensures forall i, j :: 0 <= i < |r| && 0 <= j < |r[i]| ==> !IsBreak(r[i][j])
    ensures s != [] && !IsBreak(s[0]) ==> r[0] != []
    ensures forall i :: 0 < i < |r| - 1 ==> r[i] != []
    decreases |s|
  {
    if s == [] then [""]
    else if IsBreak(s[0]) then
      if |s| > 1 && IsBreak(s[1]) then SplitLines(s[1..]) else [""] + SplitLines(s[1..])
    else
      var rest := SplitLines(s[1..]);
      [[s[0]] + rest[0]] + rest[1..]
  }

  /** `s` with its line-break characters removed. */
  function Unbroken(s: string): string
    decreases |s|
  {
    if s == [] then [] else (if IsBreak(s[0]) then [] else [s[0]]) + Unbroken(s[1..])
  }

  function Concat(xs: seq<string>): string
    decreases |xs|
  {
    if xs == [] then [] else xs[0] + Concat(xs[1..])
  }

  /** Splitting loses only the line breaks: the elements put back together
      are the input without its break characters. */
  lemma {:induction false} SplitLinesKeepsText(s: string)
    ensures Concat(SplitLines(s)) == Unbroken(s)
    decreases |s|
  {
    if s != [] {
      SplitLinesKeepsText(s[1..]);
      var rest := SplitLines(s[1..]);
      if IsBreak(s[0]) {
        if !(|s| > 1 && IsBreak(s[1])) {
          assert Concat([""] + rest) == "" + Concat(rest) by {
            assert ([""] + rest)[1..] == rest;
          }
        }
      } else {
        var r := [[s[0]] + rest[0]] + rest[1..];
        assert r[1..] == rest[1..];
        assert Concat(rest) == rest[0] + Concat(rest[1..]);
        assert Concat(r) == [s[0]] + rest[0] + Concat(rest[1..]);
      }
    }
  }

  /** Text without line breaks is one element: itself. */
  lemma {:induction false} SplitLinesSingle(s: string)
    requires forall i :: 0 <= i < |s| ==> !IsBreak(s[i])
    ensures SplitLines(s) == [s]
    decreases |s|
  {
    if s != [] {
      SplitLinesSingle(s[1..]);
      assert [s[0]] + s[1..] == s;
    }
  }

  // ---------------------------------------------------------------------------
  // the test
  // ---------------------------------------------------------------------------

  /** What `git ls-tree -dr --name-only HEAD` gave: its output, or a failure. */
  datatype ShellOutput = Stdout(out: string) | ShellFailed(err: Payload)

  /** Whether the listed paths include one with a `node_modules` directory. */
  predicate ListsNodeModules(shell: ShellOutput) {
    shell.Stdout? && exists j :: 0 <= j < |SplitLines(shell.out)| && HasNodeModulesDir(SplitLines(shell.out)[j])
  }

  const ExamineNotice: string := "Examining source tree for disallowed files..."
  const ListingFailed: string := "Unable to retrieve a list of source tree files. Is this is a git repository?"

  /** `run`: a notice, then the paths are listed and evaluated. A failing
      shell call raises a blocker inside `getPaths`, which throws, so its
      `return []` is never reached. */
  function RunScriptOf(shell: ShellOutput): (script: seq<Action>)
    ensures 1 <= |script| <= 2 && script[0] == NoticeCall(ExamineNotice, "", None)
    ensures |script| == 2 <==> shell.ShellFailed? || ListsNodeModules(shell)
    ensures |script| == 2 ==> script[1].BlockerCall?
  {
    match shell
    case Stdout(out) =>
      EvaluatePathsMeaning(SplitLines(out));
      [NoticeCall(ExamineNotice, "", None)] + EvaluatePaths(SplitLines(out))
    case ShellFailed(err) =>
      [NoticeCall(ExamineNotice, "", None), BlockerCall(ListingFailed, "", Some(err))]
  }

  const DisallowedFilesName: string := "Git disallowed files"
  const DisallowedFilesDescription: string := "Checks the repository for disallowed files"

  function DisallowedFilesTest(shell: ShellOutput, own: StoreRef): (t: Test<Action>)
    ensures t.Leaf?
  {
    NewTest(DisallowedFilesName, DisallowedFilesDescription, [], RunScriptOf(shell), own)
  }

  lemma NoticeFirst(s: seq<Action>)
    requires |s| >= 1 && s[0] == NoticeCall(ExamineNotice, "", None)
    ensures Quiet(s[..1]) && RecordedAll(s[..1]) == [Issue(Notice, ExamineNotice, "", None)]
    ensures !CallsError(s[..1]) && !CallsWarning(s[..1])
  {
    assert s[..1] == [s[0]];
    assert RecordedAll(s[..1]) == Recorded(s[0]) + RecordedAll(s[..1][1..]);
  }

  /** The check ends Aborted when the listing fails or lists a `node_modules`
      directory, and Success otherwise; it never fails with an Error or a
      Warning, and its first issue is always the notice. */
  lemma DisallowedFilesOutcome(shell: ShellOutput, own: StoreRef)
    ensures var e := ExecuteLeaf(DisallowedFilesTest(shell, own));
      && e.outcome == Returned
      && (StatusOf(e.test) == Aborted <==> shell.ShellFailed? || ListsNodeModules(shell))
      && (StatusOf(e.test) == Success <==> !(shell.ShellFailed? || ListsNodeModules(shell)))
      && |e.test.result.issues| > 0 && e.test.result.issues[0] == Issue(Notice, ExamineNotice, "", None)
  {
    var t := DisallowedFilesTest(shell, own);
    var s := RunScriptOf(shell);
    assert t.prepare + t.body == s;
    NoticeFirst(s);
    if |s| == 2 {
      LeafUnwinds(t, 1);
    } else {
      assert s == s[..1];
      LeafCompletes(t);
      RecordedKinds(s);
    }
  }

  /** The unit test's first path list: a top-level `node_modules` path makes
      `evaluatePaths` throw. */
  lemma UnitTestTopLevel(paths: seq<string>)
    requires paths == ["index.js", "node_modules/leftpad/main.js", "test.js"]
    ensures |EvaluatePaths(paths)| == 1 && EvaluatePaths(paths)[0].BlockerCall?
  {
    EvaluatePathsMeaning(paths);
    NodeModulesPath("", paths[1], "leftpad/main.js");
  }

  /** The second list: a nested `node_modules` path makes it throw too. */
  lemma UnitTestNested(paths: seq<string>)
    requires paths == ["index.js", "lib/node_modules/leftpad/main.js", "test.js"]
    ensures |EvaluatePaths(paths)| == 1 && EvaluatePaths(paths)[0].BlockerCall?
  {
    EvaluatePathsMeaning(paths);
    NestedPathSplit(paths[1]);
    NodeModulesPath("lib/", paths[1], "leftpad/main.js");
  }

  lemma NestedPathSplit(path: string)
    requires path == "lib/node_modules/leftpad/main.js"
    ensures path == "lib/" + NodeModulesDir + "leftpad/main.js"
  {
  }

  /** The third list: paths that only resemble it do not make it throw. */
  lemma UnitTestSimilar(paths: seq<string>)
    requires paths == ["modules/main.js", "nodemodules/main.js", "node_module/main.js"]
    ensures EvaluatePaths(paths) == []
  {
    EvaluatePathsMeaning(paths);
    forall j | 0 <= j < |paths| ensures !HasNodeModulesDir(paths[j]) {
      NoNodeModulesDir(paths[j]);
    }
  }

  /** A path made of a directory prefix, `node_modules/`, and the rest. */
  lemma NodeModulesPath(dir: string, path: string, rest: string)
    requires path == dir + NodeModulesDir + rest
    requires dir == [] || dir[|dir| - 1] == '/'
    ensures HasNodeModulesDir(path)
  {
    assert path[|dir|..|dir| + |NodeModulesDir|] == NodeModulesDir;
    assert OccursAt(path, NodeModulesDir, |dir|);
    if dir != [] {
      assert path[|dir| - 1] == dir[|dir| - 1];
    }
  }

  /** An occurrence of `node_modules/` puts `_` four characters in and `s/`
      eleven characters in. */
  lemma OccurrenceChars(path: string, i: int)
    requires OccursAt(path, NodeModulesDir, i)
    ensures path[i + 4] == '_' && path[i + 11] == 's' && path[i + 12] == '/'
  {
    assert path[i + 4] == path[i..i + 13][4];
    assert path[i + 11] == path[i..i + 13][11];
    assert path[i + 12] == path[i..i + 13][12];
  }

  /** The paths of the unit test that only resemble `node_modules`: the
      first two have no `_`, the third has its only `_` where `s/` cannot follow. */
  lemma NoNodeModulesDir(path: string)
    requires path in ["modules/main.js", "nodemodules/main.js", "node_module/main.js"]
    ensures !HasNodeModulesDir(path)
  {
    if HasNodeModulesDir(path) {
      var i :| 0 <= i <= |path| && OccursAt(path, NodeModulesDir, i) && (i == 0 || path[i - 1] == '/');
      OccurrenceChars(path, i);
      assert false;
    }
  }
}

=== FILE: docker_healthcheck.dfy ===
/** The cache-healthcheck test of src/tests/docker/healthcheck.test.ts: one
    timed request to `/cache-healthcheck?` on the application's port,
    classified by status and duration. The request, the container-log shell
    call and the preparation's shell call are inputs. */
module DockerHealthcheck {
  import opened Common
  import opened Issues
  import opened Results
  import opened TestTree
  import opened Engine
  import opened EngineLemmas
  import Health

  const Route: string := "/cache-healthcheck?"
  /** Above this many milliseconds the response draws a warning. */
  const MaxDesiredDuration: nat := 100

  const HealthcheckName: string := "Testing application availability and health-check endpoint"

  const HealthcheckDescription: string := "Checking if your app accepts a PORT and responds to /cache-healthcheck"
  /** Above this many milliseconds the response draws an error. */
  const MaxAllowedDuration: nat := 200
  const CacheHealthcheckDoc: string := "https://docs.wpvip.com/technical-references/node-js/#h-requirement-1-exposing-a-health-check-endpoint"

  /** The container logs: read, or the shell call failed. */
  datatype Logs = Logs(all: Payload) | LogsFailed(reason: string)

  /** The timed request: a response, or a failure (which nothing catches). */
  datatype CacheProbe =
    | CacheAnswered(status: nat, duration: nat, logs: Logs)
    | Unreachable(reason: string)

  function CacheURL(port: nat): string {
    "http://localhost:" + Health.Digits(port) + Route
  }

  const NotOkMessage: string :=
    "Could not get a 200 - OK response from " + Route + ". "
    + "Make sure your application accepts a PORT environment variable."

  const TooSlowLead: string := "The request to " + Route + " took longer than 200ms ("
  const TooSlowTail: string :=
    "ms).\nThis request is taking too long and it might be caused by some problem with your application."

  function TooSlowMessage(duration: nat): string {
    TooSlowLead + Health.Digits(duration) + TooSlowTail
  }

  const SlowLead: string := "The request to " + Route + " took longer than 100ms ("

  function SlowMessage(duration: nat): string {
    SlowLead + Health.Digits(duration) + "ms)"
  }

  /** The decision after the logs are read: a status other than 200 is a
      blocker pointing at the documentation; then a duration over the
      allowed limit is an error, over the desired limit a warning. */
  function CacheVerdict(status: nat, duration: nat, logs: Payload): (s: seq<Action>)
    ensures |s| <= 1
    ensures s == [] <==> status == 200 && duration <= MaxDesiredDuration
    ensures s != [] ==> (s[0].BlockerCall? <==> status != 200)
    ensures s != [] ==> (s[0].ErrorCall? <==> status == 200 && duration > MaxAllowedDuration)
    ensures s != [] ==> (s[0].WarningCall? <==> status == 200 && MaxDesiredDuration < duration <= MaxAllowedDuration)
    ensures s != [] && s[0].BlockerCall? ==> s[0].doc == CacheHealthcheckDoc && s[0].data == Some(logs)
  {
    if status != 200 then [BlockerCall(NotOkMessage, CacheHealthcheckDoc, Some(logs))]
    else if duration > MaxAllowedDuration then [ErrorCall(TooSlowMessage(duration), "", Some(logs))]
    else if duration > MaxDesiredDuration then [WarningCall(SlowMessage(duration), "", None)]
    else []
  }

  function SendingMessage(port: nat): string {
    "Sending a GET request to " + CacheURL(port) + "..."
  }

  function GotMessage(status: nat, duration: nat): string {
    "Got a " + Health.Digits(status) + " response in " + Health.Digits(duration) + "ms"
  }

  /** `run()`: announce the request, report the response, read the logs,
      then decide. A failed request or log read escapes as a fault. */
  function CacheScript(port: nat, probe: CacheProbe): (s: seq<Action>)
    ensures |s| >= 2 && s[0].NoticeCall?
    ensures probe.Unreachable? ==> s == [s[0], ThrowFault(probe.reason)]
    ensures probe.CacheAnswered? ==> s[1].NoticeCall?
    ensures probe.CacheAnswered? && probe.logs.LogsFailed? ==> s == [s[0], s[1], ThrowFault(probe.logs.reason)]
    ensures probe.CacheAnswered? && probe.logs.Logs? ==>
      |s| == 2 + |CacheVerdict(probe.status, probe.duration, probe.logs.all)|
      && s[2..] == CacheVerdict(probe.status, probe.duration, probe.logs.all)
  {
    var sending := NoticeCall(SendingMessage(port), "", None);
    match probe
    case Unreachable(r) => [sending, ThrowFault(r)]
    case CacheAnswered(st, d, logs) =>
      var got := NoticeCall(GotMessage(st, d), "", None);
      match logs
      case LogsFailed(r) => [sending, got, ThrowFault(r)]
      case Logs(all) => [sending, got] + CacheVerdict(st, d, all)
  }

  /** `prepare()` reads the commit hash through a shell call, which may fail. */
  function CachePrepare(gitFailure: Option<string>): (s: seq<Action>)
    ensures gitFailure.None? <==> s == []
  {
    match gitFailure
    case None => []
    case Some(r) => [ThrowFault(r)]
  }

  function HealthcheckTest(port: nat, gitFailure: Option<string>, probe: CacheProbe, own: StoreRef): (t: Test<Action>)
    ensures t.Leaf? && t.result == NewResult()
    ensures t.prepare == CachePrepare(gitFailure) && t.body == CacheScript(port, probe)
  {
    NewTest(HealthcheckName, HealthcheckDescription, CachePrepare(gitFailure), CacheScript(port, probe), own)
  }

  /** A status other than 200 aborts the test; the blocker, recorded after
      the two notices, points at the documentation and carries the logs. */
  lemma HealthcheckBlocked(port: nat, probe: CacheProbe, own: StoreRef)
    requires probe.CacheAnswered? && probe.logs.Logs? && probe.status != 200
    ensures var e := ExecuteLeaf(HealthcheckTest(port, None, probe, own));
      && e.outcome == Returned
      && e.test.result == TestResult(Aborted, [
           Issue(Notice, SendingMessage(port), "", None),
           Issue(Notice, GotMessage(probe.status, probe.duration), "", None),
           Issue(Blocker, NotOkMessage, CacheHealthcheckDoc, Some(probe.logs.all))])
  {
    var t := HealthcheckTest(port, None, probe, own);
    NoticesThenBlocker(t);
  }

  /** A fresh leaf whose bodies are two notices and a blocker ends Aborted
      with exactly those three issues. */
  lemma NoticesThenBlocker(t: Test<Action>)
    requires t.Leaf? && t.result == NewResult()
    requires var s := t.prepare + t.body;
      |s| == 3 && s[0].NoticeCall? && s[1].NoticeCall? && s[2].BlockerCall?
    ensures var s := t.prepare + t.body;
      var e := ExecuteLeaf(t);
      && e.outcome == Returned
      && e.test.result == TestResult(Aborted, [
           Issue(Notice, s[0].message, s[0].doc, s[0].data),
           Issue(Notice, s[1].message, s[1].doc, s[1].data),
           Issue(Blocker, s[2].message, s[2].doc, s[2].data)])
  {
    var s := t.prepare + t.body;
    assert s[..2] == [s[0]] + [s[1]];
    Health.QuietCons(s[0], [s[1]]);
    Health.QuietCons(s[1], []);
    LeafUnwinds(t, 2);
  }

  /** A 200 response within 100 ms: Success, with the two notices only. */
  lemma HealthcheckHealthy(port: nat, probe: CacheProbe, own: StoreRef)
    requires probe.CacheAnswered? && probe.logs.Logs? && probe.status == 200
    requires probe.duration <= MaxDesiredDuration
    ensures var e := ExecuteLeaf(HealthcheckTest(port, None, probe, own));
      && e.outcome == Returned
      && e.test.result == TestResult(Success, [
           Issue(Notice, SendingMessage(port), "", None),
           Issue(Notice, GotMessage(probe.status, probe.duration), "", None)])
  {
    NoticesOnly(HealthcheckTest(port, None, probe, own));
  }

  /** A 200 response slower than 200 ms: Failed, with an error carrying the
      logs after the two notices. */
  lemma HealthcheckTooSlow(port: nat, probe: CacheProbe, own: StoreRef)
    requires probe.CacheAnswered? && probe.logs.Logs? && probe.status == 200
    requires probe.duration > MaxAllowedDuration
    ensures var e := ExecuteLeaf(HealthcheckTest(port, None, probe, own));
      && e.outcome == Returned
      && e.test.result == TestResult(Failed, [
           Issue(Notice, SendingMessage(port), "", None),
           Issue(Notice, GotMessage(probe.status, probe.duration), "", None),
           Issue(Error, TooSlowMessage(probe.duration), "", Some(probe.logs.all))])
  {
    NoticesThenError(HealthcheckTest(port, None, probe, own));
  }

  /** A 200 response slower than 100 ms but within 200 ms: PartialSuccess,
      with a warning after the two notices. */
  lemma HealthcheckSlow(port: nat, probe: CacheProbe, own: StoreRef)
    requires probe.CacheAnswered? && probe.logs.Logs? && probe.status == 200
    requires MaxDesiredDuration < probe.duration <= MaxAllowedDuration
    ensures var e := ExecuteLeaf(HealthcheckTest(port, None, probe, own));
      && e.outcome == Returned
      && e.test.result == TestResult(PartialSuccess, [
           Issue(Notice, SendingMessage(port), "", None),
           Issue(Notice, GotMessage(probe.status, probe.duration), "", None),
           Issue(Warning, SlowMessage(probe.duration), "", None)])
  {
    NoticesThenWarning(HealthcheckTest(port, None, probe, own));
  }

  /** A fresh leaf whose bodies are two notices returns Success with just
      those two issues. */
  lemma NoticesOnly(t: Test<Action>)
    requires t.Leaf? && t.result == NewResult()
    requires var s := t.prepare + t.body; |s| == 2 && s[0].NoticeCall? && s[1].NoticeCall?
    ensures var s := t.prepare + t.body;
      var e := ExecuteLeaf(t);
      && e.outcome == Returned
      && e.test.result == TestResult(Success, [Issue(Notice, s[0].message, s[0].doc, s[0].data),
                                               Issue(Notice, s[1].message, s[1].doc, s[1].data)])
  {
    var s := t.prepare + t.body;
    NoticesThenCallsScript(s);
    LeafCompletes(t);
    FreshLeafClassification(t);
    assert [] + RecordedAll(s) == RecordedAll(s);
  }

  /** A fresh leaf whose bodies are two notices and an error returns Failed
      with the three issues in order. */
  lemma NoticesThenError(t: Test<Action>)
    requires t.Leaf? && t.result == NewResult()
    requires var s := t.prepare + t.body; |s| == 3 && s[0].NoticeCall? && s[1].NoticeCall? && s[2].ErrorCall?
    ensures var s := t.prepare + t.body;
      var e := ExecuteLeaf(t);
      && e.outcome == Returned
      && e.test.result == TestResult(Failed, [Issue(Notice, s[0].message, s[0].doc, s[0].data),
                                              Issue(Notice, s[1].message, s[1].doc, s[1].data),
                                              Issue(Error, s[2].message, s[2].doc, s[2].data)])
  {
    var s := t.prepare + t.body;
    NoticesThenCallsScript(s);
    LeafCompletes(t);
    FreshLeafClassification(t);
    assert [] + RecordedAll(s) == RecordedAll(s);
  }

  /** A fresh leaf whose bodies are two notices and a warning returns
      PartialSuccess with the three issues in order. */
  lemma NoticesThenWarning(t: Test<Action>)
    requires t.Leaf? && t.result == NewResult()
    requires var s := t.prepare + t.body; |s| == 3 && s[0].NoticeCall? && s[1].NoticeCall? && s[2].WarningCall?
    ensures var s := t.prepare + t.body;
      var e := ExecuteLeaf(t);
      && e.outcome == Returned
      && e.test.result == TestResult(PartialSuccess, [Issue(Notice, s[0].message, s[0].doc, s[0].data),
                                                      Issue(Notice, s[1].message, s[1].doc, s[1].data),
                                                      Issue(Warning, s[2].message, s[2].doc, s[2].data)])
  {
    var s := t.prepare + t.body;
    NoticesThenCallsScript(s);
    LeafCompletes(t);
    FreshLeafClassification(t);
    assert [] + RecordedAll(s) == RecordedAll(s);
  }

  /** What such a script records and calls. */
  lemma NoticesThenCallsScript(s: seq<Action>)
    requires 2 <= |s| <= 3 && s[0].NoticeCall? && s[1].NoticeCall?
    requires |s| == 3 ==> s[2].ErrorCall? || s[2].WarningCall?
    ensures Quiet(s)
    ensures CallsError(s) <==> |s| == 3 && s[2].ErrorCall?
    ensures CallsWarning(s) <==> |s| == 3 && s[2].WarningCall?
    ensures |s| == 2 ==> RecordedAll(s) == [Issue(Notice, s[0].message, s[0].doc, s[0].data),
                                            Issue(Notice, s[1].message, s[1].doc, s[1].data)]
    ensures |s| == 3 && s[2].ErrorCall? ==>
      RecordedAll(s) == [Issue(Notice, s[0].message, s[0].doc, s[0].data),
                         Issue(Notice, s[1].message, s[1].doc, s[1].data),
                         Issue(Error, s[2].message, s[2].doc, s[2].data)]
    ensures |s| == 3 && s[2].WarningCall? ==>
      RecordedAll(s) == [Issue(Notice, s[0].message, s[0].doc, s[0].data),
                         Issue(Notice, s[1].message, s[1].doc, s[1].data),
                         Issue(Warning, s[2].message, s[2].doc, s[2].data)]
  {
    var u := s[1..];
    var w := u[1..];
    if |s| == 3 {
      assert w == [s[2]] && w[1..] == [];
      assert RecordedAll(w) == Recorded(s[2]);
    } else {
      assert w == [];
    }
    assert RecordedAll(u) == Recorded(s[1]) + RecordedAll(w);
    assert RecordedAll(s) == Recorded(s[0]) + RecordedAll(u);
  }

  /** A failed shell call in `prepare()` escapes the test's execute before
      anything is recorded; the status stays NotStarted. */
  lemma HealthcheckPrepareFault(port: nat, gitFailure: Option<string>, probe: CacheProbe, own: StoreRef)
    requires gitFailure.Some?
    ensures var e := ExecuteLeaf(HealthcheckTest(port, gitFailure, probe, own));
      && e.outcome == Rethrown(FaultThrown(gitFailure.value))
      && e.test.result == NewResult()
  {
    var t := HealthcheckTest(port, gitFailure, probe, own);
    assert (t.prepare + t.body)[..0] == [];
    LeafUnwinds(t, 0);
  }

  /** A failed request escapes after the first notice, which stays recorded;
      the status stays NotStarted. */
  lemma HealthcheckUnreachable(port: nat, probe: CacheProbe, own: StoreRef)
    requires probe.Unreachable?
    ensures var e := ExecuteLeaf(HealthcheckTest(port, None, probe, own));
      && e.outcome == Rethrown(FaultThrown(probe.reason))
      && e.test.result == TestResult(NotStarted, [Issue(Notice, SendingMessage(port), "", None)])
  {
    NoticeThenFault(HealthcheckTest(port, None, probe, own));
  }

  /** A fresh leaf whose bodies are a notice and then a fault rethrows the
      fault, keeping the notice and the NotStarted status. */
  lemma NoticeThenFault(t: Test<Action>)
    requires t.Leaf? && t.result == NewResult()
    requires var s := t.prepare + t.body; |s| == 2 && s[0].NoticeCall? && s[1].ThrowFault?
    ensures var s := t.prepare + t.body;
      var e := ExecuteLeaf(t);
      && e.outcome == Rethrown(FaultThrown(s[1].reason))
      && e.test.result == TestResult(NotStarted, [Issue(Notice, s[0].message, s[0].doc, s[0].data)])
  {
    var s := t.prepare + t.body;
    assert s[..1] == [s[0]] + [];
    Health.QuietCons(s[0], []);
    assert !CallsError(s[..1]) by { assert s[..1][0] == s[0]; }
    LeafUnwinds(t, 1);
  }

  /** A failed log read escapes after both notices, which stay recorded;
      the status stays NotStarted, whatever the response was. */
  lemma HealthcheckLogsFailed(port: nat, probe: CacheProbe, own: StoreRef)
    requires probe.CacheAnswered? && probe.logs.LogsFailed?
    ensures var e := ExecuteLeaf(HealthcheckTest(port, None, probe, own));
      && e.outcome == Rethrown(FaultThrown(probe.logs.reason))
      && e.test.result == TestResult(NotStarted, [Issue(Notice, SendingMessage(port), "", None),
                                                  Issue(Notice, GotMessage(probe.status, probe.duration), "", None)])
  {
    NoticesThenFault(HealthcheckTest(port, None, probe, own));
  }

  /** A fresh leaf whose bodies are two notices and then a fault rethrows
      the fault, keeping both notices and the NotStarted status. */
  lemma NoticesThenFault(t: Test<Action>)
    requires t.Leaf? && t.result == NewResult()
    requires var s := t.prepare + t.body; |s| == 3 && s[0].NoticeCall? && s[1].NoticeCall? && s[2].ThrowFault?
    ensures var s := t.prepare + t.body;
      var e := ExecuteLeaf(t);
      && e.outcome == Rethrown(FaultThrown(s[2].reason))
      && e.test.result == TestResult(NotStarted, [Issue(Notice, s[0].message, s[0].doc, s[0].data),
                                                  Issue(Notice, s[1].message, s[1].doc, s[1].data)])
  {
    var s := t.prepare + t.body;
    NoticesThenCallsScript(s[..2]);
    assert [] + RecordedAll(s[..2]) == RecordedAll(s[..2]);
    LeafUnwinds(t, 2);
  }
}

=== FILE: engine.dfy ===
/** The execution state machine of src/lib/tests/test.ts and
    src/lib/tests/testsuite.ts.

    A body (`prepare` or `run`) is a script of actions: calls of the issue
    helpers, a `throw` of an Issue value, or a throw of something that is not
    an Issue (a genuine fault). `RunScript` interprets a script against the
    test's result and stops at the first action that unwinds. `ExecuteTree`
    is `execute()`: a leaf catches what its body throws and classifies it, a
    suite runs its children in order and stops at the first Aborted one. */
module Engine {
  import opened Common
  import opened Issues
  import opened Results
  import opened TestTree

  datatype Action =
    | NoticeCall(message: string, doc: string, data: Option<Payload>)   // this.notice(...)
    | WarningCall(message: string, doc: string, data: Option<Payload>)  // this.warning(...)
    | ErrorCall(message: string, doc: string, data: Option<Payload>)    // this.error(...)
    | BlockerCall(message: string, doc: string, data: Option<Payload>)  // this.blocker(...)
    | SkipCall(message: string)                                         // this.skip(...)
    | ThrowIssue(issue: Issue)                                          // throw issue
    | ThrowFault(reason: string)                                        // throw new Error(...)

  /** What a body threw. */
  datatype Thrown = IssueThrown(issue: Issue) | FaultThrown(reason: string)

  /** How `execute()` left: by returning its result, or by letting a thrown value escape. */
  datatype Outcome = Returned | Rethrown(thrown: Thrown)

  /** The events emitted on the `harmonia:` channel, with the emitting test's name. */
  datatype Event =
    | BeforeTest(test: string)
    | AfterTest(test: string)
    | TestSkipped(test: string)
    | TestAborted(test: string)
    | TestCleanUp(test: string)
    | IssueEvent(issue: Issue)
    | BeforeTestSuite(test: string)
    | AfterTestSuite(test: string)

  /** The state after running (part of) a body. */
  datatype Frame = Frame(result: TestResult, events: seq<Event>, thrown: Option<Thrown>)

  /** The result of `execute()`: the test with its updated result (and, for a
      suite, updated children), the events emitted, and how it left. */
  datatype Execution = Execution(test: Test<Action>, events: seq<Event>, outcome: Outcome)

  /** The result of running a list of tests in order until one aborts or throws:
      the updated list, the events, how many tests were executed, whether the
      last executed one ended Aborted, and whether something escaped. */
  datatype InOrder = InOrder(tests: seq<Test<Action>>, events: seq<Event>, ran: nat, aborted: bool, outcome: Outcome)

  // ---------------------------------------------------------------------------
  // The issue helpers
  // ---------------------------------------------------------------------------

  /** `createIssue` followed by `setType`: the message is always set, the
      documentation only when non-empty, the payload only when present. */
  function CreateIssue(kind: IssueType, message: string, doc: string, data: Option<Payload>): (i: Issue)
    ensures i == Issue(kind, message, doc, data)
  {
    var i0 := SetMessage(Build(), message);
    var i1 := if doc != "" then SetDocumentation(i0, doc) else i0;
    var i2 := if data.Some? then SetData(i1, data.value) else i1;
    SetType(i2, kind)
  }

  /** Whether an action leaves the body by throwing. */
  predicate Unwinds(a: Action) {
    a.BlockerCall? || a.SkipCall? || a.ThrowIssue? || a.ThrowFault?
  }

  /** The issues an action records on the test's result. */
  function Recorded(a: Action): seq<Issue> {
    match a
    case NoticeCall(m, d, p) => [CreateIssue(Notice, m, d, p)]
    case WarningCall(m, d, p) => [CreateIssue(Warning, m, d, p)]
    case ErrorCall(m, d, p) => [CreateIssue(Error, m, d, p)]
    case BlockerCall(m, d, p) => [CreateIssue(Blocker, m, d, p)]
    case SkipCall(m) => [CreateIssue(Notice, m, "", None)]
    case ThrowIssue(_) => []
    case ThrowFault(_) => []
  }

  /** One action. `error` records and marks the result Failed but does not
      unwind; `blocker` records and throws the issue; `skip` records a Notice,
      marks the result Skipped and throws the Notice. */
  function Step(r: TestResult, a: Action): (f: Frame)
    ensures f.thrown.Some? <==> Unwinds(a)
    ensures f.result.issues == r.issues + Recorded(a)
    ensures !Unwinds(a) ==> f.result.status == if a.ErrorCall? then Failed else r.status
    ensures a.BlockerCall? ==> f.result.status == r.status && f.thrown == Some(IssueThrown(Issue(Blocker, a.message, a.doc, a.data)))
    ensures a.SkipCall? ==> f.result.status == Skipped && f.thrown == Some(IssueThrown(Issue(Notice, a.message, "", None)))
    ensures a.ThrowIssue? ==> f.result == r && f.thrown == Some(IssueThrown(a.issue))
    ensures a.ThrowFault? ==> f.result == r && f.thrown == Some(FaultThrown(a.reason))
  {
    match a
    case NoticeCall(m, d, p) =>
      var i := CreateIssue(Notice, m, d, p);
      Frame(AddIssue(r, i), [IssueEvent(i)], None)
    case WarningCall(m, d, p) =>
      var i := CreateIssue(Warning, m, d, p);
      Frame(AddIssue(r, i), [IssueEvent(i)], None)
    case ErrorCall(m, d, p) =>
      var i := CreateIssue(Error, m, d, p);
      Frame(SetResult(AddIssue(r, i), Failed), [IssueEvent(i)], None)
    case BlockerCall(m, d, p) =>
      var i := CreateIssue(Blocker, m, d, p);
      Frame(AddIssue(r, i), [IssueEvent(i)], Some(IssueThrown(i)))
    case SkipCall(m) =>
      var i := CreateIssue(Notice, m, "", None);
      Frame(SetResult(AddIssue(r, i), Skipped), [], Some(IssueThrown(i)))
    case ThrowIssue(i) => Frame(r, [], Some(IssueThrown(i)))
    case ThrowFault(e) => Frame(r, [], Some(FaultThrown(e)))
  }

  /** Run a body: actions in order, stopping at the first that throws. */
  function RunScript(r: TestResult, script: seq<Action>): Frame
    decreases |script|
  {
    if script == [] then Frame(r, [], None)
    else
      var f := Step(r, script[0]);
      if f.thrown.Some? then f
      else
        var g := RunScript(f.result, script[1..]);
        Frame(g.result, f.events + g.events, g.thrown)
  }

  /** `await this.prepare(); await this.run();` inside one try block: the run
      body starts only if prepare returned, so the two behave as one script. */
  function RunBodies(r: TestResult, prepare: seq<Action>, body: seq<Action>): (f: Frame)
    ensures f == RunScript(r, prepare + body)
  {
    RunScriptAppend(r, prepare, body);
    var p := RunScript(r, prepare);
    if p.thrown.Some? then p
    else var q := RunScript(p.result, body); Frame(q.result, p.events + q.events, q.thrown)
  }

  /** Running `xs + ys` is running `xs` and then, unless it threw, `ys`. */
  lemma {:induction false} RunScriptAppend(r: TestResult, xs: seq<Action>, ys: seq<Action>)
    ensures RunScript(r, xs + ys) ==
      var f := RunScript(r, xs);
      if f.thrown.Some? then f
      else var g := RunScript(f.result, ys); Frame(g.result, f.events + g.events, g.thrown)
    decreases |xs|
  {
    if xs == [] {
      assert xs + ys == ys;
    } else {
      var f := Step(r, xs[0]);
      assert (xs + ys)[0] == xs[0] && (xs + ys)[1..] == xs[1..] + ys;
      if f.thrown.None? {
        RunScriptAppend(f.result, xs[1..], ys);
        var g := RunScript(f.result, xs[1..]);
        if g.thrown.None? {
          var h := RunScript(g.result, ys);
          assert f.events + (g.events + h.events) == (f.events + g.events) + h.events;
        }
      }
    }
  }

  // ---------------------------------------------------------------------------
  // execute()
  // ---------------------------------------------------------------------------

  /** `processResult`, for a leaf (own issues) or a suite (its live getters). */
  function ProcessResult<A>(t: Test<A>): TestResult {
    SetResult(t.result, Classify(TypeFilter(t, Error), TypeFilter(t, Warning)))
  }

  /** `Test.execute()`: prepare, run and classify inside a try; an Issue that
      is a Notice thrown while the result is Skipped leaves it Skipped, any
      other Issue makes it Aborted; anything else is rethrown unchanged. The
      finally block emits testCleanUp and calls cleanUp on every path. */
  function ExecuteLeaf(t: Test<Action>): (e: Execution)
    requires t.Leaf?
    ensures e.test.Leaf? && e.test.name == t.name && e.test.description == t.description
    ensures e.test.prepare == t.prepare && e.test.body == t.body && e.test.options == t.options
    ensures |e.events| > 0 && e.events[0] == BeforeTest(t.name) && e.events[|e.events| - 1] == TestCleanUp(t.name)
  {
    var n := t.name;
    var f := RunBodies(t.result, t.prepare, t.body);
    match f.thrown
    case None =>
      var done := WithResult(t, f.result);
      Execution(WithResult(done, ProcessResult(done)),
                [BeforeTest(n)] + f.events + [AfterTest(n), TestCleanUp(n)], Returned)
    case Some(FaultThrown(e)) =>
      Execution(WithResult(t, f.result), [BeforeTest(n)] + f.events + [TestCleanUp(n)], Rethrown(FaultThrown(e)))
    case Some(IssueThrown(i)) =>
      if i.kind == Notice && f.result.status == Skipped then
        Execution(WithResult(t, f.result), [BeforeTest(n)] + f.events + [TestSkipped(n), AfterTest(n), TestCleanUp(n)], Returned)
      else
        Execution(WithResult(t, SetResult(f.result, Aborted)),
                  [BeforeTest(n)] + f.events + [TestAborted(n), AfterTest(n), TestCleanUp(n)], Returned)
  }

  /** `execute()` of any test. A suite has no try/finally: whatever its own
      `prepare` throws escapes before any child runs (and cleanUp is never
      called); a child's Aborted result stops the loop and aborts the suite; a
      suite that is not Aborted is classified from its children's issues. */
  function ExecuteTree(t: Test<Action>): (e: Execution)
    ensures e.test.Leaf? == t.Leaf? && e.test.name == t.name && e.test.description == t.description
    ensures e.test.prepare == t.prepare && e.test.options == t.options
    ensures t.Suite? ==> |e.test.children| == |t.children|
    ensures e.outcome == Returned ==> e.test.result.status != NotStarted
    decreases t
  {
    match t
    case Leaf(_, _, _, _, _, _) => ExecuteLeaf(t)
    case Suite(n, _, _, cs, _, _) =>
      var p := RunScript(t.result, t.prepare);
      if p.thrown.Some? then
        Execution(WithResult(t, p.result), [BeforeTestSuite(n)] + p.events, Rethrown(p.thrown.value))
      else
        var l := ExecuteInOrder(cs);
        var r := if l.aborted then SetResult(p.result, Aborted) else p.result;
        var s := Suite(n, t.description, t.prepare, l.tests, r, t.options);
        if l.outcome.Rethrown? then
          Execution(s, [BeforeTestSuite(n)] + p.events + l.events, l.outcome)
        else
          var processed := if r.status == Aborted then r else ProcessResult(s);
          Execution(WithResult(s, processed), [BeforeTestSuite(n)] + p.events + l.events + [AfterTestSuite(n)], Returned)
  }

  /** The loop shared by `TestSuite.execute` and `Harmonia.run`: execute each
      test in order; stop after the first whose result is Aborted, or as soon
      as one lets a thrown value escape. */
  function ExecuteInOrder(cs: seq<Test<Action>>): (l: InOrder)
    ensures |l.tests| == |cs| && l.ran <= |cs|
    ensures l.aborted ==> l.outcome == Returned
    decreases cs
  {
    if cs == [] then InOrder([], [], 0, false, Returned)
    else
      var e := ExecuteTree(cs[0]);
      if e.outcome.Rethrown? then InOrder([e.test] + cs[1..], e.events, 1, false, e.outcome)
      else if StatusOf(e.test) == Aborted then InOrder([e.test] + cs[1..], e.events, 1, true, Returned)
      else
        var rest := ExecuteInOrder(cs[1..]);
        InOrder([e.test] + rest.tests, e.events + rest.events, rest.ran + 1, rest.aborted, rest.outcome)
  }

  lemma ShiftIndex<T>(x: T, xs: seq<T>)
    ensures forall i :: 1 <= i <= |xs| ==> ([x] + xs)[i] == xs[i - 1]
  {
  }

  /** The first `ran` tests are executed, once each and in order; the rest
      are left as they were. */
  lemma {:induction false} InOrderRunsPrefix(cs: seq<Test<Action>>)
    ensures var l := ExecuteInOrder(cs);
      && (forall i :: 0 <= i < l.ran ==> l.tests[i] == ExecuteTree(cs[i]).test)
      && (forall i :: l.ran <= i < |cs| ==> l.tests[i] == cs[i])
    decreases |cs|
  {
    if cs != [] {
      var e := ExecuteTree(cs[0]);
      var l := ExecuteInOrder(cs);
      if e.outcome.Rethrown? || StatusOf(e.test) == Aborted {
        assert l.ran == 1 && l.tests == [e.test] + cs[1..];
        forall i | 1 <= i < |cs| ensures l.tests[i] == cs[i] {
          assert l.tests[i] == cs[1..][i - 1];
        }
      } else {
        InOrderRunsPrefix(cs[1..]);
        var rest := ExecuteInOrder(cs[1..]);
        assert l.tests == [e.test] + rest.tests && l.ran == rest.ran + 1;
        ShiftIndex(e.test, rest.tests);
        ShiftIndex(cs[0], cs[1..]);
        assert cs == [cs[0]] + cs[1..];
      }
    }
  }

  /** Every executed test but the last returned normally and was not Aborted;
      the loop stops early only at an Aborted result or an escaping throw; if
      it stops at an Aborted result, the last executed test is that one. */
  lemma {:induction false} InOrderStops(cs: seq<Test<Action>>)
    ensures var l := ExecuteInOrder(cs);
      && (forall i :: 0 <= i < l.ran - 1 ==> ExecuteTree(cs[i]).outcome == Returned && StatusOf(ExecuteTree(cs[i]).test) != Aborted)
      && (l.aborted ==> 0 < l.ran && StatusOf(ExecuteTree(cs[l.ran - 1]).test) == Aborted)
      && (l.outcome.Rethrown? ==> 0 < l.ran && ExecuteTree(cs[l.ran - 1]).outcome == l.outcome && !l.aborted)
      && (l.ran < |cs| ==> l.aborted || l.outcome.Rethrown?)
      && (!l.aborted && l.outcome == Returned ==> l.ran == |cs|)
      && (0 < l.ran && !l.aborted && l.outcome == Returned ==> StatusOf(ExecuteTree(cs[l.ran - 1]).test) != Aborted)
    decreases |cs|
  {
    if cs != [] {
      var e := ExecuteTree(cs[0]);
      if !e.outcome.Rethrown? && StatusOf(e.test) != Aborted {
        var rest := ExecuteInOrder(cs[1..]);
        var l := ExecuteInOrder(cs);
        assert l.ran == rest.ran + 1 && l.aborted == rest.aborted && l.outcome == rest.outcome;
        InOrderStops(cs[1..]);
        ShiftIndex(cs[0], cs[1..]);
        assert cs == [cs[0]] + cs[1..];
      }
    }
  }
}

=== FILE: engine_lemmas.dfy ===
/** Properties of the execution state machine (module Engine): how a body's
    actions determine a test's final status and issues, the asymmetry between
    `error` (continues) and `blocker`/`skip` (unwind), the guaranteed cleanUp,
    and the suite's short-circuit and classification. */
module EngineLemmas {
  import opened Common
  import opened Issues
  import opened Results
  import opened TestTree
  import opened Engine

  /** No action of the script throws. */
  predicate Quiet(script: seq<Action>) {
    forall i :: 0 <= i < |script| ==> !Unwinds(script[i])
  }

  /** The issues a script records when it runs to its end. */
  function RecordedAll(script: seq<Action>): seq<Issue> {
    if script == [] then [] else Recorded(script[0]) + RecordedAll(script[1..])
  }

  predicate CallsError(script: seq<Action>) {
    exists i :: 0 <= i < |script| && script[i].ErrorCall?
  }

  predicate CallsWarning(script: seq<Action>) {
    exists i :: 0 <= i < |script| && script[i].WarningCall?
  }

  lemma CallsCons(script: seq<Action>)
    requires script != []
    ensures CallsError(script) <==> script[0].ErrorCall? || CallsError(script[1..])
    ensures CallsWarning(script) <==> script[0].WarningCall? || CallsWarning(script[1..])
  {
    if CallsError(script[1..]) {
      var i :| 0 <= i < |script[1..]| && script[1..][i].ErrorCall?;
      assert script[i + 1].ErrorCall?;
    }
    if CallsError(script) && !script[0].ErrorCall? {
      var i :| 0 <= i < |script| && script[i].ErrorCall?;
      assert script[1..][i - 1].ErrorCall?;
    }
    if CallsWarning(script[1..]) {
      var i :| 0 <= i < |script[1..]| && script[1..][i].WarningCall?;
      assert script[i + 1].WarningCall?;
    }
    if CallsWarning(script) && !script[0].WarningCall? {
      var i :| 0 <= i < |script| && script[i].WarningCall?;
      assert script[1..][i - 1].WarningCall?;
    }
  }

  /** A call that does not throw records one issue of its own kind. */
  lemma RecordedOne(a: Action)
    requires !Unwinds(a)
    ensures |OfType(Recorded(a), Error)| == if a.ErrorCall? then 1 else 0
    ensures |OfType(Recorded(a), Warning)| == if a.WarningCall? then 1 else 0
  {
    assert Recorded(a)[1..] == [];
  }

  /** A script that does not throw runs to its end: it appends exactly the
      issues of its calls, in call order, and leaves the status as it was
      unless it called `error`, which makes it Failed. */
  lemma {:induction false} RunQuiet(r: TestResult, script: seq<Action>)
    requires Quiet(script)
    ensures RunScript(r, script).thrown == None
    ensures RunScript(r, script).result.issues == r.issues + RecordedAll(script)
    ensures RunScript(r, script).result.status == if CallsError(script) then Failed else r.status
    decreases |script|
  {
    if script != [] {
      assert !Unwinds(script[0]);
      assert Quiet(script[1..]) by {
        forall i | 0 <= i < |script[1..]| ensures !Unwinds(script[1..][i]) { assert script[1..][i] == script[i + 1]; }
      }
      var f := Step(r, script[0]);
      var g := RunScript(f.result, script[1..]);
      assert RunScript(r, script) == Frame(g.result, f.events + g.events, g.thrown);
      RunQuiet(f.result, script[1..]);
      assert RecordedAll(script) == Recorded(script[0]) + RecordedAll(script[1..]);
      assert g.result.issues == r.issues + RecordedAll(script) by {
        assert g.result.issues == (r.issues + Recorded(script[0])) + RecordedAll(script[1..]);
      }
      CallsCons(script);
    }
  }

  /** What a script does when it throws at position `k`: the actions before
      `k` run, the action at `k` is the last one, nothing after it runs. */
  lemma {:induction false} RunUntilUnwind(r: TestResult, script: seq<Action>, k: nat)
    requires k < |script| && Quiet(script[..k]) && Unwinds(script[k])
    ensures RunScript(r, script) ==
      var f := RunScript(r, script[..k]);
      var g := Step(f.result, script[k]);
      Frame(g.result, f.events + g.events, g.thrown)
  {
    assert script == script[..k] + script[k..];
    RunScriptAppend(r, script[..k], script[k..]);
    RunQuiet(r, script[..k]);
    var f := RunScript(r, script[..k]);
    assert script[k..][0] == script[k];
  }

  /** The recorded issues of a script that calls neither `error` (resp.
      `warning`) nor throws contain no Error (resp. Warning) issue, and one
      that calls it contains one. */
  lemma {:induction false} RecordedKinds(script: seq<Action>)
    requires Quiet(script)
    ensures |OfType(RecordedAll(script), Error)| > 0 <==> CallsError(script)
    ensures |OfType(RecordedAll(script), Warning)| > 0 <==> CallsWarning(script)
    decreases |script|
  {
    if script != [] {
      assert Quiet(script[1..]) by {
        forall i | 0 <= i < |script[1..]| ensures !Unwinds(script[1..][i]) { assert script[1..][i] == script[i + 1]; }
      }
      RecordedKinds(script[1..]);
      assert RecordedAll(script) == Recorded(script[0]) + RecordedAll(script[1..]);
      OfTypeAppend(Recorded(script[0]), RecordedAll(script[1..]), Error);
      OfTypeAppend(Recorded(script[0]), RecordedAll(script[1..]), Warning);
      RecordedOne(script[0]);
      CallsCons(script);
    }
  }

  // ---------------------------------------------------------------------------
  // Leaf outcomes
  // ---------------------------------------------------------------------------

  /** A freshly constructed test has not started and has no issues. */
  lemma NewTestNotStarted(name: string, description: string, prepare: seq<Action>, body: seq<Action>, own: StoreRef)
    ensures StatusOf(NewTest(name, description, prepare, body, own)) == NotStarted
    ensures !HasIssues(NewTest(name, description, prepare, body, own).result)
  {
  }

  /** When prepare and run return normally, execute() returns, the issues are
      the earlier ones followed by those of the calls in call order, and the
      status is classified: Failed if there is an Error, else PartialSuccess
      if there is a Warning, else Success. */
  lemma LeafCompletes(t: Test<Action>)
    requires t.Leaf? && Quiet(t.prepare + t.body)
    ensures var e := ExecuteLeaf(t);
      && e.outcome == Returned
      && e.test.result.issues == t.result.issues + RecordedAll(t.prepare + t.body)
      && e.test.result.status == Classify(OfType(e.test.result.issues, Error), OfType(e.test.result.issues, Warning))
  {
    RunQuiet(t.result, t.prepare + t.body);
  }

  /** For a fresh test whose bodies return normally the final status is
      decided by the calls alone: Failed iff `error` was called, PartialSuccess
      iff `warning` but not `error` was, Success otherwise. */
  lemma FreshLeafClassification(t: Test<Action>)
    requires t.Leaf? && t.result == NewResult() && Quiet(t.prepare + t.body)
    ensures var s := StatusOf(ExecuteLeaf(t).test);
      && (s == Failed <==> CallsError(t.prepare + t.body))
      && (s == PartialSuccess <==> !CallsError(t.prepare + t.body) && CallsWarning(t.prepare + t.body))
      && (s == Success <==> !CallsError(t.prepare + t.body) && !CallsWarning(t.prepare + t.body))
  {
    var s := t.prepare + t.body;
    var issues := ExecuteLeaf(t).test.result.issues;
    LeafCompletes(t);
    assert issues == RecordedAll(s) by {
      assert t.result.issues + RecordedAll(s) == RecordedAll(s);
    }
    RecordedKinds(s);
    var errors, warnings := OfType(issues, Error), OfType(issues, Warning);
    assert StatusOf(ExecuteLeaf(t).test) == Classify(errors, warnings);
  }

  /** A leaf whose bodies throw at position `k` of prepare-then-run: the calls
      before `k` take effect, nothing after `k` runs, and
      - `blocker` records the Blocker and ends Aborted, even over an earlier Failed;
      - `skip` records its Notice and ends Skipped;
      - a thrown Issue ends Skipped only if it is a Notice and the result was
        already Skipped, and Aborted otherwise;
      - a thrown non-Issue escapes unchanged and the status is not reclassified. */
  lemma LeafUnwinds(t: Test<Action>, k: nat)
    requires t.Leaf? && k < |t.prepare + t.body|
    requires Quiet((t.prepare + t.body)[..k]) && Unwinds((t.prepare + t.body)[k])
    ensures var s := t.prepare + t.body;
      var before := t.result.issues + RecordedAll(s[..k]);
      var statusBefore := if CallsError(s[..k]) then Failed else t.result.status;
      var e := ExecuteLeaf(t);
      && (s[k].BlockerCall? ==>
            e.outcome == Returned && StatusOf(e.test) == Aborted
            && e.test.result.issues == before + [CreateIssue(Blocker, s[k].message, s[k].doc, s[k].data)])
      && (s[k].SkipCall? ==>
            e.outcome == Returned && StatusOf(e.test) == Skipped
            && e.test.result.issues == before + [Issue(Notice, s[k].message, "", None)])
      && (s[k].ThrowIssue? ==>
            e.outcome == Returned && e.test.result.issues == before
            && StatusOf(e.test) == (if s[k].issue.kind == Notice && statusBefore == Skipped then Skipped else Aborted))
      && (s[k].ThrowFault? ==>
            e.outcome == Rethrown(FaultThrown(s[k].reason))
            && e.test.result == TestResult(statusBefore, before))
  {
    var s := t.prepare + t.body;
    var bodies := LeafUnwindFrame(t, k);
    var e := ExecuteLeaf(t);
    match s[k]
    case BlockerCall(_, _, _) => assert e == Execution(WithResult(t, SetResult(bodies.result, Aborted)), e.events, Returned);
    case SkipCall(_) => assert e.test == WithResult(t, bodies.result);
    case ThrowIssue(_) =>
    case ThrowFault(_) =>
  }

  /** What prepare-then-run of such a leaf leaves: the calls before `k`
      recorded, the status they set, and what `s[k]` throws. */
  lemma LeafUnwindFrame(t: Test<Action>, k: nat) returns (bodies: Frame)
    requires t.Leaf? && k < |t.prepare + t.body|
    requires Quiet((t.prepare + t.body)[..k]) && Unwinds((t.prepare + t.body)[k])
    ensures var s := t.prepare + t.body;
      var before := t.result.issues + RecordedAll(s[..k]);
      var statusBefore := if CallsError(s[..k]) then Failed else t.result.status;
      var g := Step(TestResult(statusBefore, before), s[k]);
      && bodies == RunBodies(t.result, t.prepare, t.body)
      && bodies.result == g.result && bodies.thrown == g.thrown
  {
    var s := t.prepare + t.body;
    var f := RunScript(t.result, s[..k]);
    RunUntilUnwind(t.result, s, k);
    RunQuiet(t.result, s[..k]);
    bodies := RunBodies(t.result, t.prepare, t.body);
  }

  /** `cleanUp` runs exactly once on every path out of a leaf's execute(): the
      testCleanUp event is the last event and appears nowhere else. */
  lemma LeafCleanUpOnce(t: Test<Action>)
    requires t.Leaf?
    ensures CleanUpOnlyLast(ExecuteLeaf(t).events)
  {
    var n := t.name;
    var f := RunBodies(t.result, t.prepare, t.body);
    ScriptEventsAreIssues(t.result, t.prepare + t.body);
    var ev := ExecuteLeaf(t).events;
    var tail :=
      match f.thrown
      case None => [AfterTest(n), TestCleanUp(n)]
      case Some(FaultThrown(_)) => [TestCleanUp(n)]
      case Some(IssueThrown(i)) =>
        if i.kind == Notice && f.result.status == Skipped then [TestSkipped(n), AfterTest(n), TestCleanUp(n)]
        else [TestAborted(n), AfterTest(n), TestCleanUp(n)];
    assert ev == [BeforeTest(n)] + f.events + tail;
    var front := [BeforeTest(n)] + f.events;
    forall i | 0 <= i < |front| ensures !front[i].TestCleanUp? {
      if i > 0 { assert front[i] == f.events[i - 1]; }
    }
    CleanUpAtEnd(front, tail);
  }

  /** The testCleanUp event is the last event and appears nowhere else. */
  predicate CleanUpOnlyLast(ev: seq<Event>) {
    |ev| > 0 && ev[|ev| - 1].TestCleanUp? && forall i :: 0 <= i < |ev| - 1 ==> !ev[i].TestCleanUp?
  }

  lemma CleanUpAtEnd(front: seq<Event>, tail: seq<Event>)
    requires forall i :: 0 <= i < |front| ==> !front[i].TestCleanUp?
    requires CleanUpOnlyLast(tail)
    ensures CleanUpOnlyLast(front + tail)
  {
    var ev := front + tail;
    forall i | 0 <= i < |ev| - 1
      ensures !ev[i].TestCleanUp?
    {
      if i >= |front| {
        assert ev[i] == tail[i - |front|];
      }
    }
  }

  /** The only events a body emits are `issue` events. */
  lemma {:induction false} ScriptEventsAreIssues(r: TestResult, script: seq<Action>)
    ensures forall i :: 0 <= i < |RunScript(r, script).events| ==> RunScript(r, script).events[i].IssueEvent?
    decreases |script|
  {
    if script != [] {
      var f := Step(r, script[0]);
      if f.thrown.None? {
        ScriptEventsAreIssues(f.result, script[1..]);
      }
    }
  }

  /** The scenario: `warning('w')` then `error('e')` ends Failed with both
      issues, in call order. */
  lemma WarningThenError(name: string, description: string, own: StoreRef)
    ensures var e := ExecuteTree(NewTest(name, description, [], [WarningCall("w", "", None), ErrorCall("e", "", None)], own));
      && StatusOf(e.test) == Failed
      && e.test.result.issues == [Issue(Warning, "w", "", None), Issue(Error, "e", "", None)]
  {
    var t := NewTest(name, description, [], [WarningCall("w", "", None), ErrorCall("e", "", None)], own);
    WarningThenErrorScript(t.body);
    assert t.prepare + t.body == t.body;
    LeafCompletes(t);
    FreshLeafClassification(t);
  }

  lemma WarningThenErrorScript(s: seq<Action>)
    requires s == [WarningCall("w", "", None), ErrorCall("e", "", None)]
    ensures Quiet(s) && CallsError(s)
    ensures RecordedAll(s) == [Issue(Warning, "w", "", None), Issue(Error, "e", "", None)]
  {
    assert s[1].ErrorCall?;
    assert RecordedAll(s[1..][1..]) == [];
    assert RecordedAll(s[1..]) == [Issue(Error, "e", "", None)];
  }

  // ---------------------------------------------------------------------------
  // Suite outcomes
  // ---------------------------------------------------------------------------

  /** What TestSuite.execute() does, case by case:
      - its own prepare throws: the thrown value escapes, no child runs, and
        neither afterTestSuite nor any cleanUp event is emitted;
      - a child lets something escape: it escapes the suite too;
      - a child ends Aborted: the suite is Aborted;
      - otherwise, a suite already Aborted stays so, and any other is
        classified from its children's live getters (its own issues do not
        count). */
  lemma SuiteExecution(t: Test<Action>)
    requires t.Suite?
    ensures var p := RunScript(t.result, t.prepare);
      var e := ExecuteTree(t);
      var l := ExecuteInOrder(t.children);
      && e.test.Suite?
      && (p.thrown.Some? ==>
            e.outcome == Rethrown(p.thrown.value) && e.test.children == t.children
            && e.test.result == p.result && e.events == [BeforeTestSuite(t.name)] + p.events)
      && (p.thrown.None? ==> e.test.children == l.tests)
      && (p.thrown.None? && l.outcome.Rethrown? ==> e.outcome == l.outcome && e.test.result == p.result)
      && (p.thrown.None? && l.aborted ==> e.outcome == Returned && StatusOf(e.test) == Aborted)
      && (p.thrown.None? && !l.aborted && l.outcome == Returned ==>
            e.outcome == Returned
            && e.test.result.issues == p.result.issues
            && StatusOf(e.test) == (if p.result.status == Aborted then Aborted
                                   else Classify(ForestFilter(l.tests, Error), ForestFilter(l.tests, Warning))))
  {
  }

  /** The first child that ends Aborted stops the suite: the suite is Aborted,
      the children before it ran and did not abort, and every later child is
      left exactly as it was (a fresh child stays NotStarted). */
  lemma SuiteShortCircuit(t: Test<Action>)
    requires t.Suite? && RunScript(t.result, t.prepare).thrown.None?
    requires ExecuteInOrder(t.children).aborted
    ensures var e := ExecuteTree(t);
      var k := ExecuteInOrder(t.children).ran - 1;
      && e.outcome == Returned && StatusOf(e.test) == Aborted
      && 0 <= k < |t.children|
      && StatusOf(e.test.children[k]) == Aborted
      && (forall i :: 0 <= i < k ==> e.test.children[i] == ExecuteTree(t.children[i]).test && StatusOf(e.test.children[i]) != Aborted)
      && (forall i :: k < i < |t.children| ==> e.test.children[i] == t.children[i])
  {
    SuiteExecution(t);
    InOrderRunsPrefix(t.children);
    InOrderStops(t.children);
  }

  /** Children that end Skipped, Failed or PartialSuccess do not stop the
      suite: if nothing escapes and no child aborts, every child runs. */
  lemma SuiteRunsAllUnlessAborted(t: Test<Action>)
    requires t.Suite? && RunScript(t.result, t.prepare).thrown.None?
    requires !ExecuteInOrder(t.children).aborted && ExecuteInOrder(t.children).outcome == Returned
    ensures var e := ExecuteTree(t);
      && e.outcome == Returned
      && forall i :: 0 <= i < |t.children| ==>
           e.test.children[i] == ExecuteTree(t.children[i]).test && StatusOf(e.test.children[i]) != Aborted
  {
    SuiteExecution(t);
    InOrderRunsPrefix(t.children);
    InOrderStops(t.children);
    var l := ExecuteInOrder(t.children);
    var e := ExecuteTree(t);
    assert l.ran == |t.children|;
    forall i | 0 <= i < |t.children|
      ensures e.test.children[i] == ExecuteTree(t.children[i]).test && StatusOf(e.test.children[i]) != Aborted
    {
      assert e.test.children[i] == l.tests[i];
      if i < l.ran - 1 {
      } else {
        assert i == l.ran - 1;
      }
    }
  }

  /** The scenario [A -> Success, B -> Aborted, C -> Success]: a suite whose
      first child does nothing, whose second calls `blocker` and whose third
      has not started runs the first two, stops before the third, ends
      Aborted, and leaves the third NotStarted. */
  lemma SuiteScenario(t: Test<Action>)
    requires t.Suite? && t.prepare == [] && |t.children| == 3
    requires var a := t.children[0]; a.Leaf? && a.result == NewResult() && a.prepare + a.body == []
    requires var b := t.children[1];
      b.Leaf? && b.result == NewResult() && |b.prepare + b.body| == 1 && (b.prepare + b.body)[0].BlockerCall?
    requires StatusOf(t.children[2]) == NotStarted
    ensures var e := ExecuteTree(t);
      && e.outcome == Returned && StatusOf(e.test) == Aborted
      && StatusOf(e.test.children[0]) == Success
      && StatusOf(e.test.children[1]) == Aborted
      && StatusOf(e.test.children[2]) == NotStarted
  {
    var cs := t.children;
    var a, b, c := cs[0], cs[1], cs[2];
    EmptyLeafSucceeds(a);
    LoneBlockerAborts(b);
    var ea, eb := ExecuteTree(a), ExecuteTree(b);
    var rest := cs[1..];
    assert rest[0] == b && rest[1..] == [c];
    var lb := ExecuteInOrder(rest);
    assert lb.tests == [eb.test, c] && lb.aborted;
    var l := ExecuteInOrder(cs);
    assert l.tests == [ea.test] + lb.tests && l.aborted;
    assert l.tests == [ea.test, eb.test, c];
    SuiteExecution(t);
    assert ExecuteTree(t).test.children == [ea.test, eb.test, c];
  }

  /** A fresh leaf with nothing to do returns Success. */
  lemma EmptyLeafSucceeds(a: Test<Action>)
    requires a.Leaf? && a.result == NewResult() && a.prepare + a.body == []
    ensures ExecuteTree(a).outcome == Returned && StatusOf(ExecuteTree(a).test) == Success
  {
    FreshLeafClassification(a);
    LeafCompletes(a);
  }

  /** A fresh leaf whose only action is `blocker` returns Aborted. */
  lemma LoneBlockerAborts(b: Test<Action>)
    requires b.Leaf? && b.result == NewResult() && |b.prepare + b.body| == 1 && (b.prepare + b.body)[0].BlockerCall?
    ensures ExecuteTree(b).outcome == Returned && StatusOf(ExecuteTree(b).test) == Aborted
  {
    assert (b.prepare + b.body)[..0] == [];
    LeafUnwinds(b, 0);
  }

  /** An `error` in a suite's own prepare marks the suite Failed, but the
      suite is then classified from its children only: with no children it
      ends Success while its own issues still hold the Error. */
  lemma SuiteOwnErrorIsReclassified(m: string, own: StoreRef)
    ensures var e := ExecuteTree(Suite("S", "", [ErrorCall(m, "", None)], [], NewResult(), own));
      && e.outcome == Returned && StatusOf(e.test) == Success
      && e.test.result.issues == [Issue(Error, m, "", None)]
  {
    var t: Test<Action> := Suite("S", "", [ErrorCall(m, "", None)], [], NewResult(), own);
    SuiteExecution(t);
  }

  /** A blocker in a suite's own prepare escapes execute() (the suite has no
      try/catch), before any child runs. */
  lemma SuitePrepareBlockerEscapes(t: Test<Action>, m: string)
    requires t.Suite? && t.prepare == [BlockerCall(m, "", None)]
    ensures var e := ExecuteTree(t);
      && e.outcome == Rethrown(IssueThrown(Issue(Blocker, m, "", None)))
      && e.test.children == t.children
      && forall i :: 0 <= i < |e.events| ==> !e.events[i].AfterTestSuite? && !e.events[i].TestCleanUp?
  {
    SuiteExecution(t);
  }
}

=== FILE: harmonia.dfy ===
/** The orchestrator (src/harmonia.ts): a shared option store, the ordered
    list of registered top-level tests, a run loop that stops at the first
    Aborted test, and the aggregation of results, counts and issues.
    The UID digest (md5 of the options and the clock) is an input. */
module Orchestrator {
  import opened Common
  import opened Issues
  import opened Results
  import opened Stores
  import opened TestTree
  import opened Engine

  /** An md5 hex digest: never empty, so a generated UID is always set. */
  type Digest = s: string | |s| == 32 witness "00000000000000000000000000000000"

  /** `uid` is "" until generated. `shared` is the reference of the one
      option store every registered test receives. */
  datatype Harmonia<V> = Harmonia(uid: string, options: Store<V>, shared: StoreRef, tests: seq<Test<Action>>)

  /** `AddReturnedNothing` is the TypeError of calling `.add` on the
      `undefined` that `Store.add` returns. */
  datatype Failure = StoreFailed(reason: StoreError) | UidAlreadySet(uid: string) | AddReturnedNothing

  /** `new Harmonia()`: empty store, no tests, no UID. */
  function NewHarmonia<V>(shared: StoreRef): (h: Harmonia<V>)
    ensures h.uid == "" && h.options == map[] && h.tests == [] && h.shared == shared
  {
    Harmonia("", map[], shared, [])
  }

  // ---------------------------------------------------------------------------
  // UID
  // ---------------------------------------------------------------------------

  /** `generateUID`: refuses to overwrite a UID that is already set. */
  function GenerateUid<V>(h: Harmonia<V>, digest: Digest): (r: Result<Harmonia<V>, Failure>)
    ensures r.Err? <==> h.uid != ""
    ensures r.Err? ==> r.error == UidAlreadySet(h.uid)
    ensures r.Ok? ==> r.value == h.(uid := digest)
  {
    if h.uid != "" then Err(UidAlreadySet(h.uid)) else Ok(h.(uid := digest))
  }

  /** `UID()`: generate only when none is set, otherwise return the one there. */
  function Uid<V>(h: Harmonia<V>, digest: Digest): (r: (Harmonia<V>, string))
    ensures r.1 != "" && r.0.uid == r.1
    ensures h.uid != "" ==> r == (h, h.uid)
    ensures h.uid == "" ==> r.1 == digest
    ensures r.0.options == h.options && r.0.tests == h.tests && r.0.shared == h.shared
  {
    if h.uid == "" then (GenerateUid(h, digest).value, digest) else (h, h.uid)
  }

  /** Asking twice gives the same UID, whatever digest the second call would use. */
  lemma UidIsStable<V>(h: Harmonia<V>, d1: Digest, d2: Digest)
    ensures Uid(Uid(h, d1).0, d2) == Uid(h, d1)
    ensures GenerateUid(Uid(h, d1).0, d2).Err?
  {
  }

  // ---------------------------------------------------------------------------
  // bootstrap and registration
  // ---------------------------------------------------------------------------

  /** `bootstrap` as evidently intended: store the site and environment
      configurations under `site` and `env` (each `add` fails on an existing
      key), then generate the UID (which fails if one is set). Argument
      validation and the analytics setup are not part of this model. */
  function Bootstrap<V>(h: Harmonia<V>, site: V, env: V, digest: Digest): (r: Result<Harmonia<V>, Failure>)
    ensures r.Ok? <==> "site" !in h.options && "env" !in h.options && h.uid == ""
    ensures r.Ok? ==> (r.value.options == h.options["site" := site]["env" := env]
                       && r.value.uid == digest && r.value.tests == h.tests)
    ensures r.Err? && ("site" in h.options || "env" in h.options) ==> r.error == StoreFailed(KeyAlreadyExists)
  {
    match Add(h.options, "site", site)
    case Err(e) => Err(StoreFailed(e))
    case Ok(s1) =>
      match Add(s1, "env", env)
      case Err(e) => Err(StoreFailed(e))
      case Ok(s2) => GenerateUid(h.(options := s2), digest)
  }

  /** `bootstrap` as written: `add` returns nothing, so the chained
      `.add('env', …)` throws once `site` is stored. The state left behind
      is returned with the failure; the UID is never generated. */
  function BootstrapAsWritten<V>(h: Harmonia<V>, site: V, env: V, digest: Digest): (r: (Harmonia<V>, Failure))
    ensures "site" in h.options ==> r == (h, StoreFailed(KeyAlreadyExists))
    ensures "site" !in h.options ==> r.1 == AddReturnedNothing && r.0 == h.(options := h.options["site" := site])
    ensures r.0.uid == h.uid && r.0.tests == h.tests && r.0.shared == h.shared
  {
    match Add(h.options, "site", site)
    case Err(e) => (h, StoreFailed(e))
    case Ok(s1) => (h.(options := s1), AddReturnedNothing)
  }

  /** On a fresh orchestrator the corrected bootstrap succeeds with both
      keys stored, while the one as written stores only `site` and fails. */
  lemma BootstrapCounterexample<V>(shared: StoreRef, site: V, env: V, digest: Digest)
    ensures Bootstrap(NewHarmonia<V>(shared), site, env, digest).Ok?
    ensures var (h, f) := BootstrapAsWritten(NewHarmonia<V>(shared), site, env, digest);
      f == AddReturnedNothing && "site" in h.options && "env" !in h.options && h.uid == ""
  {
  }

  /** `registerTest`: inject the shared store into the test (recursively for
      a suite) and append it after every earlier registration. The call to
      `setHarmoniaInstance`, which no test class defines, is left out. */
  function RegisterTest<V>(h: Harmonia<V>, t: Test<Action>): (h': Harmonia<V>)
    ensures |h'.tests| == |h.tests| + 1 && h'.tests[..|h.tests|] == h.tests
    ensures AllHold(h'.tests[|h.tests|], h.shared)
    ensures h'.tests[|h.tests|].name == t.name && h'.tests[|h.tests|].result == t.result
    ensures h'.uid == h.uid && h'.options == h.options && h'.shared == h.shared
  {
    h.(tests := h.tests + [SetOptions(t, h.shared)])
  }

  // ---------------------------------------------------------------------------
  // results
  // ---------------------------------------------------------------------------

  /** `results(includeSuites)`: started top-level tests in order; a suite
      contributes its own result first when asked to, then its suite
      result's `results()`, one level deep. */
  function ResultsOf<A>(ts: seq<Test<A>>, includeSuites: bool): (rs: seq<Test<A>>)
    ensures forall i :: 0 <= i < |rs| ==> StatusOf(rs[i]) != NotStarted
  {
    if ts == [] then []
    else
      var t := ts[0];
      var own :=
        if StatusOf(t) == NotStarted then []
        else if t.Suite? then (if includeSuites then [t] else []) + SuiteResults(t.children)
        else [t];
      own + ResultsOf(ts[1..], includeSuites)
  }

  lemma {:induction false} ResultsAppend<A>(xs: seq<Test<A>>, ys: seq<Test<A>>, includeSuites: bool)
    ensures ResultsOf(xs + ys, includeSuites) == ResultsOf(xs, includeSuites) + ResultsOf(ys, includeSuites)
    decreases |xs|
  {
    if xs == [] {
      assert xs + ys == ys;
    } else {
      assert (xs + ys)[0] == xs[0] && (xs + ys)[1..] == xs[1..] + ys;
      ResultsAppend(xs[1..], ys, includeSuites);
    }
  }

  /** What one top-level test contributes: nothing if it has not started;
      a started leaf, itself; a started suite, its own result only when
      suites are included, always followed by its started children. */
  lemma ResultsOfOne<A>(t: Test<A>)
    ensures StatusOf(t) == NotStarted ==> ResultsOf([t], true) == [] && ResultsOf([t], false) == []
    ensures StatusOf(t) != NotStarted && t.Leaf? ==> ResultsOf([t], true) == [t] && ResultsOf([t], false) == [t]
    ensures StatusOf(t) != NotStarted && t.Suite? ==>
      ResultsOf([t], true) == [t] + SuiteResults(t.children) && ResultsOf([t], false) == SuiteResults(t.children)
  {
    assert [t][1..] == [];
  }

  /** Including suites only inserts the started top-level suites themselves:
      dropping them from `results(true)` gives `results(false)`. */
  lemma {:induction false} IncludeSuitesOnlyAddsSuites<A>(ts: seq<Test<A>>)
    ensures |ResultsOf(ts, true)| == |ResultsOf(ts, false)| + |StartedSuites(ts)|
    decreases |ts|
  {
    if ts != [] {
      IncludeSuitesOnlyAddsSuites(ts[1..]);
    }
  }

  /** The started top-level suites, in order. */
  function StartedSuites<A>(ts: seq<Test<A>>): (ss: seq<Test<A>>)
    ensures |ss| <= |ts|
  {
    if ts == [] then []
    else (if ts[0].Suite? && StatusOf(ts[0]) != NotStarted then [ts[0]] else []) + StartedSuites(ts[1..])
  }

  /** Registering a test that has not run leaves every results() listing as it was. */
  lemma RegisterKeepsResults<V>(h: Harmonia<V>, t: Test<Action>, includeSuites: bool)
    requires StatusOf(t) == NotStarted
    ensures ResultsOf(RegisterTest(h, t).tests, includeSuites) == ResultsOf(h.tests, includeSuites)
  {
    ResultsAppend(h.tests, [SetOptions(t, h.shared)], includeSuites);
    ResultsOfOne(SetOptions(t, h.shared));
    assert ResultsOf(h.tests, includeSuites) + [] == ResultsOf(h.tests, includeSuites);
  }

  // ---------------------------------------------------------------------------
  // countResults and getResultsSummary
  // ---------------------------------------------------------------------------

  /** The key a result is counted under: the label, or the enum's numeric
      value as an object key (Skipped, absent from the enum, as "5"). */
  function StatusKey(s: Status, typeString: bool): string {
    if typeString then StatusLabel(s)
    else match s
      case NotStarted => "0"
      case Success => "1"
      case PartialSuccess => "2"
      case Failed => "3"
      case Aborted => "4"
      case Skipped => "5"
  }

  lemma StatusKeyInjective(s1: Status, s2: Status, typeString: bool)
    ensures StatusKey(s1, typeString) == StatusKey(s2, typeString) <==> s1 == s2
  {
  }

  /** `reduce` with `{ ...counter, [key]: (counter[key] || 0) + 1 }`. */
  function Tally<K>(ks: seq<K>): (m: map<K, nat>)
    decreases |ks|
  {
    if ks == [] then map[]
    else
      var m := Tally(ks[..|ks| - 1]);
      var k := ks[|ks| - 1];
      m[k := (if k in m then m[k] else 0) + 1]
  }

  /** A tally holds exactly the keys that occur, each with its number of occurrences. */
  lemma {:induction false} TallyCounts<K>(ks: seq<K>)
    ensures forall k :: k in Tally(ks) <==> k in multiset(ks)
    ensures forall k :: k in Tally(ks) ==> Tally(ks)[k] == multiset(ks)[k]
    decreases |ks|
  {
    if ks != [] {
      var front := ks[..|ks| - 1];
      TallyCounts(front);
      assert ks == front + [ks[|ks| - 1]];
      assert multiset(ks) == multiset(front) + multiset{ks[|ks| - 1]};
    }
  }

  function Keys<A>(rs: seq<Test<A>>, typeString: bool): (ks: seq<string>)
    ensures |ks| == |rs| && forall i :: 0 <= i < |rs| ==> ks[i] == StatusKey(StatusOf(rs[i]), typeString)
  {
    seq(|rs|, i requires 0 <= i < |rs| => StatusKey(StatusOf(rs[i]), typeString))
  }

  /** `countResults(includeSuites, typeString)` */
  function CountResults<A>(ts: seq<Test<A>>, includeSuites: bool, typeString: bool): map<string, nat> {
    Tally(Keys(ResultsOf(ts, includeSuites), typeString))
  }

  /** Reference definition: the number of results with status `s`. */
  function Count<A>(rs: seq<Test<A>>, s: Status): (n: nat)
    ensures n <= |rs|
  {
    if rs == [] then 0 else (if StatusOf(rs[0]) == s then 1 else 0) + Count(rs[1..], s)
  }

  /** The key of every status that occurs holds its count, the key of a
      status that does not occur is absent, and the six counts add up to the
      number of results. */
  lemma CountResultsCorrect<A>(ts: seq<Test<A>>, includeSuites: bool, typeString: bool, s: Status)
    ensures var m := CountResults(ts, includeSuites, typeString);
      var rs := ResultsOf(ts, includeSuites);
      && (StatusKey(s, typeString) in m <==> Count(rs, s) > 0)
      && (StatusKey(s, typeString) in m ==> m[StatusKey(s, typeString)] == Count(rs, s))
    ensures var rs := ResultsOf(ts, includeSuites);
      Count(rs, NotStarted) + Count(rs, Success) + Count(rs, PartialSuccess)
      + Count(rs, Failed) + Count(rs, Aborted) + Count(rs, Skipped) == |rs|
  {
    var rs := ResultsOf(ts, includeSuites);
    TallyCounts(Keys(rs, typeString));
    KeyOccurrences(rs, typeString, s);
    CountsPartition(rs);
  }

  lemma {:induction false} KeyOccurrences<A>(rs: seq<Test<A>>, typeString: bool, s: Status)
    ensures multiset(Keys(rs, typeString))[StatusKey(s, typeString)] == Count(rs, s)
    decreases |rs|
  {
    if rs != [] {
      KeyOccurrences(rs[1..], typeString, s);
      assert Keys(rs, typeString) == [Keys(rs, typeString)[0]] + Keys(rs[1..], typeString);
      StatusKeyInjective(StatusOf(rs[0]), s, typeString);
    }
  }

  lemma {:induction false} CountsPartition<A>(rs: seq<Test<A>>)
    ensures Count(rs, NotStarted) + Count(rs, Success) + Count(rs, PartialSuccess)
      + Count(rs, Failed) + Count(rs, Aborted) + Count(rs, Skipped) == |rs|
    decreases |rs|
  {
    if rs != [] {
      CountsPartition(rs[1..]);
    }
  }

  /** `getResultsSummary`: the number of results, how many are suite
      results, and the count per status label. */
  datatype Summary = Summary(total: nat, suites: nat, results: map<string, nat>)

  function GetResultsSummary<A>(rs: seq<Test<A>>): (s: Summary)
    ensures s.total == |rs| && s.suites <= s.total
    ensures s.suites == 0 <==> forall i :: 0 <= i < |rs| ==> rs[i].Leaf?
  {
    Summary(|rs|, SuiteCount(rs), Tally(Keys(rs, true)))
  }

  /** `results.filter(result => result instanceof TestSuiteResult).length` */
  function SuiteCount<A>(rs: seq<Test<A>>): (n: nat)
    ensures n <= |rs|
    ensures n == 0 <==> forall i :: 0 <= i < |rs| ==> rs[i].Leaf?
  {
    if rs == [] then 0
    else
      var n := SuiteCount(rs[1..]);
      assert (forall i :: 0 <= i < |rs[1..]| ==> rs[1..][i].Leaf?) ==>
             (rs[0].Leaf? ==> forall i :: 0 <= i < |rs| ==> rs[i].Leaf?) by {
        if forall i :: 0 <= i < |rs[1..]| ==> rs[1..][i].Leaf? {
          forall i | 1 <= i < |rs| ensures rs[i].Leaf? { assert rs[i] == rs[1..][i - 1]; }
        }
      }
      (if rs[0].Suite? then 1 else 0) + n
  }

  /** The per-label counts of a summary are the status counts, and they add
      up to `total`. */
  lemma SummaryCounts<A>(rs: seq<Test<A>>, s: Status)
    ensures var m := GetResultsSummary(rs).results;
      && (StatusLabel(s) in m <==> Count(rs, s) > 0)
      && (StatusLabel(s) in m ==> m[StatusLabel(s)] == Count(rs, s))
    ensures Count(rs, NotStarted) + Count(rs, Success) + Count(rs, PartialSuccess)
      + Count(rs, Failed) + Count(rs, Aborted) + Count(rs, Skipped) == GetResultsSummary(rs).total
  {
    TallyCounts(Keys(rs, true));
    KeyOccurrences(rs, true, s);
    CountsPartition(rs);
  }

  // ---------------------------------------------------------------------------
  // allIssues
  // ---------------------------------------------------------------------------

  /** `reduce` concatenating `issues()` of every result, in order. */
  function ConcatIssues<A>(rs: seq<Test<A>>): seq<Issue>
    decreases |rs|
  {
    if rs == [] then [] else ConcatIssues(rs[..|rs| - 1]) + rs[|rs| - 1].result.issues
  }

  /** `allIssues()`: the issues of `results()` (suites not included). */
  function AllIssues<V>(h: Harmonia<V>): seq<Issue> {
    ConcatIssues(ResultsOf(h.tests, false))
  }

  lemma {:induction false} ConcatIssuesAppend<A>(xs: seq<Test<A>>, ys: seq<Test<A>>)
    ensures ConcatIssues(xs + ys) == ConcatIssues(xs) + ConcatIssues(ys)
    decreases |ys|
  {
    if ys == [] {
      assert xs + ys == xs;
    } else {
      var zs := xs + ys;
      assert zs[..|zs| - 1] == xs + ys[..|ys| - 1] && zs[|zs| - 1] == ys[|ys| - 1];
      ConcatIssuesAppend(xs, ys[..|ys| - 1]);
    }
  }

  /** An issue is among allIssues() exactly when some result of results() holds it. */
  lemma {:induction false} ConcatIssuesMembers<A>(rs: seq<Test<A>>, i: Issue)
    ensures i in ConcatIssues(rs) <==> exists j :: 0 <= j < |rs| && i in rs[j].result.issues
    decreases |rs|
  {
    if rs != [] {
      var front := rs[..|rs| - 1];
      ConcatIssuesMembers(front, i);
      if exists j :: 0 <= j < |rs| && i in rs[j].result.issues {
        var j :| 0 <= j < |rs| && i in rs[j].result.issues;
        if j < |rs| - 1 {
          assert front[j] == rs[j];
        }
      }
      if exists j :: 0 <= j < |front| && i in front[j].result.issues {
        var j :| 0 <= j < |front| && i in front[j].result.issues;
        assert rs[j] == front[j];
      }
    }
  }

  /** The number of issues is the sum of the per-result counts. */
  lemma {:induction false} ConcatIssuesLength<A>(rs: seq<Test<A>>)
    ensures |ConcatIssues(rs)| == IssueCount(rs)
    decreases |rs|
  {
    if rs != [] {
      ConcatIssuesLength(rs[..|rs| - 1]);
      IssueCountSnoc(rs[..|rs| - 1], rs[|rs| - 1]);
      assert rs[..|rs| - 1] + [rs[|rs| - 1]] == rs;
    }
  }

  function IssueCount<A>(rs: seq<Test<A>>): nat {
    if rs == [] then 0 else |rs[0].result.issues| + IssueCount(rs[1..])
  }

  lemma {:induction false} IssueCountSnoc<A>(rs: seq<Test<A>>, t: Test<A>)
    ensures IssueCount(rs + [t]) == IssueCount(rs) + |t.result.issues|
    decreases |rs|
  {
    if rs == [] {
      assert [] + [t] == [t];
    } else {
      assert (rs + [t])[1..] == rs[1..] + [t];
      IssueCountSnoc(rs[1..], t);
    }
  }

  // ---------------------------------------------------------------------------
  // run
  // ---------------------------------------------------------------------------

  /** The state after `run()`: the tests with their results, the events,
      how the loop left, and (when it returned) `results(true)`. */
  datatype Ran<V> = Ran(harmonia: Harmonia<V>, events: seq<Event>, outcome: Outcome, results: seq<Test<Action>>)

  /** `run()`: execute the top-level tests in order and stop after the first
      Aborted one; a value escaping a test rejects `run()`. The analytics
      event and the shutdown are not part of this model. */
  function Run<V>(h: Harmonia<V>): (r: Ran<V>)
    ensures |r.harmonia.tests| == |h.tests|
    ensures r.harmonia.uid == h.uid && r.harmonia.options == h.options && r.harmonia.shared == h.shared
    ensures r.outcome == Returned ==> r.results == ResultsOf(r.harmonia.tests, true)
    ensures r.outcome.Rethrown? ==> r.results == []
  {
    var l := ExecuteInOrder(h.tests);
    var h' := h.(tests := l.tests);
    if l.outcome.Rethrown? then Ran(h', l.events, l.outcome, [])
    else Ran(h', l.events, Returned, ResultsOf(l.tests, true))
  }

  /** The run loop executes a prefix of the registered tests, in order; if it
      stops early it is because the last one executed ended Aborted (or let a
      value escape), and every later test is left as it was — a test never
      executed stays NotStarted and is absent from results(). */
  lemma RunStopsAtFirstAbort<V>(h: Harmonia<V>)
    ensures var l := ExecuteInOrder(h.tests);
      var ts := Run(h).harmonia.tests;
      && (forall i :: 0 <= i < l.ran ==> ts[i] == ExecuteTree(h.tests[i]).test)
      && (forall i :: 0 <= i < l.ran - 1 ==> StatusOf(ts[i]) != Aborted)
      && (l.ran < |h.tests| ==> StatusOf(ts[l.ran - 1]) == Aborted || Run(h).outcome.Rethrown?)
      && (forall i :: l.ran <= i < |h.tests| ==> ts[i] == h.tests[i])
  {
    InOrderRunsPrefix(h.tests);
    InOrderStops(h.tests);
  }

  /** Tests registered but never reached stay NotStarted and so are left out of results(). */
  lemma UnreachedTestsNotReported<V>(h: Harmonia<V>, includeSuites: bool)
    requires forall i :: 0 <= i < |h.tests| ==> StatusOf(h.tests[i]) == NotStarted
    ensures var l := ExecuteInOrder(h.tests);
      var ts := Run(h).harmonia.tests;
      ResultsOf(ts, includeSuites) == ResultsOf(ts[..l.ran], includeSuites)
  {
    var l := ExecuteInOrder(h.tests);
    var ts := Run(h).harmonia.tests;
    InOrderRunsPrefix(h.tests);
    SplitAt(ts, l.ran);
    ResultsAppend(ts[..l.ran], ts[l.ran..], includeSuites);
    NotStartedContributeNothing(ts[l.ran..], includeSuites);
  }

  lemma {:induction false} NotStartedContributeNothing<A>(ts: seq<Test<A>>, includeSuites: bool)
    requires forall i :: 0 <= i < |ts| ==> StatusOf(ts[i]) == NotStarted
    ensures ResultsOf(ts, includeSuites) == []
    decreases |ts|
  {
    if ts != [] {
      NotStartedContributeNothing(ts[1..], includeSuites);
    }
  }
}

=== FILE: health.dfy ===
/** The health checks of src/tests/health/: the shared request loop and
    response classification of `BaseHealthTest`, the home-page check that
    collects up to ten linked paths (and skips when there are none), and
    the random-URL check that rewrites linked URLs into local paths. The
    network, the container-log shell call and the URL extraction are
    inputs: each request is given as a `Probe`. */
module Health {
  import opened Common
  import opened Issues
  import opened Results
  import opened TestTree
  import opened Engine
  import opened EngineLemmas

  /** Above this many milliseconds a response draws a warning. */
  const MaxDesiredDuration: nat := 1000
  /** Above this many milliseconds a response draws an error. */
  const MaxAllowedDuration: nat := 2000
  /** `getHomepagePaths( limit = 10 )` */
  const PathLimit: nat := 10

  /** What requesting one URL came to:
      - a response (status, duration in whole milliseconds, container logs);
      - a fetch failure, after which the logs were read;
      - a fetch failure whose log read itself failed inside the catch block;
      - any other failure, which the loop's catch block ignores (such as the
        log read inside `handleRequest` failing). */
  datatype Probe =
    | Responded(status: nat, duration: nat, logs: Payload)
    | FetchFailed(message: string, logs: Payload)
    | LogsUnavailable(reason: string)
    | Swallowed

  datatype Visit = Visit(url: string, probe: Probe)

  function DigitChar(d: nat): char
    requires d < 10
  {
    ('0' as int + d) as char
  }

  /** The decimal form of a number, as template literals print it. */
  function Digits(n: nat): (s: string)
    ensures |s| > 0
    decreases n
  {
    if n < 10 then [DigitChar(n)] else Digits(n / 10) + [DigitChar(n % 10)]
  }

  // ---------------------------------------------------------------------------
  // handleRequest
  // ---------------------------------------------------------------------------

  /** The kind of issue `handleRequest` records for a response. With
      `notFoundWarns` (the home-page and random-URL checks) a 404 is only a
      warning; otherwise any status but 200 is an error, then a duration over
      the allowed limit is an error, over the desired limit a warning, and
      anything faster a notice. */
  function Verdict(notFoundWarns: bool, status: nat, duration: nat): (k: IssueType)
    ensures k != Blocker
    ensures k == Error <==> !(notFoundWarns && status == 404) && (status != 200 || duration > MaxAllowedDuration)
    ensures k == Warning <==> (notFoundWarns && status == 404) || (status == 200 && MaxDesiredDuration < duration <= MaxAllowedDuration)
    ensures k == Notice <==> status == 200 && duration <= MaxDesiredDuration
  {
    if notFoundWarns && status == 404 then Warning
    else if status != 200 then Error
    else if duration > MaxAllowedDuration then Error
    else if duration > MaxDesiredDuration then Warning
    else Notice
  }

  /** `handleRequest`: exactly one issue call, of the verdict's kind. The
      errors carry the container logs; the warning and notice do not. */
  function HandleRequest(notFoundWarns: bool, url: string, status: nat, duration: nat, logs: Payload): (a: Action)
    ensures a.NoticeCall? || a.WarningCall? || a.ErrorCall?
    ensures a.ErrorCall? <==> Verdict(notFoundWarns, status, duration) == Error
    ensures a.WarningCall? <==> Verdict(notFoundWarns, status, duration) == Warning
    ensures a.ErrorCall? ==> a.data == Some(logs)
  {
    if notFoundWarns && status == 404 then WarningCall(NotFoundMessage(url, duration), "", None)
    else if status != 200 then ErrorCall(NotOkMessage(url), "", Some(logs))
    else if duration > MaxAllowedDuration then ErrorCall(TooSlowMessage(url, duration), "", Some(logs))
    else if duration > MaxDesiredDuration then WarningCall(SlowMessage(url, duration), "", None)
    else NoticeCall(ReturnedMessage(url, status, duration), "", None)
  }

  function Millis(duration: nat): string {
    Digits(duration) + Ms
  }

  const Ms: string := "ms"
  const ErrorFetching: string := "Error fetching "
  const NotFoundText: string := " responded with a 404 - Not Found in "
  const NotOkText: string := "Could not get a 200 - OK response from "
  const LineEnd: string := ".\n"
  const RequestTo: string := "The request to "
  const Over2000: string := " took longer than 2000ms ("
  const PerformanceHint: string :=
    ").\nThis request is taking too long and it might be a symptom of performance issues with your application."
  const Over1000: string := " took longer than 1000ms ("
  const ReturnedText: string := " returned "
  const In: string := " in "

  function FetchErrorMessage(url: string, message: string): string {
    ErrorFetching + url + ": " + message
  }

  function NotFoundMessage(url: string, duration: nat): string {
    url + NotFoundText + Millis(duration)
  }

  function NotOkMessage(url: string): string {
    NotOkText + url + LineEnd
  }

  function TooSlowMessage(url: string, duration: nat): string {
    RequestTo + url + Over2000 + Millis(duration) + PerformanceHint
  }

  function SlowMessage(url: string, duration: nat): string {
    RequestTo + url + Over1000 + Millis(duration) + ")"
  }

  function ReturnedMessage(url: string, status: nat, duration: nat): string {
    url + ReturnedText + Digits(status) + In + Millis(duration)
  }

  // ---------------------------------------------------------------------------
  // the request loop of run()
  // ---------------------------------------------------------------------------

  /** Whether a probe ends the loop: a fetch failure raises a blocker, and a
      failed log read inside the catch block escapes as a fault. */
  predicate Breaks(p: Probe) {
    p.FetchFailed? || p.LogsUnavailable?
  }

  function BreakAction(v: Visit): (a: Action)
    requires Breaks(v.probe)
    ensures Unwinds(a)
  {
    match v.probe
    case FetchFailed(m, logs) => BlockerCall(FetchErrorMessage(v.url, m), "", Some(logs))
    case LogsUnavailable(r) => ThrowFault(r)
  }

  /** `run()`: request each URL in order; a response is handled, an ignored
      failure records nothing, a breaking failure is the last action. */
  function RunVisits(notFoundWarns: bool, visits: seq<Visit>): seq<Action>
    decreases |visits|
  {
    if visits == [] then []
    else
      var v := visits[0];
      match v.probe
      case Responded(st, d, logs) => [HandleRequest(notFoundWarns, v.url, st, d, logs)] + RunVisits(notFoundWarns, visits[1..])
      case Swallowed => RunVisits(notFoundWarns, visits[1..])
      case _ => [BreakAction(v)]
  }

  /** The URLs `run()` requests: the base URL followed by each path, with
      what the server does for each given by `serve`. */
  function Visits(baseURL: string, paths: seq<string>, serve: string -> Probe): (vs: seq<Visit>)
    ensures |vs| == |paths|
    ensures forall i :: 0 <= i < |paths| ==> vs[i].url == baseURL + paths[i]
  {
    seq(|paths|, i requires 0 <= i < |paths| => Visit(baseURL + paths[i], serve(baseURL + paths[i])))
  }

  /** No probe breaks the loop. */
  predicate Calm(visits: seq<Visit>) {
    forall i :: 0 <= i < |visits| ==> !Breaks(visits[i].probe)
  }

  /** Some response has the given verdict. */
  predicate SomeVerdict(notFoundWarns: bool, visits: seq<Visit>, k: IssueType) {
    exists i :: 0 <= i < |visits| && visits[i].probe.Responded?
      && Verdict(notFoundWarns, visits[i].probe.status, visits[i].probe.duration) == k
  }

  /** The number of responses. */
  function Answered(visits: seq<Visit>): nat
    decreases |visits|
  {
    if visits == [] then 0 else (if visits[0].probe.Responded? then 1 else 0) + Answered(visits[1..])
  }

  lemma SomeVerdictCons(notFoundWarns: bool, visits: seq<Visit>, k: IssueType)
    requires visits != []
    ensures SomeVerdict(notFoundWarns, visits, k) <==>
      (visits[0].probe.Responded? && Verdict(notFoundWarns, visits[0].probe.status, visits[0].probe.duration) == k)
      || SomeVerdict(notFoundWarns, visits[1..], k)
  {
    if SomeVerdict(notFoundWarns, visits[1..], k) {
      var i :| 0 <= i < |visits[1..]| && visits[1..][i].probe.Responded?
        && Verdict(notFoundWarns, visits[1..][i].probe.status, visits[1..][i].probe.duration) == k;
      assert visits[i + 1] == visits[1..][i];
    }
    if SomeVerdict(notFoundWarns, visits, k) {
      var i :| 0 <= i < |visits| && visits[i].probe.Responded?
        && Verdict(notFoundWarns, visits[i].probe.status, visits[i].probe.duration) == k;
      if i > 0 {
        assert visits[1..][i - 1] == visits[i];
      }
    }
  }

  lemma QuietCons(a: Action, s: seq<Action>)
    ensures Quiet([a] + s) <==> !Unwinds(a) && Quiet(s)
    ensures RecordedAll([a] + s) == Recorded(a) + RecordedAll(s)
  {
    assert ([a] + s)[1..] == s;
    if !Unwinds(a) && Quiet(s) {
      forall i | 0 <= i < |[a] + s| ensures !Unwinds(([a] + s)[i]) {
        if i > 0 { assert ([a] + s)[i] == s[i - 1]; }
      }
    }
    if Quiet([a] + s) {
      assert !Unwinds(([a] + s)[0]);
      forall i | 0 <= i < |s| ensures !Unwinds(s[i]) { assert s[i] == ([a] + s)[i + 1]; }
    }
  }

  lemma CalmTail(visits: seq<Visit>)
    requires visits != [] && Calm(visits)
    ensures Calm(visits[1..])
  {
    forall i | 0 <= i < |visits[1..]| ensures !Breaks(visits[1..][i].probe) {
      assert visits[1..][i] == visits[i + 1];
    }
  }

  /** When nothing breaks the loop, `run()` returns normally after recording
      one issue per response, and it calls `error` (resp. `warning`) exactly
      when some response has that verdict. */
  lemma {:induction false} RunVisitsCalm(notFoundWarns: bool, visits: seq<Visit>)
    requires Calm(visits)
    ensures Quiet(RunVisits(notFoundWarns, visits))
    ensures |RecordedAll(RunVisits(notFoundWarns, visits))| == Answered(visits)
    ensures CallsError(RunVisits(notFoundWarns, visits)) <==> SomeVerdict(notFoundWarns, visits, Error)
    ensures CallsWarning(RunVisits(notFoundWarns, visits)) <==> SomeVerdict(notFoundWarns, visits, Warning)
    decreases |visits|
  {
    if visits != [] {
      var rest := visits[1..];
      CalmTail(visits);
      RunVisitsCalm(notFoundWarns, rest);
      SomeVerdictCons(notFoundWarns, visits, Error);
      SomeVerdictCons(notFoundWarns, visits, Warning);
      var tail := RunVisits(notFoundWarns, rest);
      assert !Breaks(visits[0].probe);
      if visits[0].probe.Responded? {
        var p := visits[0].probe;
        var a := HandleRequest(notFoundWarns, visits[0].url, p.status, p.duration, p.logs);
        assert RunVisits(notFoundWarns, visits) == [a] + tail;
        QuietCons(a, tail);
        CallsCons([a] + tail);
        assert ([a] + tail)[1..] == tail;
      }
    }
  }

  /** When the probe at `k` is the first that breaks, `run()` performs the
      calls for the probes before it and then the breaking action. */
  lemma {:induction false} RunVisitsBreak(notFoundWarns: bool, visits: seq<Visit>, k: nat)
    requires k < |visits| && Breaks(visits[k].probe) && Calm(visits[..k])
    ensures RunVisits(notFoundWarns, visits) == RunVisits(notFoundWarns, visits[..k]) + [BreakAction(visits[k])]
    decreases k
  {
    if k > 0 {
      var rest := visits[1..];
      assert rest[..k - 1] == visits[..k][1..];
      CalmTail(visits[..k]);
      assert rest[k - 1] == visits[k];
      RunVisitsBreak(notFoundWarns, rest, k - 1);
      assert visits[..k][0] == visits[0];
      assert !Breaks(visits[..k][0].probe);
    }
  }

  // ---------------------------------------------------------------------------
  // outcome of a health test
  // ---------------------------------------------------------------------------

  /** A fresh health test whose bodies amount to the request loop and that
      nothing breaks: it returns, records one issue per response, and ends
      Failed iff some response is an error, PartialSuccess iff none is but
      some is a warning, and Success otherwise. */
  lemma HealthRunCalm(t: Test<Action>, notFoundWarns: bool, visits: seq<Visit>)
    requires t.Leaf? && t.result == NewResult() && t.prepare + t.body == RunVisits(notFoundWarns, visits)
    requires Calm(visits)
    ensures var e := ExecuteLeaf(t);
      && e.outcome == Returned
      && |e.test.result.issues| == Answered(visits)
      && (StatusOf(e.test) == Failed <==> SomeVerdict(notFoundWarns, visits, Error))
      && (StatusOf(e.test) == PartialSuccess <==> !SomeVerdict(notFoundWarns, visits, Error) && SomeVerdict(notFoundWarns, visits, Warning))
      && (StatusOf(e.test) == Success <==> !SomeVerdict(notFoundWarns, visits, Error) && !SomeVerdict(notFoundWarns, visits, Warning))
  {
    RunVisitsCalm(notFoundWarns, visits);
    LeafCompletes(t);
    FreshLeafClassification(t);
  }

  /** A health test whose loop breaks at the `k`-th request: a fetch failure
      ends it Aborted with the blocker as its last issue; a failed log read
      escapes as a fault. */
  lemma HealthRunBreaks(t: Test<Action>, notFoundWarns: bool, visits: seq<Visit>, k: nat)
    requires t.Leaf? && t.prepare == [] && t.body == RunVisits(notFoundWarns, visits)
    requires k < |visits| && Breaks(visits[k].probe) && Calm(visits[..k])
    ensures var e := ExecuteLeaf(t);
      && (visits[k].probe.FetchFailed? ==>
            e.outcome == Returned && StatusOf(e.test) == Aborted && |e.test.result.issues| > 0
            && e.test.result.issues[|e.test.result.issues| - 1].kind == Blocker)
      && (visits[k].probe.LogsUnavailable? ==> e.outcome == Rethrown(FaultThrown(visits[k].probe.reason)))
  {
    var front := RunVisits(notFoundWarns, visits[..k]);
    RunVisitsBreak(notFoundWarns, visits, k);
    RunVisitsCalm(notFoundWarns, visits[..k]);
    var s := t.prepare + t.body;
    assert s == front + [BreakAction(visits[k])];
    assert s[..|front|] == front;
    LeafUnwinds(t, |front|);
  }

  // ---------------------------------------------------------------------------
  // home-urls
  // ---------------------------------------------------------------------------

  /** The home-page request: a response (with the status text and the paths
      extracted and filtered from its content), a fetch failure, or another
      failure. */
  datatype HomeFetch =
    | HomeAnswered(status: nat, statusText: string, linked: seq<string>)
    | HomeFetchFailed(message: string)
    | HomeFailed(reason: string)

  /** 200, or a redirect (300 to 399). */
  predicate GoodHomeStatus(status: nat) {
    status == 200 || 300 <= status <= 399
  }

  const NoUrls: string := "No URLs available for testing"
  const HomeName: string := "Home page"
  const HomeDescription: string := "Checks the responsiveness of the home page and linked pages"
  const HomeStatusText: string := "Error getting URLs from homepage. "
  const ResponseFrom: string := " response from "

  function HomeStatusMessage(baseURL: string, status: nat, statusText: string): string {
    HomeStatusText + Digits(status) + " - " + statusText + ResponseFrom + baseURL
  }

  /** `getHomepagePaths()`: the first ten linked paths of a good response,
      and none otherwise. `filterPaths`, which the source calls on the
      links, is taken to keep them as they are: no class of the test's
      hierarchy defines it. */
  function HomePaths(home: HomeFetch): (paths: seq<string>)
    ensures |paths| <= PathLimit
    ensures home.HomeAnswered? && GoodHomeStatus(home.status) ==> paths == Take(home.linked, PathLimit)
    ensures !(home.HomeAnswered? && GoodHomeStatus(home.status)) ==> paths == []
  {
    if home.HomeAnswered? && GoodHomeStatus(home.status) then Take(home.linked, PathLimit) else []
  }

  /** `prepare()` of the home-page check: a bad status draws a warning and
      leaves no paths; no paths means `skip`; a fetch failure raises a
      blocker; any other failure is rethrown. */
  function HomePrepare(baseURL: string, home: HomeFetch): seq<Action> {
    match home
    case HomeAnswered(st, text, linked) =>
      if !GoodHomeStatus(st) then
        [WarningCall(HomeStatusMessage(baseURL, st, text), "", None),
         SkipCall(NoUrls)]
      else if HomePaths(home) == [] then [SkipCall(NoUrls)]
      else []
    case HomeFetchFailed(m) => [BlockerCall(FetchErrorMessage(baseURL, m), "", None)]
    case HomeFailed(r) => [ThrowFault(r)]
  }

  function HomeTest(baseURL: string, home: HomeFetch, serve: string -> Probe, own: StoreRef): (t: Test<Action>)
    ensures t.Leaf? && t.result == NewResult()
  {
    NewTest(HomeName, HomeDescription, HomePrepare(baseURL, home), RunVisits(true, Visits(baseURL, HomePaths(home), serve)), own)
  }

  /** A home page that answers with a bad status, or whose good answer links
      nothing, makes the check Skipped: the bad status is recorded as a
      warning, followed by the skip notice, and no path is requested. */
  lemma HomeSkips(baseURL: string, home: HomeFetch, serve: string -> Probe, own: StoreRef)
    requires home.HomeAnswered? && (!GoodHomeStatus(home.status) || home.linked == [])
    ensures var e := ExecuteLeaf(HomeTest(baseURL, home, serve, own));
      && e.outcome == Returned && StatusOf(e.test) == Skipped && |e.test.result.issues| > 0
      && e.test.result.issues[|e.test.result.issues| - 1] == Issue(Notice, NoUrls, "", None)
      && |e.test.result.issues| == (if GoodHomeStatus(home.status) then 1 else 2)
      && (!GoodHomeStatus(home.status) ==> e.test.result.issues[0].kind == Warning)
  {
    var t := HomeTest(baseURL, home, serve, own);
    var p := HomePrepare(baseURL, home);
    var s := t.prepare + t.body;
    var k := |p| - 1;
    assert s[..|p|] == p && s[k] == p[k];
    assert s[..k] == p[..k];
    if |p| == 2 {
      QuietCons(p[0], []);
      assert p[..1] == [p[0]] + [];
    } else {
      assert s[..k] == [];
    }
    LeafUnwinds(t, k);
  }

  /** A home-page fetch failure aborts the check with one blocker. */
  lemma HomeFetchFailureAborts(baseURL: string, home: HomeFetch, serve: string -> Probe, own: StoreRef)
    requires home.HomeFetchFailed?
    ensures var e := ExecuteLeaf(HomeTest(baseURL, home, serve, own));
      && e.outcome == Returned && StatusOf(e.test) == Aborted
      && e.test.result.issues == [Issue(Blocker, FetchErrorMessage(baseURL, home.message), "", None)]
  {
    var t := HomeTest(baseURL, home, serve, own);
    assert (t.prepare + t.body)[..0] == [];
    LeafUnwinds(t, 0);
  }

  /** With a good home page that links something, at most ten linked paths
      are requested, and the check is classified from their responses. */
  lemma HomeRequestsLinks(baseURL: string, home: HomeFetch, serve: string -> Probe, own: StoreRef)
    requires home.HomeAnswered? && GoodHomeStatus(home.status) && home.linked != []
    requires Calm(Visits(baseURL, HomePaths(home), serve))
    ensures |HomePaths(home)| == if |home.linked| < PathLimit then |home.linked| else PathLimit
    ensures var vs := Visits(baseURL, HomePaths(home), serve);
      var e := ExecuteLeaf(HomeTest(baseURL, home, serve, own));
      && e.outcome == Returned
      && |e.test.result.issues| == Answered(vs)
      && (StatusOf(e.test) == Failed <==> SomeVerdict(true, vs, Error))
      && (StatusOf(e.test) == PartialSuccess <==> !SomeVerdict(true, vs, Error) && SomeVerdict(true, vs, Warning))
      && (StatusOf(e.test) == Success <==> !SomeVerdict(true, vs, Error) && !SomeVerdict(true, vs, Warning))
  {
    var t := HomeTest(baseURL, home, serve, own);
    assert HomePaths(home) != [];
    assert t.prepare == [];
    assert t.prepare + t.body == t.body;
    HealthRunCalm(t, true, Visits(baseURL, HomePaths(home), serve));
  }

  // ---------------------------------------------------------------------------
  // random-urls
  // ---------------------------------------------------------------------------

  /** `s.replace(pat, rep)` with a string pattern: the first occurrence only. */
  function ReplaceFirst(s: string, pat: string, rep: string): (r: string)
    ensures !Contains(s, pat) ==> r == s
  {
    match IndexOf(s, pat)
    case None => s
    case Some(i) => s[..i] + rep + s[i + |pat|..]
  }

  /** Prefix `/` unless the path already starts with it. */
  function Rooted(path: string): (r: string)
    ensures StartsWith(r, "/")
    ensures StartsWith(path, "/") ==> r == path
  {
    if StartsWith(path, "/") then path else "/" + path
  }

  /** The rewrite of a linked URL as the source writes it: only the public
      URL is searched for (first occurrence anywhere), even for URLs that
      were kept because they start with the local URL. */
  function RewriteAsWritten(publicURL: string, url: string): string {
    Rooted(ReplaceFirst(url, publicURL, ""))
  }

  /** The evidently intended rewrite: strip whichever of the two URLs the
      link starts with (the public one first, as the source does). */
  function Rewrite(publicURL: string, baseURL: string, url: string): (path: string)
    ensures StartsWith(path, "/")
  {
    if StartsWith(url, publicURL) then Rooted(url[|publicURL|..])
    else if StartsWith(url, baseURL) then Rooted(url[|baseURL|..])
    else Rooted(url)
  }

  /** The filter: links that start with the public or the local URL. */
  function KeepSiteLinks(publicURL: string, baseURL: string, urls: seq<string>): (kept: seq<string>)
    ensures |kept| <= |urls|
    ensures forall i :: 0 <= i < |kept| ==> StartsWith(kept[i], publicURL) || StartsWith(kept[i], baseURL)
    decreases |urls|
  {
    if urls == [] then []
    else
      var rest := KeepSiteLinks(publicURL, baseURL, urls[1..]);
      if StartsWith(urls[0], publicURL) || StartsWith(urls[0], baseURL) then [urls[0]] + rest else rest
  }

  /** The filter keeps exactly the links that start with the public or the
      local URL. */
  lemma {:induction false} KeepSiteLinksMembers(publicURL: string, baseURL: string, urls: seq<string>)
    ensures forall u :: u in KeepSiteLinks(publicURL, baseURL, urls) <==> u in urls && (StartsWith(u, publicURL) || StartsWith(u, baseURL))
    decreases |urls|
  {
    if urls != [] {
      KeepSiteLinksMembers(publicURL, baseURL, urls[1..]);
      assert forall u :: u in urls <==> u == urls[0] || u in urls[1..];
    }
  }

  /** The filter keeps links in their order: filtering a concatenation is
      filtering each part. With `KeepSiteLinksSingle` this determines the
      result. */
  lemma {:induction false} KeepSiteLinksAppend(publicURL: string, baseURL: string, a: seq<string>, b: seq<string>)
    ensures KeepSiteLinks(publicURL, baseURL, a + b) == KeepSiteLinks(publicURL, baseURL, a) + KeepSiteLinks(publicURL, baseURL, b)
    decreases |a|
  {
    if a == [] {
      assert a + b == b;
    } else {
      var ab := a + b;
      assert ab[0] == a[0] && ab[1..] == a[1..] + b;
      KeepSiteLinksAppend(publicURL, baseURL, a[1..], b);
      var kb := KeepSiteLinks(publicURL, baseURL, b);
      var rest := KeepSiteLinks(publicURL, baseURL, a[1..]);
      var head := if StartsWith(a[0], publicURL) || StartsWith(a[0], baseURL) then [a[0]] else [];
      assert KeepSiteLinks(publicURL, baseURL, ab) == head + (rest + kb);
      assert KeepSiteLinks(publicURL, baseURL, a) == head + rest;
      assert head + (rest + kb) == (head + rest) + kb;
    }
  }

  /** A single link is kept exactly when it starts with one of the two URLs. */
  lemma KeepSiteLinksSingle(publicURL: string, baseURL: string, u: string)
    ensures KeepSiteLinks(publicURL, baseURL, [u]) == if StartsWith(u, publicURL) || StartsWith(u, baseURL) then [u] else []
  {
    assert [u][1..] == [];
  }

  /** The random-URL check's paths: the site links, rewritten, first ten. */
  function RandomPaths(publicURL: string, baseURL: string, urls: seq<string>): (paths: seq<string>)
    ensures |paths| <= PathLimit
    ensures forall i :: 0 <= i < |paths| ==> StartsWith(paths[i], "/")
  {
    var kept := KeepSiteLinks(publicURL, baseURL, urls);
    Take(seq(|kept|, i requires 0 <= i < |kept| => Rewrite(publicURL, baseURL, kept[i])), PathLimit)
  }

  /** The paths as the source computes them, with `RewriteAsWritten`. */
  function RandomPathsAsWritten(publicURL: string, baseURL: string, urls: seq<string>): (paths: seq<string>)
    ensures |paths| <= PathLimit
    ensures forall i :: 0 <= i < |paths| ==> StartsWith(paths[i], "/")
  {
    var kept := KeepSiteLinks(publicURL, baseURL, urls);
    Take(seq(|kept|, i requires 0 <= i < |kept| => RewriteAsWritten(publicURL, kept[i])), PathLimit)
  }

  /** When every site link on the page is written with the public URL, the
      paths as written and the corrected paths are the same. */
  lemma RandomPathsAgree(publicURL: string, baseURL: string, urls: seq<string>)
    requires forall u :: u in urls && StartsWith(u, baseURL) ==> StartsWith(u, publicURL)
    ensures RandomPathsAsWritten(publicURL, baseURL, urls) == RandomPaths(publicURL, baseURL, urls)
  {
    var kept := KeepSiteLinks(publicURL, baseURL, urls);
    var xs := seq(|kept|, i requires 0 <= i < |kept| => RewriteAsWritten(publicURL, kept[i]));
    var ys := seq(|kept|, i requires 0 <= i < |kept| => Rewrite(publicURL, baseURL, kept[i]));
    KeepSiteLinksMembers(publicURL, baseURL, urls);
    forall i | 0 <= i < |kept| ensures xs[i] == ys[i] {
      assert kept[i] in kept;
      RewriteAgreesOnPublic(publicURL, kept[i], baseURL);
    }
    assert xs == ys;
  }

  /** A link at `site + rest`, with `rest` a path, is requested at that same
      path on the local server, whichever of the two URLs it was written with. */
  lemma RewriteKeepsPath(publicURL: string, baseURL: string, site: string, rest: string)
    requires site == publicURL || (site == baseURL && !StartsWith(baseURL + rest, publicURL))
    requires StartsWith(rest, "/")
    ensures Rewrite(publicURL, baseURL, site + rest) == rest
  {
    assert (site + rest)[..|site|] == site;
    assert (site + rest)[|site|..] == rest;
  }

  /** On links written with the public URL the two rewrites agree. */
  lemma RewriteAgreesOnPublic(publicURL: string, url: string, baseURL: string)
    requires StartsWith(url, publicURL)
    ensures RewriteAsWritten(publicURL, url) == Rewrite(publicURL, baseURL, url)
  {
    assert OccursAt(url, publicURL, 0);
    assert url[..0] + "" + url[|publicURL|..] == url[|publicURL|..];
  }

  /** As written, a link that starts with the local URL and does not mention
      the public one is requested at `/` followed by the whole link. */
  lemma RewriteAsWrittenKeepsLocalLinks(publicURL: string, url: string)
    requires !Contains(url, publicURL)
    ensures RewriteAsWritten(publicURL, url) == Rooted(url)
  {
  }

  /** A concrete link on which the two disagree: `http://localhost:8080/about`
      on a site whose public URL is `https://example.com`. */
  lemma RewriteCounterexample(publicURL: string, baseURL: string, url: string)
    requires publicURL == "https://example.com" && baseURL == "http://localhost:8080"
    requires url == baseURL + "/about"
    ensures RewriteAsWritten(publicURL, url) == "/" + url
    ensures Rewrite(publicURL, baseURL, url) == "/about"
  {
    LocalLinkMissesPublic(publicURL, url);
    RewriteAsWrittenKeepsLocalLinks(publicURL, url);
    assert url[0] == 'h';
    RewriteKeepsPath(publicURL, baseURL, baseURL, "/about");
  }

  lemma LocalLinkMissesPublic(publicURL: string, url: string)
    requires publicURL == "https://example.com" && url == "http://localhost:8080/about"
    ensures !Contains(url, publicURL)
  {
    forall i | 0 <= i <= |url| ensures !OccursAt(url, publicURL, i) {
      if i + |publicURL| <= |url| {
        assert url[i..i + |publicURL|][4] == url[i + 4] != 's';
      }
    }
  }

  const RandomName: string := "Testing with random URLs"
  const RandomDescription: string :=
    "Get a set of random URLs from the sitemap and/or index and check their availability"

  /** The homepage request of the random-URL check: the links it contains,
      or a failure (rethrown). */
  datatype PageFetch = Page(urls: seq<string>) | PageFailed(reason: string)

  function RandomPrepare(page: PageFetch): seq<Action> {
    match page
    case Page(_) => []
    case PageFailed(r) => [ThrowFault(r)]
  }

  function RandomPathsOf(publicURL: string, baseURL: string, page: PageFetch): seq<string> {
    match page
    case Page(urls) => RandomPaths(publicURL, baseURL, urls)
    case PageFailed(_) => []
  }

  function RandomTest(publicURL: string, baseURL: string, page: PageFetch, serve: string -> Probe, own: StoreRef): (t: Test<Action>)
    ensures t.Leaf? && t.result == NewResult()
  {
    NewTest(RandomName, RandomDescription,
            RandomPrepare(page), RunVisits(true, Visits(baseURL, RandomPathsOf(publicURL, baseURL, page), serve)), own)
  }

  /** The random-URL check: a failed homepage request escapes as a fault;
      otherwise at most ten paths are requested and the check is classified
      from their responses. Unlike the home-page check it never skips: with
      no links it succeeds with no issues. */
  lemma RandomOutcome(publicURL: string, baseURL: string, page: PageFetch, serve: string -> Probe, own: StoreRef)
    requires page.Page? ==> Calm(Visits(baseURL, RandomPathsOf(publicURL, baseURL, page), serve))
    ensures var e := ExecuteLeaf(RandomTest(publicURL, baseURL, page, serve, own));
      var vs := Visits(baseURL, RandomPathsOf(publicURL, baseURL, page), serve);
      && (page.PageFailed? ==> e.outcome == Rethrown(FaultThrown(page.reason)))
      && (page.Page? ==>
            && e.outcome == Returned
            && |e.test.result.issues| == Answered(vs)
            && (StatusOf(e.test) == Failed <==> SomeVerdict(true, vs, Error))
            && (StatusOf(e.test) == PartialSuccess <==> !SomeVerdict(true, vs, Error) && SomeVerdict(true, vs, Warning))
            && (StatusOf(e.test) == Success <==> !SomeVerdict(true, vs, Error) && !SomeVerdict(true, vs, Warning)))
  {
    var t := RandomTest(publicURL, baseURL, page, serve, own);
    if page.PageFailed? {
      assert (t.prepare + t.body)[..0] == [];
      LeafUnwinds(t, 0);
    } else {
      assert t.prepare + t.body == t.body;
      HealthRunCalm(t, true, Visits(baseURL, RandomPathsOf(publicURL, baseURL, page), serve));
    }
  }
}

=== FILE: issue.dfy ===
/** A classified finding raised by a test (src/lib/issue.ts). */
module Issues {
  import opened Common

  /** The four severities, in enum order. */
  datatype IssueType = Notice | Warning | Error | Blocker

  /** Opaque diagnostic payload, such as captured process output. */
  type Payload = string

  datatype Issue = Issue(kind: IssueType, message: string, documentation: string, data: Option<Payload>)

  /** `Issue.build()`: an empty Notice. */
  function Build(): (i: Issue)
    ensures i.kind == Notice && i.message == "" && i.documentation == "" && i.data == None
  {
    Issue(Notice, "", "", None)
  }

  function SetType(i: Issue, t: IssueType): (r: Issue)
    ensures r.kind == t
    ensures r.message == i.message && r.documentation == i.documentation && r.data == i.data
  {
    i.(kind := t)
  }

  function SetMessage(i: Issue, m: string): (r: Issue)
    ensures r.message == m
    ensures r.kind == i.kind && r.documentation == i.documentation && r.data == i.data
  {
    i.(message := m)
  }

  function SetDocumentation(i: Issue, d: string): (r: Issue)
    ensures r.documentation == d
    ensures r.kind == i.kind && r.message == i.message && r.data == i.data
  {
    i.(documentation := d)
  }

  function SetData(i: Issue, p: Payload): (r: Issue)
    ensures r.data == Some(p)
    ensures r.kind == i.kind && r.message == i.message && r.documentation == i.documentation
  {
    i.(data := Some(p))
  }

  /** Setters that touch different fields commute, and each setter only
      overwrites its own field: setting it twice keeps the last value. */
  lemma SettersIndependent(i: Issue, t: IssueType, m: string, d: string)
    ensures SetType(SetMessage(i, m), t) == SetMessage(SetType(i, t), m)
    ensures SetDocumentation(SetMessage(i, m), d) == SetMessage(SetDocumentation(i, d), m)
    ensures SetType(SetType(i, Blocker), t) == SetType(i, t)
  {
  }

  /** A builder chain `build().setMessage(m).setType(t)` determines the issue. */
  lemma BuilderChain(m: string, t: IssueType)
    ensures SetType(SetMessage(Build(), m), t) == Issue(t, m, "", None)
  {
  }
}

=== FILE: legacy.dfy ===
/** The earlier engine (src/lib/test.ts, src/lib/testsuite.ts,
    src/lib/testresult.ts), still used by the npm-scripts check. Its issue
    helpers take no payload, there is no `skip`, no events and no cleanUp,
    and its execute() turns every thrown Issue, a Notice included, into
    Aborted. It shares the tree, the result record and `processResult` with
    the current engine, and agrees with it on every tree whose leaves were
    not already Skipped. */
module Legacy {
  import opened Common
  import opened Issues
  import opened Results
  import opened TestTree
  import Engine

  datatype LegacyAction =
    | NoticeCall(message: string, doc: string)    // this.notice(message, docUrl)
    | WarningCall(message: string, doc: string)   // this.warning(message, docUrl)
    | ErrorCall(message: string, doc: string)     // this.error(message, docUrl)
    | BlockerCall(message: string, doc: string)   // this.blocker(message, docUrl)
    | ThrowIssue(issue: Issue)                    // throw issue
    | ThrowFault(reason: string)                  // throw new Error(...)

  datatype Frame = Frame(result: TestResult, thrown: Option<Engine.Thrown>)

  datatype Execution = Execution(test: Test<LegacyAction>, outcome: Engine.Outcome)

  datatype InOrder = InOrder(tests: seq<Test<LegacyAction>>, ran: nat, aborted: bool, outcome: Engine.Outcome)

  /** The kind of issue a helper call records. */
  function CallKind(a: LegacyAction): IssueType {
    if a.NoticeCall? then Notice
    else if a.WarningCall? then Warning
    else if a.ErrorCall? then Error
    else Blocker
  }

  /** One action: the helpers record their issue (`createIssue` stores it
      before `setType` sets its kind); `error` marks the result Failed;
      `blocker` throws its issue. */
  function Step(r: TestResult, a: LegacyAction): (f: Frame)
    ensures f.thrown.Some? <==> a.BlockerCall? || a.ThrowIssue? || a.ThrowFault?
    ensures f.result.status == if a.ErrorCall? then Failed else r.status
    ensures a.ThrowIssue? || a.ThrowFault? ==> f.result == r
    ensures !(a.ThrowIssue? || a.ThrowFault?) ==>
      f.result.issues == r.issues + [Issue(CallKind(a), a.message, a.doc, None)]
    ensures a.BlockerCall? ==> f.thrown == Some(Engine.IssueThrown(Issue(Blocker, a.message, a.doc, None)))
    ensures a.ThrowIssue? ==> f.thrown == Some(Engine.IssueThrown(a.issue))
    ensures a.ThrowFault? ==> f.thrown == Some(Engine.FaultThrown(a.reason))
  {
    match a
    case NoticeCall(m, d) => Frame(AddIssue(r, Engine.CreateIssue(Notice, m, d, None)), None)
    case WarningCall(m, d) => Frame(AddIssue(r, Engine.CreateIssue(Warning, m, d, None)), None)
    case ErrorCall(m, d) => Frame(AddIssue(SetResult(r, Failed), Engine.CreateIssue(Error, m, d, None)), None)
    case BlockerCall(m, d) =>
      var i := Engine.CreateIssue(Blocker, m, d, None);
      Frame(AddIssue(r, i), Some(Engine.IssueThrown(i)))
    case ThrowIssue(i) => Frame(r, Some(Engine.IssueThrown(i)))
    case ThrowFault(e) => Frame(r, Some(Engine.FaultThrown(e)))
  }

  /** Run a body up to its first throw. The earlier engine can only keep the
      status or make it Failed, and only ever appends issues. */
  function Run(r: TestResult, script: seq<LegacyAction>): (f: Frame)
    ensures f.result.status == r.status || f.result.status == Failed
    ensures |r.issues| <= |f.result.issues| && f.result.issues[..|r.issues|] == r.issues
    decreases |script|
  {
    if script == [] then Frame(r, None)
    else
      var f := Step(r, script[0]);
      if f.thrown.Some? then f else Run(f.result, script[1..])
  }

  /** `Test.execute()`: prepare and run in one try block (so they behave as
      one script), then `processResult`; any thrown Issue makes the result
      Aborted and is swallowed; anything else is rethrown. */
  function ExecuteLeaf(t: Test<LegacyAction>): (e: Execution)
    requires t.Leaf?
    ensures e.test.Leaf? && e.test.name == t.name && e.test.description == t.description
    ensures e.test.prepare == t.prepare && e.test.body == t.body && e.test.options == t.options
  {
    var f := Run(t.result, t.prepare + t.body);
    match f.thrown
    case None =>
      var done := WithResult(t, f.result);
      Execution(WithResult(done, Engine.ProcessResult(done)), Engine.Returned)
    case Some(x) =>
      if x.FaultThrown? then Execution(WithResult(t, f.result), Engine.Rethrown(x))
      else Execution(WithResult(t, SetResult(f.result, Aborted)), Engine.Returned)
  }

  /** `TestSuite.execute()` of the earlier suite: the same loop as the
      current one, without events. The earlier `Test` defines neither
      `emit` nor `log`, which this method calls; the model takes both to
      do nothing. */
  function ExecuteTree(t: Test<LegacyAction>): (e: Execution)
    ensures e.test.Leaf? == t.Leaf? && e.test.name == t.name && e.test.description == t.description
    ensures e.test.prepare == t.prepare && e.test.options == t.options
    ensures t.Suite? ==> |e.test.children| == |t.children|
    decreases t
  {
    match t
    case Leaf(_, _, _, _, _, _) => ExecuteLeaf(t)
    case Suite(n, _, _, cs, _, _) =>
      var p := Run(t.result, t.prepare);
      if p.thrown.Some? then
        Execution(WithResult(t, p.result), Engine.Rethrown(p.thrown.value))
      else
        var l := ExecuteInOrder(cs);
        var r := if l.aborted then SetResult(p.result, Aborted) else p.result;
        var s := Suite(n, t.description, t.prepare, l.tests, r, t.options);
        if l.outcome.Rethrown? then Execution(s, l.outcome)
        else
          var processed := if r.status == Aborted then r else Engine.ProcessResult(s);
          Execution(WithResult(s, processed), Engine.Returned)
  }

  function ExecuteInOrder(cs: seq<Test<LegacyAction>>): (l: InOrder)
    ensures |l.tests| == |cs| && l.ran <= |cs|
    decreases cs
  {
    if cs == [] then InOrder([], 0, false, Engine.Returned)
    else
      var e := ExecuteTree(cs[0]);
      if e.outcome.Rethrown? then InOrder([e.test] + cs[1..], 1, false, e.outcome)
      else if StatusOf(e.test) == Aborted then InOrder([e.test] + cs[1..], 1, true, Engine.Returned)
      else
        var rest := ExecuteInOrder(cs[1..]);
        InOrder([e.test] + rest.tests, rest.ran + 1, rest.aborted, rest.outcome)
  }

  // ---------------------------------------------------------------------------
  // Relation to the current engine
  // ---------------------------------------------------------------------------

  /** The same call in the current engine, with no payload. */
  function LiftAction(a: LegacyAction): Engine.Action {
    match a
    case NoticeCall(m, d) => Engine.NoticeCall(m, d, None)
    case WarningCall(m, d) => Engine.WarningCall(m, d, None)
    case ErrorCall(m, d) => Engine.ErrorCall(m, d, None)
    case BlockerCall(m, d) => Engine.BlockerCall(m, d, None)
    case ThrowIssue(i) => Engine.ThrowIssue(i)
    case ThrowFault(e) => Engine.ThrowFault(e)
  }

  function LiftScript(s: seq<LegacyAction>): (u: seq<Engine.Action>)
    ensures |u| == |s| && forall i :: 0 <= i < |s| ==> u[i] == LiftAction(s[i])
  {
    seq(|s|, i requires 0 <= i < |s| => LiftAction(s[i]))
  }

  /** The same tree written against the current engine. */
  function Lift(t: Test<LegacyAction>): (u: Test<Engine.Action>)
    ensures u.Leaf? == t.Leaf? && u.name == t.name && u.description == t.description
    ensures u.result == t.result && u.options == t.options && u.prepare == LiftScript(t.prepare)
    decreases t
  {
    match t
    case Leaf(n, d, p, b, r, o) => Leaf(n, d, LiftScript(p), LiftScript(b), r, o)
    case Suite(n, d, p, cs, r, o) => Suite(n, d, LiftScript(p), LiftAll(cs), r, o)
  }

  function LiftAll(cs: seq<Test<LegacyAction>>): (us: seq<Test<Engine.Action>>)
    ensures |us| == |cs| && forall i :: 0 <= i < |cs| ==> us[i] == Lift(cs[i])
    decreases cs
  {
    if cs == [] then [] else [Lift(cs[0])] + LiftAll(cs[1..])
  }

  /** No leaf of the tree has a Skipped result: the only state in which the
      current engine treats a thrown Notice differently. */
  predicate NoSkippedLeaf(t: Test<LegacyAction>)
    decreases t
  {
    match t
    case Leaf(_, _, _, _, r, _) => r.status != Skipped
    case Suite(_, _, _, cs, _, _) => forall i :: 0 <= i < |cs| ==> NoSkippedLeaf(cs[i])
  }

  /** A body runs the same in both engines. */
  lemma {:induction false} RunAgrees(r: TestResult, s: seq<LegacyAction>)
    ensures Run(r, s).result == Engine.RunScript(r, LiftScript(s)).result
    ensures Run(r, s).thrown == Engine.RunScript(r, LiftScript(s)).thrown
    decreases |s|
  {
    if s != [] {
      var u := LiftScript(s);
      assert u[0] == LiftAction(s[0]) && u[1..] == LiftScript(s[1..]);
      var f := Step(r, s[0]);
      if f.thrown.None? {
        RunAgrees(f.result, s[1..]);
      }
    }
  }

  lemma {:induction false} FilterLift(t: Test<LegacyAction>, k: IssueType)
    ensures TypeFilter(Lift(t), k) == TypeFilter(t, k)
    decreases t
  {
    match t
    case Leaf(_, _, _, _, _, _) =>
    case Suite(_, _, _, cs, _, _) => ForestFilterLift(cs, k);
  }

  lemma {:induction false} ForestFilterLift(cs: seq<Test<LegacyAction>>, k: IssueType)
    ensures ForestFilter(LiftAll(cs), k) == ForestFilter(cs, k)
    decreases cs
  {
    if cs != [] {
      FilterLift(cs[0], k);
      ForestFilterLift(cs[1..], k);
      assert LiftAll(cs)[1..] == LiftAll(cs[1..]);
    }
  }

  /** Lifting commutes with replacing a node's result. */
  lemma LiftWithResult(t: Test<LegacyAction>, r: TestResult)
    ensures Lift(WithResult(t, r)) == WithResult(Lift(t), r)
  {
  }

  /** On a leaf that is not already Skipped, the earlier execute() leaves the
      same result and leaves the same way as the current one. */
  lemma LeafAgrees(t: Test<LegacyAction>)
    requires t.Leaf? && t.result.status != Skipped
    ensures Lift(ExecuteLeaf(t).test) == Engine.ExecuteLeaf(Lift(t)).test
    ensures ExecuteLeaf(t).outcome == Engine.ExecuteLeaf(Lift(t)).outcome
  {
    var s := t.prepare + t.body;
    var pt := Lift(t);
    assert pt.prepare + pt.body == LiftScript(s);
    RunAgrees(t.result, s);
    var f := Run(t.result, s);
    var g := Engine.RunBodies(pt.result, pt.prepare, pt.body);
    assert g.result == f.result && g.thrown == f.thrown;
    var e, ee := ExecuteLeaf(t), Engine.ExecuteLeaf(pt);
    if f.thrown.None? {
      var done := WithResult(t, f.result);
      LiftWithResult(t, f.result);
      FilterLift(done, Error);
      FilterLift(done, Warning);
      LiftWithResult(done, Engine.ProcessResult(done));
      assert e.outcome == ee.outcome == Engine.Returned;
    } else {
      LiftWithResult(t, f.result);
      LiftWithResult(t, SetResult(f.result, Aborted));
    }
  }

  /** The whole tree: on a tree whose leaves are not already Skipped, the
      earlier engine and the current one produce the same tree of results,
      stop at the same place and let the same value escape. */
  lemma {:induction false} TreeAgrees(t: Test<LegacyAction>)
    requires NoSkippedLeaf(t)
    ensures Lift(ExecuteTree(t).test) == Engine.ExecuteTree(Lift(t)).test
    ensures ExecuteTree(t).outcome == Engine.ExecuteTree(Lift(t)).outcome
    decreases t
  {
    match t
    case Leaf(_, _, _, _, _, _) => LeafAgrees(t);
    case Suite(n, d, pr, cs, _, o) =>
      RunAgrees(t.result, t.prepare);
      var p := Run(t.result, t.prepare);
      if p.thrown.Some? {
        LiftWithResult(t, p.result);
      } else {
        InOrderAgrees(cs);
        var l := ExecuteInOrder(cs);
        var r := if l.aborted then SetResult(p.result, Aborted) else p.result;
        var s := Suite(n, d, pr, l.tests, r, o);
        ForestFilterLift(l.tests, Error);
        ForestFilterLift(l.tests, Warning);
        var processed := if r.status == Aborted then r else Engine.ProcessResult(s);
        LiftWithResult(s, processed);
      }
  }

  lemma {:induction false} InOrderAgrees(cs: seq<Test<LegacyAction>>)
    requires forall i :: 0 <= i < |cs| ==> NoSkippedLeaf(cs[i])
    ensures var l := ExecuteInOrder(cs);
      var m := Engine.ExecuteInOrder(LiftAll(cs));
      LiftAll(l.tests) == m.tests && l.ran == m.ran && l.aborted == m.aborted && l.outcome == m.outcome
    decreases cs
  {
    if cs != [] {
      var pc := LiftAll(cs);
      assert pc[0] == Lift(cs[0]) && pc[1..] == LiftAll(cs[1..]);
      TreeAgrees(cs[0]);
      var e := ExecuteTree(cs[0]);
      assert LiftAll([e.test] + cs[1..]) == [Lift(e.test)] + LiftAll(cs[1..]);
      if !e.outcome.Rethrown? && StatusOf(e.test) != Aborted {
        InOrderAgrees(cs[1..]);
        var rest := ExecuteInOrder(cs[1..]);
        assert LiftAll([e.test] + rest.tests) == [Lift(e.test)] + LiftAll(rest.tests);
      }
    }
  }

  // ---------------------------------------------------------------------------
  // Behaviour of the earlier engine on its own
  // ---------------------------------------------------------------------------

  /** Any thrown Issue aborts the earlier test, even a Notice, and a leaf
      never ends Skipped unless it started so. */
  lemma ThrownNoticeAborts(t: Test<LegacyAction>, m: string)
    requires t.Leaf? && t.prepare == [] && t.body == [ThrowIssue(Issue(Notice, m, "", None))]
    ensures ExecuteLeaf(t).outcome == Engine.Returned
    ensures StatusOf(ExecuteLeaf(t).test) == Aborted
    ensures ExecuteLeaf(t).test.result.issues == t.result.issues
  {
    assert t.prepare + t.body == t.body;
  }

  /** The unit-test scenario: warning, then blocker, then a warning that is
      never reached ends Aborted with one blocker, one warning, two issues. */
  lemma BlockerScenario(own: StoreRef)
    ensures var body := [WarningCall("It's a warning", "http://test.com"),
                         BlockerCall("Blocker!", "http://example.com"),
                         WarningCall("This warning should not be visible", "http://test.com")];
      var e := ExecuteTree(NewTest("Test", "It's a test", [], body, own));
      && e.outcome == Engine.Returned
      && StatusOf(e.test) == Aborted
      && |Blockers(e.test.result)| == 1
      && |Warnings(e.test.result)| == 1
      && |e.test.result.issues| == 2
  {
    var body := [WarningCall("It's a warning", "http://test.com"),
                 BlockerCall("Blocker!", "http://example.com"),
                 WarningCall("This warning should not be visible", "http://test.com")];
    var t := NewTest("Test", "It's a test", [], body, own);
    assert t.prepare + t.body == body;
    var f1 := Step(t.result, body[0]);
    assert body[1..][0] == body[1];
    var f2 := Step(f1.result, body[1]);
    assert Run(t.result, body) == f2;
    var w := Issue(Warning, "It's a warning", "http://test.com", None);
    var b := Issue(Blocker, "Blocker!", "http://example.com", None);
    assert f2.result.issues == [w, b];
    assert OfType([w, b][1..], Warning) == [];
    assert OfType([w, b][1..], Blocker) == [b];
  }

  /** The constructor keeps the name and description, and execute() does not change them. */
  lemma NameAndDescription(name: string, description: string, body: seq<LegacyAction>, own: StoreRef)
    ensures ExecuteTree(NewTest(name, description, [], body, own)).test.name == name
    ensures ExecuteTree(NewTest(name, description, [], body, own)).test.description == description
  {
  }
}

=== FILE: npm_checks.dfy ===
/** The package.json checks: the npm-scripts check (on the earlier engine,
    src/tests/npm-scripts.test.ts) and the two package-validation checks
    (src/tests/package-validation.test.ts and
    src/tests/npm/package-validation.test.ts). The parsed package.json is an
    input; a field that is absent is `None`, and reading through it throws. */
module NpmChecks {
  import opened Common
  import opened Issues
  import opened Results
  import opened TestTree
  import opened Engine
  import opened EngineLemmas
  import Legacy

  /** The fields of package.json the checks read: the scripts by name, and
      the keys of `dependencies` and `devDependencies` in their order. */
  datatype PackageJson = PackageJson(
    scripts: Option<map<string, string>>,
    dependencies: Option<seq<string>>,
    devDependencies: Option<seq<string>>)

  /** The TypeError raised by reading a property of an absent field. */
  const ReadOfUndefined: string := "TypeError: Cannot read properties of undefined"

  // ---------------------------------------------------------------------------
  // npm-scripts
  // ---------------------------------------------------------------------------

  const NpmScriptDoc: string := "https://docs.wpvip.com/technical-references/node-js/#h-requirement-2-production-dependencies-and-npm-scripts"
  const StartMissing: string := "package.json is missing a npm start script"
  const BuildMissing: string := "package.json is missing a npm build script"
  const ServePresent: string := "Looks like your package.json has a npm serve script. "
    + "Please make sure this is not the script running your application. Your application must be served "
    + "using npm start."

  /** A script is truthy when it is present and not the empty string. */
  predicate Truthy(scripts: map<string, string>, name: string) {
    name in scripts && scripts[name] != ""
  }

  /** `run()` of the npm-scripts check. Its `blocker` throws, so a missing
      `start` is the only issue even when `build` is missing too. */
  function NpmScriptsRun(scripts: Option<map<string, string>>): (s: seq<Legacy.LegacyAction>)
    ensures |s| <= 1
  {
    match scripts
    case None => [Legacy.ThrowFault(ReadOfUndefined)]
    case Some(m) =>
      if !Truthy(m, "start") then [Legacy.BlockerCall(StartMissing, NpmScriptDoc)]
      else if !Truthy(m, "build") then [Legacy.BlockerCall(BuildMissing, NpmScriptDoc)]
      else if Truthy(m, "serve") then [Legacy.WarningCall(ServePresent, NpmScriptDoc)]
      else []
  }

  const NpmScriptsName: string := "Check NPM script in the project"
  const NpmScriptsDescription: string := "Checks your package.json for `npm build` and `npm start`"

  function NpmScriptsTest(pkg: PackageJson, own: StoreRef): (t: Test<Legacy.LegacyAction>)
    ensures t.Leaf? && t.result == NewResult()
  {
    NewTest(NpmScriptsName, NpmScriptsDescription, [], NpmScriptsRun(pkg.scripts), own)
  }

  /** The npm-scripts check never ends Failed: it is Aborted with the one
      blocker iff `start` or `build` is missing (naming `start` first), else
      PartialSuccess with the one warning iff `serve` is present, else
      Success with no issue. */
  lemma NpmScriptsOutcome(pkg: PackageJson, own: StoreRef)
    requires pkg.scripts.Some?
    ensures var m := pkg.scripts.value;
      var e := Legacy.ExecuteLeaf(NpmScriptsTest(pkg, own));
      var issues := e.test.result.issues;
      && e.outcome == Returned
      && StatusOf(e.test) != Failed
      && (StatusOf(e.test) == Aborted <==> !Truthy(m, "start") || !Truthy(m, "build"))
      && (StatusOf(e.test) == PartialSuccess <==> Truthy(m, "start") && Truthy(m, "build") && Truthy(m, "serve"))
      && (StatusOf(e.test) == Success <==> Truthy(m, "start") && Truthy(m, "build") && !Truthy(m, "serve"))
      && (!Truthy(m, "start") ==> issues == [Issue(Blocker, StartMissing, NpmScriptDoc, None)])
      && (Truthy(m, "start") && !Truthy(m, "build") ==> issues == [Issue(Blocker, BuildMissing, NpmScriptDoc, None)])
      && (StatusOf(e.test) == Success <==> issues == [])
  {
    var t := NpmScriptsTest(pkg, own);
    var s := t.prepare + t.body;
    assert s == t.body;
    if s != [] {
      assert s[1..] == [];
      var f := Legacy.Step(t.result, s[0]);
      assert Legacy.Run(t.result, s) == if f.thrown.Some? then f else Legacy.Run(f.result, []);
      if s[0].WarningCall? {
        var w := Issue(Warning, ServePresent, NpmScriptDoc, None);
        assert f.result.issues == [w];
        assert OfType([w], Error) == [] && OfType([w], Warning) == [w] by {
          assert [w][1..] == [];
        }
      } else {
        assert f.result.issues == [Issue(Blocker, s[0].message, NpmScriptDoc, None)];
      }
    }
  }

  /** Without a `scripts` field the check's first read throws, and the
      earlier engine rethrows it with the test still NotStarted. */
  lemma NpmScriptsWithoutScripts(pkg: PackageJson, own: StoreRef)
    requires pkg.scripts.None?
    ensures var e := Legacy.ExecuteLeaf(NpmScriptsTest(pkg, own));
      e.outcome == Rethrown(FaultThrown(ReadOfUndefined)) && e.test.result == NewResult()
  {
    var t := NpmScriptsTest(pkg, own);
    assert t.prepare + t.body == t.body;
  }

  // ---------------------------------------------------------------------------
  // package validation
  // ---------------------------------------------------------------------------

  /** Packages whose absence the checks report, and those they recommend. */
  const RequiredPackages: seq<string> := ["@automattic/vip-go"]
  const RecommendedPackages: seq<string> := ["jest"]
  /** The documentation placeholder both checks pass. */
  const PackageDoc: string := "TBD"

  /** The packages of `pkgs`, in order, that are not among `deps`. */
  function MissingFrom(pkgs: seq<string>, deps: seq<string>): (m: seq<string>)
    ensures |m| <= |pkgs|
    ensures forall p :: p in m <==> p in pkgs && p !in deps
    decreases |pkgs|
  {
    if pkgs == [] then []
    else
      var rest := MissingFrom(pkgs[1..], deps);
      assert forall p :: p in pkgs <==> p == pkgs[0] || p in pkgs[1..];
      if pkgs[0] in deps then rest else [pkgs[0]] + rest
  }

  /** The message reporting a missing package of the given kind. */
  function MissingMessage(kind: string, name: string): string {
    "Missing " + kind + " package " + name
  }

  /** One `error` (or `warning`) call per missing package, in order. */
  function MissingCalls(names: seq<string>, kind: string, asError: bool): (s: seq<Action>)
    ensures |s| == |names|
    ensures forall i :: 0 <= i < |s| ==>
      && (if asError then s[i].ErrorCall? else s[i].WarningCall?)
      && s[i].message == MissingMessage(kind, names[i])
      && s[i].doc == PackageDoc && s[i].data == None
  {
    seq(|names|, i requires 0 <= i < |names| =>
      var m := MissingMessage(kind, names[i]);
      if asError then ErrorCall(m, PackageDoc, None) else WarningCall(m, PackageDoc, None))
  }

  /** A script made only of `error` and `warning` calls. */
  predicate OnlyFindings(s: seq<Action>) {
    forall i :: 0 <= i < |s| ==> s[i].ErrorCall? || s[i].WarningCall?
  }

  /** The issue an `error` or `warning` call records. */
  function FindingIssue(a: Action): Issue
    requires a.ErrorCall? || a.WarningCall?
  {
    CreateIssue(if a.ErrorCall? then Error else Warning, a.message, a.doc, a.data)
  }

  /** Such a script returns normally and records one issue per call, in
      order, each of the call's kind with its message, documentation and data. */
  lemma {:induction false} FindingsRecorded(s: seq<Action>)
    requires OnlyFindings(s)
    ensures Quiet(s)
    ensures |RecordedAll(s)| == |s|
    ensures forall i :: 0 <= i < |s| ==> RecordedAll(s)[i] == FindingIssue(s[i])
    decreases |s|
  {
    if s != [] {
      assert OnlyFindings(s[1..]) by {
        forall i | 0 <= i < |s[1..]| ensures s[1..][i].ErrorCall? || s[1..][i].WarningCall? {
          assert s[1..][i] == s[i + 1];
        }
      }
      FindingsRecorded(s[1..]);
      assert RecordedAll(s) == [FindingIssue(s[0])] + RecordedAll(s[1..]);
      forall i | 1 <= i < |s| ensures RecordedAll(s)[i] == FindingIssue(s[i]) {
        assert s[1..][i - 1] == s[i];
      }
    }
  }

  lemma CallsAppend(a: seq<Action>, b: seq<Action>)
    ensures CallsError(a + b) <==> CallsError(a) || CallsError(b)
    ensures CallsWarning(a + b) <==> CallsWarning(a) || CallsWarning(b)
  {
    if CallsError(a + b) {
      var i :| 0 <= i < |a + b| && (a + b)[i].ErrorCall?;
      if i >= |a| { assert b[i - |a|] == (a + b)[i]; }
    }
    if CallsError(b) {
      var i :| 0 <= i < |b| && b[i].ErrorCall?;
      assert (a + b)[|a| + i] == b[i];
    }
    if CallsError(a) {
      var i :| 0 <= i < |a| && a[i].ErrorCall?;
      assert (a + b)[i] == a[i];
    }
    if CallsWarning(a) {
      var i :| 0 <= i < |a| && a[i].WarningCall?;
      assert (a + b)[i] == a[i];
    }
    if CallsWarning(a + b) {
      var i :| 0 <= i < |a + b| && (a + b)[i].WarningCall?;
      if i >= |a| { assert b[i - |a|] == (a + b)[i]; }
    }
    if CallsWarning(b) {
      var i :| 0 <= i < |b| && b[i].WarningCall?;
      assert (a + b)[|a| + i] == b[i];
    }
  }

  /** The two loops of `run()`: one call per missing required package, then
      one per missing recommended package, each with its own severity. */
  function ValidationRun(deps: seq<string>, requiredAsError: bool): (s: seq<Action>)
    ensures OnlyFindings(s)
    ensures |s| == |MissingFrom(RequiredPackages, deps)| + |MissingFrom(RecommendedPackages, deps)|
  {
    var s := MissingCalls(MissingFrom(RequiredPackages, deps), "required", requiredAsError)
             + MissingCalls(MissingFrom(RecommendedPackages, deps), "recommended", false);
    assert forall i :: 0 <= i < |s| ==> s[i].ErrorCall? || s[i].WarningCall?;
    s
  }

  lemma ValidationCalls(deps: seq<string>, requiredAsError: bool)
    ensures CallsError(ValidationRun(deps, requiredAsError)) <==> requiredAsError && "@automattic/vip-go" !in deps
    ensures CallsWarning(ValidationRun(deps, requiredAsError)) <==>
      (!requiredAsError && "@automattic/vip-go" !in deps) || "jest" !in deps
  {
    var req := MissingFrom(RequiredPackages, deps);
    var rec := MissingFrom(RecommendedPackages, deps);
    var a := MissingCalls(req, "required", requiredAsError);
    var b := MissingCalls(rec, "recommended", false);
    CallsAppend(a, b);
    assert req != [] <==> "@automattic/vip-go" !in deps by {
      if req != [] { assert req[0] in req; }
      if "@automattic/vip-go" !in deps { assert "@automattic/vip-go" in req; }
    }
    assert rec != [] <==> "jest" !in deps by {
      if rec != [] { assert rec[0] in rec; }
      if "jest" !in deps { assert "jest" in rec; }
    }
    if a != [] { assert a[0].ErrorCall? || a[0].WarningCall?; }
    if b != [] { assert b[0].WarningCall?; }
    assert !CallsError(b);
    assert requiredAsError ==> !CallsWarning(a);
    assert !requiredAsError ==> !CallsError(a);
  }

  /** What the two loops record: first one issue per missing required
      package, in order, then one warning per missing recommended package. */
  lemma ValidationIssues(deps: seq<string>, requiredAsError: bool)
    ensures var req, rec := MissingFrom(RequiredPackages, deps), MissingFrom(RecommendedPackages, deps);
      var found := RecordedAll(ValidationRun(deps, requiredAsError));
      && |found| == |req| + |rec|
      && (forall i :: 0 <= i < |req| ==>
            found[i] == CreateIssue(if requiredAsError then Error else Warning, MissingMessage("required", req[i]), PackageDoc, None))
      && (forall j :: 0 <= j < |rec| ==>
            found[|req| + j] == CreateIssue(Warning, MissingMessage("recommended", rec[j]), PackageDoc, None))
  {
    var req, rec := MissingFrom(RequiredPackages, deps), MissingFrom(RecommendedPackages, deps);
    var a := MissingCalls(req, "required", requiredAsError);
    var b := MissingCalls(rec, "recommended", false);
    var s := ValidationRun(deps, requiredAsError);
    assert s == a + b;
    FindingsRecorded(s);
    var found := RecordedAll(s);
    forall i | 0 <= i < |req|
      ensures found[i] == CreateIssue(if requiredAsError then Error else Warning, MissingMessage("required", req[i]), PackageDoc, None)
    {
      assert s[i] == a[i];
      assert found[i] == FindingIssue(a[i]);
    }
    forall j | 0 <= j < |rec|
      ensures found[|req| + j] == CreateIssue(Warning, MissingMessage("recommended", rec[j]), PackageDoc, None)
    {
      assert s[|req| + j] == b[j];
      assert found[|req| + j] == FindingIssue(b[j]);
    }
  }

  /** `run()` of package-validation.test.ts: `Object.keys` of an absent
      `dependencies` throws; a missing required package is an error, a
      missing recommended one a warning. */
  function PackageValidationRun(pkg: PackageJson): seq<Action> {
    match pkg.dependencies
    case None => [ThrowFault(ReadOfUndefined)]
    case Some(deps) => ValidationRun(deps, true)
  }

  /** `run()` of npm/package-validation.test.ts: the keys of both
      `dependencies` and `devDependencies` count, and every missing package
      is only a warning. */
  function NpmPackageValidationRun(pkg: PackageJson): seq<Action> {
    match (pkg.dependencies, pkg.devDependencies)
    case (Some(deps), Some(dev)) => ValidationRun(deps + dev, false)
    case _ => [ThrowFault(ReadOfUndefined)]
  }

  const PackageValidationName: string := "Check usage of required and recommended packages"
  const PackageValidationDescription: string :=
    "Checks if the project is using the necessary packages in the production dependencies"

  function PackageValidationTest(pkg: PackageJson, own: StoreRef): (t: Test<Action>)
    ensures t.Leaf? && t.result == NewResult()
  {
    NewTest(PackageValidationName, PackageValidationDescription, [], PackageValidationRun(pkg), own)
  }

  function NpmPackageValidationTest(pkg: PackageJson, own: StoreRef): (t: Test<Action>)
    ensures t.Leaf? && t.result == NewResult()
  {
    NewTest(PackageValidationName, PackageValidationDescription, [], NpmPackageValidationRun(pkg), own)
  }

  /** package-validation.test.ts: Failed iff `@automattic/vip-go` is not a
      dependency; otherwise PartialSuccess iff `jest` is not; otherwise
      Success. One issue per missing package. */
  lemma PackageValidationOutcome(pkg: PackageJson, own: StoreRef)
    requires pkg.dependencies.Some?
    ensures var deps := pkg.dependencies.value;
      var e := ExecuteLeaf(PackageValidationTest(pkg, own));
      && e.outcome == Returned
      && e.test.result.issues == RecordedAll(ValidationRun(deps, true))
      && |e.test.result.issues| == |MissingFrom(RequiredPackages, deps)| + |MissingFrom(RecommendedPackages, deps)|
      && (StatusOf(e.test) == Failed <==> "@automattic/vip-go" !in deps)
      && (StatusOf(e.test) == PartialSuccess <==> "@automattic/vip-go" in deps && "jest" !in deps)
      && (StatusOf(e.test) == Success <==> "@automattic/vip-go" in deps && "jest" in deps)
  {
    var t := PackageValidationTest(pkg, own);
    var s := ValidationRun(pkg.dependencies.value, true);
    assert t.prepare + t.body == s;
    FindingsRecorded(s);
    ValidationCalls(pkg.dependencies.value, true);
    LeafCompletes(t);
    FreshLeafClassification(t);
  }

  /** npm/package-validation.test.ts: never Failed nor Aborted; PartialSuccess
      iff either package is missing from both lists, else Success. */
  lemma NpmPackageValidationOutcome(pkg: PackageJson, own: StoreRef)
    requires pkg.dependencies.Some? && pkg.devDependencies.Some?
    ensures var all := pkg.dependencies.value + pkg.devDependencies.value;
      var e := ExecuteLeaf(NpmPackageValidationTest(pkg, own));
      && e.outcome == Returned
      && e.test.result.issues == RecordedAll(ValidationRun(all, false))
      && |e.test.result.issues| == |MissingFrom(RequiredPackages, all)| + |MissingFrom(RecommendedPackages, all)|
      && StatusOf(e.test) != Failed && StatusOf(e.test) != Aborted
      && (StatusOf(e.test) == PartialSuccess <==> "@automattic/vip-go" !in all || "jest" !in all)
      && (StatusOf(e.test) == Success <==> "@automattic/vip-go" in all && "jest" in all)
  {
    var t := NpmPackageValidationTest(pkg, own);
    var all := pkg.dependencies.value + pkg.devDependencies.value;
    var s := ValidationRun(all, false);
    assert t.prepare + t.body == s;
    FindingsRecorded(s);
    ValidationCalls(all, false);
    LeafCompletes(t);
    FreshLeafClassification(t);
  }

  /** Without the dependency lists both checks throw from `run()`, with the
      test still NotStarted. */
  lemma PackageValidationWithoutDependencies(pkg: PackageJson, own: StoreRef)
    requires pkg.dependencies.None?
    ensures ExecuteLeaf(PackageValidationTest(pkg, own)).outcome == Rethrown(FaultThrown(ReadOfUndefined))
    ensures ExecuteLeaf(NpmPackageValidationTest(pkg, own)).outcome == Rethrown(FaultThrown(ReadOfUndefined))
    ensures StatusOf(ExecuteLeaf(PackageValidationTest(pkg, own)).test) == NotStarted
  {
    var t := PackageValidationTest(pkg, own);
    var u := NpmPackageValidationTest(pkg, own);
    assert (t.prepare + t.body)[..0] == [] && (u.prepare + u.body)[..0] == [];
    LeafUnwinds(t, 0);
    LeafUnwinds(u, 0);
  }
}

=== FILE: store.dfy ===
/** The keyed container shared by the orchestrator and every test
    (src/lib/stores/store.ts). A store is a finite map from string keys to
    values of one element type; the two failing operations return an error. */
module Stores {
  import opened Common

  type Store<V> = map<string, V>

  datatype StoreError = KeyAlreadyExists | KeyDontExist

  /** `new Store()` */
  function Empty<V>(): (s: Store<V>)
    ensures Length(s) == 0
  {
    map[]
  }

  /** `exists`: the key is one of the store's own keys, so an empty store
      has none. */
  predicate Exists<V>(s: Store<V>, key: string): (b: bool)
    ensures b ==> Length(s) > 0
  {
    key in s
  }

  /** `set`: create or overwrite; never fails. */
  function Set<V>(s: Store<V>, key: string, value: V): (r: Store<V>)
    ensures Exists(r, key) && r[key] == value
    ensures forall k :: k != key ==> (Exists(r, k) <==> Exists(s, k))
    ensures forall k :: k != key && k in s ==> k in r && r[k] == s[k]
  {
    s[key := value]
  }

  /** `add`: fails with KeyAlreadyExists when the key is present, otherwise behaves as `set`.
      Returns the updated store so that calls can be chained. */
  function Add<V>(s: Store<V>, key: string, value: V): (r: Result<Store<V>, StoreError>)
    ensures Exists(s, key) <==> r == Err(KeyAlreadyExists)
    ensures !Exists(s, key) ==> r == Ok(Set(s, key, value))
  {
    if Exists(s, key) then Err(KeyAlreadyExists) else Ok(Set(s, key, value))
  }

  /** `get`: fails with KeyDontExist when the key is absent. */
  function Get<V>(s: Store<V>, key: string): (r: Result<V, StoreError>)
    ensures r.Ok? <==> Exists(s, key)
    ensures r.Err? ==> r.error == KeyDontExist
    ensures r.Ok? ==> r.value == s[key]
  {
    if !Exists(s, key) then Err(KeyDontExist) else Ok(s[key])
  }

  /** `merge`: the spread `{...store, ...other}`; keys of `other` win. */
  function Merge<V>(s: Store<V>, other: map<string, V>): (r: Store<V>)
    ensures r.Keys == s.Keys + other.Keys
    ensures forall k :: k in other ==> r[k] == other[k]
    ensures forall k :: k in s && k !in other ==> r[k] == s[k]
  {
    s + other
  }

  /** `length`: the number of keys. */
  function Length<V>(s: Store<V>): (n: nat)
    ensures n == |s.Keys|
  {
    |s|
  }

  /** After a successful add, get of that key returns the added value. */
  lemma AddThenGet<V>(s: Store<V>, key: string, value: V)
    requires !Exists(s, key)
    ensures Add(s, key, value).Ok?
    ensures Get(Add(s, key, value).value, key) == Ok(value)
    ensures Length(Add(s, key, value).value) == Length(s) + 1
  {
  }

  /** A second add of the same key fails and leaves the store as it was. */
  lemma AddTwiceFails<V>(s: Store<V>, key: string, v1: V, v2: V)
    requires !Exists(s, key)
    ensures Add(Add(s, key, v1).value, key, v2) == Err(KeyAlreadyExists)
  {
  }

  /** Repeated set of one key always succeeds and the last value wins;
      the number of keys grows by at most one. */
  lemma SetOverwrites<V>(s: Store<V>, key: string, x: V, y: V)
    ensures Set(Set(s, key, x), key, y) == Set(s, key, y)
    ensures Get(Set(Set(s, key, x), key, y), key) == Ok(y)
    ensures Length(Set(s, key, x)) == if Exists(s, key) then Length(s) else Length(s) + 1
  {
    assert Set(s, key, x).Keys == s.Keys + {key};
  }

  /** Merge is the right-biased union: merging a map whose keys are all new adds
      exactly their number of keys; merging into the empty store copies the map. */
  lemma MergeCounts<V>(s: Store<V>, other: map<string, V>)
    ensures s.Keys !! other.Keys ==> Length(Merge(s, other)) == Length(s) + Length(other)
    ensures Merge(Empty(), other) == other
  {
    if s.Keys !! other.Keys {
      assert Merge(s, other).Keys == s.Keys + other.Keys;
    }
  }

  /** The scenario of the store's own unit tests: add "hello", then merge two
      fresh keys, giving three keys and the merged value readable. */
  lemma MergeScenario<V>(a: V, b: V, c: V)
    requires Add(Empty(), "hello", a).Ok?
    ensures var s := Merge(Add(Empty(), "hello", a).value, map["SOME_KEY" := b, "OTHER_KEY" := c]);
            Length(s) == 3 && Get(s, "OTHER_KEY") == Ok(c)
  {
    var s0 := Add(Empty<V>(), "hello", a).value;
    var s := Merge(s0, map["SOME_KEY" := b, "OTHER_KEY" := c]);
    assert s.Keys == {"hello", "SOME_KEY", "OTHER_KEY"};
  }
}

=== FILE: testresult.dfy ===
/** The outcome record a test owns (src/lib/results/testresult.ts): a status
    and the issues raised, in the order they were raised. */
module Results {
  import opened Common
  import opened Issues

  /** The status enum. The enum in src/lib/results/testresult.ts has no
      `Skipped`, but the engine sets and compares it, so it is part of the model. */
  datatype Status = NotStarted | Success | PartialSuccess | Failed | Aborted | Skipped

  /** `TestResultType[s]`, the label used by `getTypeString` and `toJSON`. */
  function StatusLabel(s: Status): string {
    match s
    case NotStarted => "NotStarted"
    case Success => "Success"
    case PartialSuccess => "PartialSuccess"
    case Failed => "Failed"
    case Aborted => "Aborted"
    case Skipped => "Skipped"
  }

  /** Reading a label back, as a consumer of the JSON report does. */
  function ParseStatusLabel(text: string): (r: Option<Status>)
    ensures r.Some? ==> StatusLabel(r.value) == text
  {
    if text == "NotStarted" then Some(NotStarted)
    else if text == "Success" then Some(Success)
    else if text == "PartialSuccess" then Some(PartialSuccess)
    else if text == "Failed" then Some(Failed)
    else if text == "Aborted" then Some(Aborted)
    else if text == "Skipped" then Some(Skipped)
    else None
  }

  lemma StatusLabelRoundTrip(s: Status)
    ensures ParseStatusLabel(StatusLabel(s)) == Some(s)
  {
  }

  datatype TestResult = TestResult(status: Status, issues: seq<Issue>)

  /** `new TestResult(test)` */
  function NewResult(): (r: TestResult)
    ensures r.status == NotStarted && !HasIssues(r)
  {
    TestResult(NotStarted, [])
  }

  /** `addIssue`: append at the end, status untouched. */
  function AddIssue(r: TestResult, i: Issue): (r': TestResult)
    ensures r'.status == r.status
    ensures |r'.issues| == |r.issues| + 1 && r'.issues[..|r.issues|] == r.issues && r'.issues[|r.issues|] == i
  {
    r.(issues := r.issues + [i])
  }

  /** `setResult`: overwrite the status, whatever it was. */
  function SetResult(r: TestResult, s: Status): (r': TestResult)
    ensures r'.status == s && r'.issues == r.issues
  {
    r.(status := s)
  }

  predicate HasIssues(r: TestResult) {
    |r.issues| > 0
  }

  /** `issuesList.filter(el => el.type === k)` */
  function OfType(xs: seq<Issue>, k: IssueType): (r: seq<Issue>)
    ensures |r| <= |xs|
  {
    if xs == [] then []
    else (if xs[0].kind == k then [xs[0]] else []) + OfType(xs[1..], k)
  }

  /** The filter keeps every issue of its type as often as it occurs, and
      nothing else. */
  lemma {:induction false} OfTypeCounts(xs: seq<Issue>, k: IssueType)
    ensures forall x :: multiset(OfType(xs, k))[x] == if x.kind == k then multiset(xs)[x] else 0
    decreases |xs|
  {
    if xs != [] {
      OfTypeCounts(xs[1..], k);
      assert xs == [xs[0]] + xs[1..];
      assert multiset(xs) == multiset{xs[0]} + multiset(xs[1..]);
    }
  }

  function Blockers(r: TestResult): seq<Issue> { OfType(r.issues, Blocker) }
  function Errors(r: TestResult): seq<Issue> { OfType(r.issues, Error) }
  function Warnings(r: TestResult): seq<Issue> { OfType(r.issues, Warning) }
  function Notices(r: TestResult): seq<Issue> { OfType(r.issues, Notice) }

  /** Filtering distributes over concatenation, so every filter keeps the
      relative order of the issues it selects. */
  lemma {:induction false} OfTypeAppend(xs: seq<Issue>, ys: seq<Issue>, k: IssueType)
    ensures OfType(xs + ys, k) == OfType(xs, k) + OfType(ys, k)
  {
    if xs == [] {
      assert xs + ys == ys;
    } else {
      var h := if xs[0].kind == k then [xs[0]] else [];
      assert (xs + ys)[0] == xs[0] && (xs + ys)[1..] == xs[1..] + ys;
      assert OfType(xs + ys, k) == h + OfType(xs[1..] + ys, k);
      OfTypeAppend(xs[1..], ys, k);
      var a, b := OfType(xs[1..], k), OfType(ys, k);
      assert h + (a + b) == (h + a) + b;
    }
  }

  /** The four filters split the issue list: their lengths add up to its length. */
  lemma {:induction false} FiltersPartition(xs: seq<Issue>)
    ensures |OfType(xs, Blocker)| + |OfType(xs, Error)| + |OfType(xs, Warning)| + |OfType(xs, Notice)| == |xs|
  {
    if xs != [] {
      FiltersPartition(xs[1..]);
    }
  }

  /** Adding an issue extends exactly the filter of its own type, at the end. */
  lemma AddIssueFilters(r: TestResult, i: Issue, k: IssueType)
    ensures OfType(AddIssue(r, i).issues, k) == OfType(r.issues, k) + (if i.kind == k then [i] else [])
  {
    OfTypeAppend(r.issues, [i], k);
  }

  /** The default classification of `processResult`: Failed when there is an
      Error, else PartialSuccess when there is a Warning, else Success. */
  function Classify(errors: seq<Issue>, warnings: seq<Issue>): (s: Status)
    ensures s == Failed <==> |errors| > 0
    ensures s == PartialSuccess <==> |errors| == 0 && |warnings| > 0
    ensures s == Success <==> |errors| == 0 && |warnings| == 0
  {
    if |errors| > 0 then Failed
    else if |warnings| > 0 then PartialSuccess
    else Success
  }

  /** `toJSON`: the owning test's name and description, the status label and
      the issues in insertion order. */
  datatype ResultJson = ResultJson(name: string, description: string, result: string, issues: seq<Issue>)

  function ToJson(name: string, description: string, r: TestResult): (j: ResultJson)
    ensures ParseStatusLabel(j.result) == Some(r.status)
    ensures j.issues == r.issues && j.name == name && j.description == description
  {
    StatusLabelRoundTrip(r.status);
    ResultJson(name, description, StatusLabel(r.status), r.issues)
  }

  /** Reading a serialised result back. */
  function FromJson(j: ResultJson): Option<TestResult> {
    match ParseStatusLabel(j.result)
    case Some(s) => Some(TestResult(s, j.issues))
    case None => None
  }

  /** Serialising a result and reading it back preserves the status and the
      issues with their order and messages. */
  lemma JsonRoundTrip(name: string, description: string, r: TestResult)
    ensures FromJson(ToJson(name, description, r)) == Some(r)
  {
  }
}

=== FILE: testtree.dfy ===
/** The composite of tests (src/lib/tests/test.ts, src/lib/tests/testsuite.ts,
    src/lib/results/testsuiteresult.ts). A test is a leaf with a `prepare`
    and a `run` body, or a suite with a `prepare` body and an ordered list of
    children it owns. Bodies are scripts over an action type `A`, so the
    current engine and the earlier one share the tree. Each node carries the
    result it owns and the reference of the store injected into it. */
module TestTree {
  import opened Common
  import opened Issues
  import opened Results
  import opened Stores

  /** Identity of a store instance; tests hold the store by reference. */
  type StoreRef = nat

  datatype Test<A> =
    | Leaf(name: string, description: string, prepare: seq<A>, body: seq<A>, result: TestResult, options: StoreRef)
    | Suite(name: string, description: string, prepare: seq<A>, children: seq<Test<A>>, result: TestResult, options: StoreRef)

  /** The constructor of a test: a new result and a store of its own. */
  function NewTest<A>(name: string, description: string, prepare: seq<A>, body: seq<A>, own: StoreRef): (t: Test<A>)
    ensures t.Leaf? && t.name == name && t.description == description
    ensures t.result.status == NotStarted && t.result.issues == []
  {
    Leaf(name, description, prepare, body, NewResult(), own)
  }

  /** The constructor of a suite: no children yet. */
  function NewSuite<A>(name: string, description: string, prepare: seq<A>, own: StoreRef): (t: Test<A>)
    ensures t.Suite? && t.children == [] && t.name == name && t.description == description
    ensures t.result.status == NotStarted && t.result.issues == []
  {
    Suite(name, description, prepare, [], NewResult(), own)
  }

  function StatusOf<A>(t: Test<A>): Status { t.result.status }

  /** The same node with another result (the node's own result object is
      mutated in place by the source; here it is replaced). */
  function WithResult<A>(t: Test<A>, r: TestResult): (u: Test<A>)
    ensures u.result == r && u.Leaf? == t.Leaf? && u.name == t.name && u.description == t.description
    ensures u.prepare == t.prepare && u.options == t.options
    ensures u.Leaf? ==> u.body == t.body
    ensures u.Suite? ==> u.children == t.children
  {
    match t
    case Leaf(n, d, p, b, _, o) => Leaf(n, d, p, b, r, o)
    case Suite(n, d, p, cs, _, o) => Suite(n, d, p, cs, r, o)
  }

  // ---------------------------------------------------------------------------
  // Live getters. A leaf filters its own issues; a suite's result overrides
  // the four getters to concatenate its children's getters, in child order.
  // ---------------------------------------------------------------------------

  function TypeFilter<A>(t: Test<A>, k: IssueType): seq<Issue>
    decreases t
  {
    match t
    case Leaf(_, _, _, _, r, _) => OfType(r.issues, k)
    case Suite(_, _, _, cs, _, _) => ForestFilter(cs, k)
  }

  function ForestFilter<A>(cs: seq<Test<A>>, k: IssueType): seq<Issue>
    decreases cs
  {
    if cs == [] then [] else TypeFilter(cs[0], k) + ForestFilter(cs[1..], k)
  }

  /** Reference definition: the issues owned by the leaves below a node, in
      tree order. Issues a suite recorded on itself are not part of it. */
  function LeafIssues<A>(t: Test<A>): seq<Issue>
    decreases t
  {
    match t
    case Leaf(_, _, _, _, r, _) => r.issues
    case Suite(_, _, _, cs, _, _) => ForestLeafIssues(cs)
  }

  function ForestLeafIssues<A>(cs: seq<Test<A>>): seq<Issue>
    decreases cs
  {
    if cs == [] then [] else LeafIssues(cs[0]) + ForestLeafIssues(cs[1..])
  }

  /** Each live getter of a node is the type filter of the issues its leaves own. */
  lemma {:induction false} TypeFilterIsLeafFilter<A>(t: Test<A>, k: IssueType)
    ensures TypeFilter(t, k) == OfType(LeafIssues(t), k)
    decreases t
  {
    match t
    case Leaf(_, _, _, _, _, _) =>
    case Suite(_, _, _, cs, _, _) => ForestFilterIsLeafFilter(cs, k);
  }

  lemma {:induction false} ForestFilterIsLeafFilter<A>(cs: seq<Test<A>>, k: IssueType)
    ensures ForestFilter(cs, k) == OfType(ForestLeafIssues(cs), k)
    decreases cs
  {
    if cs != [] {
      TypeFilterIsLeafFilter(cs[0], k);
      ForestFilterIsLeafFilter(cs[1..], k);
      OfTypeAppend(LeafIssues(cs[0]), ForestLeafIssues(cs[1..]), k);
    }
  }

  /** A suite's getters do not look at the issues recorded on the suite itself
      (they are still in its own `issues()` list), nor at its own status. */
  lemma SuiteGettersIgnoreOwnResult<A>(t: Test<A>, r: TestResult, k: IssueType)
    requires t.Suite?
    ensures TypeFilter(t.(result := r), k) == TypeFilter(t, k)
  {
  }

  /** The getters of a suite whose children have not recorded anything are
      empty, whatever the suite recorded on itself. */
  lemma {:induction false} QuietChildrenGiveEmptyGetters<A>(cs: seq<Test<A>>, k: IssueType)
    requires forall i :: 0 <= i < |cs| ==> LeafIssues(cs[i]) == []
    ensures ForestFilter(cs, k) == []
    decreases |cs|
  {
    if cs != [] {
      TypeFilterIsLeafFilter(cs[0], k);
      QuietChildrenGiveEmptyGetters(cs[1..], k);
    }
  }

  // ---------------------------------------------------------------------------
  // results(), addTest, setOptions
  // ---------------------------------------------------------------------------

  /** `TestSuiteResult.results()`: the children's results, in order, leaving out
      children that have not started. A nested suite contributes its own result
      (the node), not its children's. */
  function SuiteResults<A>(cs: seq<Test<A>>): (rs: seq<Test<A>>)
    ensures |rs| <= |cs|
    ensures forall i :: 0 <= i < |rs| ==> StatusOf(rs[i]) != NotStarted
  {
    if cs == [] then []
    else (if StatusOf(cs[0]) != NotStarted then [cs[0]] else []) + SuiteResults(cs[1..])
  }

  /** results() holds exactly the started children. */
  lemma {:induction false} SuiteResultsMembers<A>(cs: seq<Test<A>>)
    ensures forall t :: t in SuiteResults(cs) <==> t in cs && StatusOf(t) != NotStarted
    decreases |cs|
  {
    if cs != [] {
      SuiteResultsMembers(cs[1..]);
      assert cs == [cs[0]] + cs[1..];
    }
  }

  /** results() keeps the children's order: it distributes over concatenation. */
  lemma {:induction false} SuiteResultsAppend<A>(xs: seq<Test<A>>, ys: seq<Test<A>>)
    ensures SuiteResults(xs + ys) == SuiteResults(xs) + SuiteResults(ys)
  {
    if xs == [] {
      assert xs + ys == ys;
    } else {
      assert (xs + ys)[1..] == xs[1..] + ys;
      SuiteResultsAppend(xs[1..], ys);
    }
  }

  /** `addTest`: append one child at the end; the suite itself is returned. */
  function AddTest<A>(s: Test<A>, child: Test<A>): (r: Test<A>)
    requires s.Suite?
    ensures r.Suite? && r.children == s.children + [child]
    ensures r.name == s.name && r.description == s.description && r.result == s.result && r.options == s.options
  {
    s.(children := s.children + [child])
  }

  /** Because a suite's getters read the live child list, a child added after
      construction is reflected at once. */
  lemma AddTestIsLive<A>(s: Test<A>, child: Test<A>, k: IssueType)
    requires s.Suite?
    ensures TypeFilter(AddTest(s, child), k) == TypeFilter(s, k) + TypeFilter(child, k)
    ensures SuiteResults(AddTest(s, child).children)
         == SuiteResults(s.children) + (if StatusOf(child) != NotStarted then [child] else [])
  {
    ForestFilterAppend(s.children, [child], k);
    SuiteResultsAppend(s.children, [child]);
  }

  lemma {:induction false} ForestFilterAppend<A>(xs: seq<Test<A>>, ys: seq<Test<A>>, k: IssueType)
    ensures ForestFilter(xs + ys, k) == ForestFilter(xs, k) + ForestFilter(ys, k)
  {
    if xs == [] {
      assert xs + ys == ys;
    } else {
      assert (xs + ys)[1..] == xs[1..] + ys;
      ForestFilterAppend(xs[1..], ys, k);
    }
  }

  /** Every node of the tree holds store `s`. */
  predicate AllHold<A>(t: Test<A>, s: StoreRef)
    decreases t
  {
    t.options == s && (t.Suite? ==> forall i :: 0 <= i < |t.children| ==> AllHold(t.children[i], s))
  }

  /** `setOptions`: a test takes the store; a suite also hands it to every child,
      recursively. Nothing but the store references changes. */
  function SetOptions<A>(t: Test<A>, s: StoreRef): (r: Test<A>)
    ensures AllHold(r, s)
    ensures r.Leaf? == t.Leaf? && r.name == t.name && r.description == t.description
    ensures r.result == t.result && r.prepare == t.prepare
    ensures r.Leaf? ==> r.body == t.body
    ensures r.Suite? ==> |r.children| == |t.children|
    decreases t
  {
    match t
    case Leaf(_, _, _, _, _, _) => t.(options := s)
    case Suite(_, _, _, cs, _, _) =>
      t.(options := s, children := SetOptionsAll(cs, s))
  }

  function SetOptionsAll<A>(cs: seq<Test<A>>, s: StoreRef): (rs: seq<Test<A>>)
    ensures |rs| == |cs|
    ensures forall i :: 0 <= i < |rs| ==> rs[i] == SetOptions(cs[i], s)
    decreases cs
  {
    if cs == [] then [] else [SetOptions(cs[0], s)] + SetOptionsAll(cs[1..], s)
  }

  /** Injecting a store does not change what any getter reports, and the last
      injection wins. */
  lemma {:induction false} SetOptionsKeepsIssues<A>(t: Test<A>, s: StoreRef, s2: StoreRef, k: IssueType)
    ensures TypeFilter(SetOptions(t, s), k) == TypeFilter(t, k)
    ensures SetOptions(SetOptions(t, s), s2) == SetOptions(t, s2)
    decreases t
  {
    match t
    case Leaf(_, _, _, _, _, _) =>
    case Suite(_, _, _, cs, _, _) =>
      forall i | 0 <= i < |cs|
        ensures TypeFilter(SetOptions(cs[i], s), k) == TypeFilter(cs[i], k)
        ensures SetOptions(SetOptions(cs[i], s), s2) == SetOptions(cs[i], s2)
      {
        SetOptionsKeepsIssues(cs[i], s, s2, k);
      }
      ForestFilterPointwise(SetOptionsAll(cs, s), cs, k);
      assert SetOptionsAll(SetOptionsAll(cs, s), s2) == SetOptionsAll(cs, s2);
  }

  lemma {:induction false} ForestFilterPointwise<A>(xs: seq<Test<A>>, ys: seq<Test<A>>, k: IssueType)
    requires |xs| == |ys|
    requires forall i :: 0 <= i < |xs| ==> TypeFilter(xs[i], k) == TypeFilter(ys[i], k)
    ensures ForestFilter(xs, k) == ForestFilter(ys, k)
    decreases |xs|
  {
    if xs != [] {
      ForestFilterPointwise(xs[1..], ys[1..], k);
    }
  }

  // ---------------------------------------------------------------------------
  // save / get on the injected store
  // ---------------------------------------------------------------------------

  /** The keys the orchestrator owns; a test may not overwrite them. */
  predicate Reserved(key: string) {
    key == "site" || key == "env"
  }

  datatype Saved<V> = Saved(ok: bool, store: Store<V>)

  /** `Test.save`: refuses the reserved keys, otherwise sets the key. */
  function Save<V>(s: Store<V>, key: string, value: V): (r: Saved<V>)
    ensures r.ok <==> !Reserved(key)
    ensures !r.ok ==> r.store == s
    ensures r.ok ==> Get(r.store, key) == Ok(value) && forall k :: k != key ==> Get(r.store, k) == Get(s, k)
  {
    if Reserved(key) then Saved(false, s) else Saved(true, Set(s, key, value))
  }

  /** `Test.get`: the stored value, or `None` where the source returns `false`
      after catching the store's KeyDontExist error. */
  function Load<V>(s: Store<V>, key: string): (r: Option<V>)
    ensures r.None? <==> !Exists(s, key)
    ensures r.Some? ==> Get(s, key) == Ok(r.value)
  {
    match Get(s, key)
    case Ok(v) => Some(v)
    case Err(_) => None
  }

  /** A successful save is visible to a later load from any test holding the same store. */
  lemma SaveThenLoad<V>(s: Store<V>, key: string, value: V)
    requires !Reserved(key)
    ensures Load(Save(s, key, value).store, key) == Some(value)
    ensures Load(Save(s, "site", value).store, "site") == Load(s, "site")
  {
  }

  // ---------------------------------------------------------------------------
  // toJSON
  // ---------------------------------------------------------------------------

  /** The JSON shape of a result: a leaf's `{name, description, result, issues}`
      or a suite's `{name, description, result, tests}` where `tests` is the
      serialised `results()`. */
  datatype TestJson =
    | LeafJson(json: ResultJson)
    | SuiteJson(name: string, description: string, result: string, tests: seq<TestJson>)

  function ToJsonTree<A>(t: Test<A>): (j: TestJson)
    ensures t.Leaf? ==> j.LeafJson? && j.json == ToJson(t.name, t.description, t.result)
    ensures t.Suite? ==> j.SuiteJson? && j.name == t.name && j.description == t.description
                         && ParseStatusLabel(j.result) == Some(t.result.status)
                         && |j.tests| == |SuiteResults(t.children)|
    decreases t
  {
    match t
    case Leaf(n, d, _, _, r, _) => LeafJson(ToJson(n, d, r))
    case Suite(n, d, _, cs, r, _) =>
      StatusLabelRoundTrip(r.status);
      SuiteJson(n, d, StatusLabel(r.status), ResultsJson(cs))
  }

  /** The serialised `results()` of a child list. */
  function ResultsJson<A>(cs: seq<Test<A>>): (js: seq<TestJson>)
    ensures |js| == |SuiteResults(cs)|
    decreases cs
  {
    if cs == [] then []
    else (if StatusOf(cs[0]) != NotStarted then [ToJsonTree(cs[0])] else []) + ResultsJson(cs[1..])
  }

  /** A suite's `tests` field is the JSON of each started child, in order. */
  lemma {:induction false} ResultsJsonEach<A>(cs: seq<Test<A>>)
    ensures |ResultsJson(cs)| == |SuiteResults(cs)|
    ensures forall i :: 0 <= i < |ResultsJson(cs)| ==> ResultsJson(cs)[i] == ToJsonTree(SuiteResults(cs)[i])
    decreases |cs|
  {
    if cs != [] {
      ResultsJsonEach(cs[1..]);
      var js', rs' := ResultsJson(cs[1..]), SuiteResults(cs[1..]);
      if StatusOf(cs[0]) != NotStarted {
        assert ResultsJson(cs) == [ToJsonTree(cs[0])] + js';
        assert SuiteResults(cs) == [cs[0]] + rs';
      } else {
        assert ResultsJson(cs) == js';
        assert SuiteResults(cs) == rs';
      }
    }
  }
}
